=== FILE: README.md ===
# Sonder shop core in Dafny

A functional model of the logic at the heart of the Sonder online shop (a
Django back end with two small front-end scripts), with the properties the
code promises stated as contracts and lemmas.

What is modelled, one module per part of the program:

- `Cart` (`cart.dfy`): the session cart of `shop/views.py`. It is an
  insertion-ordered list of `(pid, qty)` entries. The module covers:
  - `cart_add` and `cart_update` with their 400/404 refusals;
  - `_cart_totals`, `_cart_context` and `_get_cart_rows`;
  - the 1..99 clamping, and deletion when a quantity reaches 0.
- `Checkout` (`checkout.dfy`): `checkout_submit`, from the cart rows to the
  placed order. It covers:
  - `_post` with its fallback keys;
  - the delivery/pickup split;
  - where the contact handle goes, and method inference;
  - `resolve_contact_value`;
  - the order lines, the totals and the pending payment;
  - the two refusals (empty cart, missing e-mail).
- `Customers` (`customers.dfy`): from `shop/services.py` and `Customer` in
  `shop/models.py`. It covers:
  - username and e-mail normalisation, and `username_validator`;
  - `_coerce_contact_pref` and `preferred_contact_value`;
  - `Customer.save`;
  - the merge rules of `upsert_customer_from_checkout`.
- `Orders` (`orders.dfy`): `Order.save` numbering (`№-0001`),
  `recalc_totals` and `OrderItem.save`.
- `Settings` (`settings.dfy`): the reserved category slug, the one-record
  settings tables (`save` guard and `get_solo`), and
  `HomePageSettings.featured_blocks`.
- `Storefront` (`storefront.dfy`): the catalogue sort choice, the
  product-page gallery without duplicate URLs, and the related-products
  fill.
- `AdminMenu` (`admin_menu.dfy`): `SonderAdminSite.get_app_list` of
  `core/admin_site.py`, which filters, groups and sorts the registry with
  its fixed tables.
- `ShopAdmin` (`shop_admin.dfy`): the form and fieldset rules of
  `shop/admin.py`:
  - the photo-inline extra count;
  - `OrderItemForm` clean/save;
  - provider choices and `clean_delivery_provider`;
  - the pickup section swap;
  - `save_related` totals;
  - the category and home-page fieldsets.
- `MiniCart` (`mini_cart.dfy`): `frontend/static/js/cart-mini.js`. It covers
  the icon state, `renderItems`, and how summary and update responses are
  applied to the panel.
- `CheckoutClient` (`checkout_client.dfy`):
  `frontend/static/js/checkout-submit.js`. It covers the empty-cart guard,
  building the request body, and the handling of each response outcome.
- Support modules:
  - `Text`: Python/JavaScript string operations the code relies on
    (`strip`, `trim`, `lower`, `capitalize`, `int()`, `str()`, zero padding).
  - `Sorting`: tuple keys and a sort.
  - `Wrappers`: `Option`.

Inputs the program takes from its surroundings are parameters:

- the product table as a map;
- the POST data as a string map;
- the primary key the database hands out;
- the parsed shipping cost and discount;
- the fetch outcomes seen by the scripts.

Money is integral throughout, because every price and total column has
`decimal_places=0`, so amounts are `int`.

Points where the code behaves in ways that are easy to miss, and which the
model follows:

- The cart icon is not a function of `count > 0` alone. The script sets the
  "added" picture right after an add click and keeps it when the refresh
  fails (`MiniCart.AfterAdd`). With no "added" picture configured, the icons
  never change.
- The checkout guard does not count cart rows. It looks for an element with
  the class `product-line-placing` inside `#cart-lines`, and the placeholder
  the script writes after a success carries that same class (see Findings).
- `cart_update` accepts a fourth action, `set`, besides increment, decrement
  and remove, and refuses any other action with a 400.
- A checkout success never carries a `payment_url`: the view does not send
  one. The script's redirect branch is modelled but cannot be reached against
  the server (`CheckoutClient.ServerRepliesShown`).
- A re-save of an existing customer runs `Customer.save`, which normalises
  both stored handles again, so a stored "@x" becomes "x" even when the
  checkout gave no handle (`Customers.UpsertRenormalisesHandle`).

## Model

| member | source | states |
|---|---|---|
| Cart.QtyOfWellFormed | shop/views.py:222 | on a well-formed cart the stored quantity is 0 exactly for an absent key and otherwise within 1..99 |
| Cart.Without | shop/views.py:250 | `pop` removes exactly that key; every other key keeps its quantity and nothing new appears |
| Cart.WithoutWellFormed | shop/views.py:249-250 | removing a key keeps keys unique and quantities within 1..99 |
| Cart.WithoutTwice | shop/views.py:250 | popping a key twice is popping it once |
| Cart.Put | shop/views.py:223 | storing a quantity adds the key (at the end if new, in place otherwise) and changes no other key's quantity |
| Cart.PutWellFormed | shop/views.py:252-268 | storing a quantity in 1..99 keeps the cart well formed |
| Cart.CartTotals | shop/views.py:187-202 | the count is non-negative and is 0 exactly when no entry's product is sellable; with non-negative prices the total is non-negative |
| Cart.CartTotalsEmpty | shop/views.py:189-190 | an empty cart totals (0, 0) |
| Cart.ContextItems | shop/views.py:163-182 | one item per sellable entry in session order, with the catalogue's name, slug and price, a quantity of at least 1, and line total price times quantity |
| Cart.ContextItemsQty | shop/views.py:177 | each summary line shows exactly `max(1, qty)` of the quantity stored for its product |
| Cart.ContextMatchesTotals | shop/views.py:152-184 | the summary's total and count equal `_cart_totals` on the same cart |
| Cart.ContextEmptyIffNoCount | shop/views.py:152-184 | the summary lists no items exactly when the count is 0 |
| Cart.CartRows | shop/views.py:381-406 | order rows come only from non-negative, sellable entries, with quantity at least 1 and the catalogue name and price |
| Cart.CartRowsQty | shop/views.py:403 | each order row carries exactly `max(1, qty)` of the quantity stored for its product |
| Cart.RowsInSellableIds | shop/views.py:389-404 | every order row is for a product the summary lists |
| Cart.RowsFollowSummary | shop/views.py:389-404 | with non-negative catalogue keys, the order rows are for exactly the summary's products, in session order |
| Cart.RowsMatchTotals | shop/views.py:381-406 | with non-negative ids, the rows sum to `_cart_totals`' total and count, and are empty exactly when the count is 0 |
| Cart.CartAdd | shop/views.py:205-228 | a bad id or quantity gives 400 and an unsellable product 404, both with the cart untouched; otherwise the clamped quantity accumulates up to 99, other keys are untouched and the reply carries the cart totals |
| Cart.AccumulateWellFormed | shop/views.py:217-223 | accumulating a 1..99 quantity keeps the cart well formed; no quantity shrinks or passes 99 |
| Cart.CartAddWellFormed | shop/views.py:217-224 | `cart_add` keeps the session cart well formed; quantities only grow and stay at most 99 |
| Cart.ApplyAction | shop/views.py:249-270 | remove pops; plus gives min(99, cur+1); minus decrements or pops at 0; set clamps to 0..99 and pops at 0, with a bad qty refused; any other action is refused; other keys never change |
| Cart.ApplyActionWellFormed | shop/views.py:249-270 | every action the view accepts leaves a well-formed cart well formed |
| Cart.CartUpdate | shop/views.py:231-290 | bad id gives 400, unsellable 404, a refused action its 400, all with the cart untouched; otherwise the reply's qty is the stored one, `removed` iff it is 0, the line total is price times qty (0 when removed), and the totals are the cart's |
| Cart.CartUpdateWellFormed | shop/views.py:247-281 | `cart_update` keeps the cart well formed, and `removed` holds exactly when the key is gone |
| Checkout.FirstFilled | shop/views.py:421-430 | the first key whose trimmed value is non-empty, with all earlier ones empty; none exactly when all are empty |
| Checkout.PostField | shop/views.py:421-430 | `_post` is "" exactly when every key's trimmed value is empty; otherwise it is the first non-empty trimmed value |
| Checkout.DeliveryOf | shop/views.py:452 | courier exactly when provider, country or city is given, keeping the provider and a comma-stripped address; otherwise provider and method "pickup", the pickup point kept and no delivery address |
| Checkout.ResolveHandles | shop/views.py:475-486 | the generic handle fills the chosen network's field only when it is empty; a given method is kept; an empty one becomes "ig" or "tg" only when exactly that handle is set |
| Checkout.InferredMethodHasHandle | shop/views.py:481-486 | an inferred method always names the one handle given; with no inference both handles are empty or both are set |
| Checkout.PrefArgument | shop/views.py:493-505 | the preference passed to the upsert is the method itself for the four known methods and nothing otherwise |
| Checkout.ContactValue | shop/views.py:509-519 | the field matching the method wins when filled; a non-empty e-mail guarantees a non-empty contact value; the value is always one of the contact fields or the preferred contact value |
| Checkout.OrderLines | shop/views.py:547-560 | one saved order line per cart row, with its id, name, quantity and price, and line totals summing to the rows' subtotal |
| Checkout.PlaceOrder | shop/views.py:521-573 | the order gets the new key and its `№-` number, which reads back to the key, the contact and delivery fields, currency BYN, one saved line per cart row (`OrderLines`), subtotal the rows' sum, total subtotal + shipping - discount (a fixed point of `recalc_totals`), and a pending payment of the total |
| Checkout.Accept | shop/views.py:492-577 | the customer table is the upsert's result and gains only the normalised e-mail; the order has the new key and number, the e-mail and phone, the chosen method or else the upserted customer's preference, the `resolve_contact_value` choice (never empty), the delivery split including the pickup point, one line per row, the totals and a pending payment; the cart is emptied |
| Checkout.Gate | shop/views.py:442-460 | empty rows give "empty cart" and an empty e-mail gives "email required", both changing nothing; otherwise the order is placed |
| Checkout.CheckoutSubmit | shop/views.py:433-592 | the refusals occur exactly for no cart rows and for an empty e-mail, and change nothing; a placed order has the lines of the session's cart rows and the contact method and value worked out from the form's fields and the upserted customer, with every other property of `Accept` |
| Checkout.CheckoutMatchesCartTotals | shop/views.py:548-563 | the order's subtotal equals the mini-cart total, and the cart is refused as empty exactly when its count is 0 |
| Checkout.CheckoutPickup | shop/views.py:532-535 | a form without provider, country and city places a pickup order with no delivery address |
| Checkout.EmptyCartRefused | shop/views.py:443-445 | an empty session cart is refused whatever the form says, and nothing changes |
| Customers.NormalizeUsername | shop/services.py:5-10 | the result is the e-mail normalisation (trimmed, lower-cased) of the input, with exactly one leading "@" removed when the trimmed input starts with one; no longer than the input and with no upper-case letter |
| Customers.NormalizeUsernameNotIdempotent | shop/services.py:5-10 | "@@a" normalises to "@a" and again to "a", so normalising is not idempotent |
| Customers.NormalizeUsernameFixedPoint | shop/models.py:513-521 | a normalised handle that is trimmed and has no leading "@" survives a second normalisation, as on a re-save |
| Customers.NormalizeEmail | shop/services.py:13-14 | no longer than the input, no upper-case letter, no whitespace at either end |
| Customers.NormalizeEmailIdempotent | shop/services.py:13-14 | normalising an e-mail twice equals normalising it once |
| Customers.ValidUsernameTrailingNewline | shop/models.py:9-12 | the validator's `$` accepts "ab\n" |
| Customers.NormalizeValidUsername | shop/models.py:9-12 | a valid handle normalises to its lower-cased body (final newline dropped), stays valid, and is then a fixed point |
| Customers.CoercePref | shop/services.py:17-33 | a preference results exactly when the value is non-empty and its lower-cased, trimmed form is one of the four names, and then its name is that form |
| Customers.CoercePrefValue | shop/services.py:22-32 | each preference's own name coerces back to it |
| Customers.SaveCustomer | shop/models.py:513-525 | saving normalises both handles and the e-mail and leaves name, phone and preference alone |
| Customers.PreferredContactValue | shop/models.py:527-535 | the value is the field the preference names |
| Customers.SetIfNew | shop/services.py:68-75 | an empty trimmed input keeps the stored value; otherwise the trimmed input is stored |
| Customers.SetHandleIfNew | shop/services.py:68-75 | as `SetIfNew` with the input normalised as a username |
| Customers.Upsert | shop/services.py:36-93 | the record is stored under the normalised e-mail; it is created exactly when that key is new, with the new-customer defaults; an existing e-mail is kept (normalised when re-saved) |
| Customers.UpsertKeys | shop/services.py:54-63 | the upsert adds at most the normalised e-mail as a key |
| Customers.NewCustomerStable | shop/services.py:54-81 | a just-created record already holds every value the merge would write, so it is not saved again |
| Customers.UpsertMerge | shop/services.py:65-91 | for an existing customer, name and phone change only to a non-empty input and the preference only to a valid one; a handle takes a non-empty normalised input, and on a re-save both handles and the e-mail are normalised again by `Customer.save`; the record is re-saved exactly when something differs |
| Customers.UpsertRenormalisesHandle | shop/services.py:85-91 | a name-only update of a customer stored with handle "@x" re-saves the record and leaves the handle "x" |
| Customers.UpsertEmptyKeeps | shop/services.py:68-91 | empty inputs leave an existing customer and the table unchanged and unsaved |
| Customers.UpsertTableOk | shop/services.py:49-63 | the table stays keyed by its records' own normalised e-mails |
| Customers.UpsertPhoneContact | shop/services.py:82-85 | asking for phone contact with a phone number makes that number the preferred contact value |
| Orders.OrderNumber | shop/models.py:640 | the number is "№-" followed by at least four digits |
| Orders.ParseOrderNumberRoundTrip | shop/models.py:640 | the order number reads back to its primary key |
| Orders.OrderNumberInjective | shop/models.py:566-573 | different keys give different numbers, as the unique column requires |
| Orders.SaveOrder | shop/models.py:637-643 | a first save assigns the new key and a number reading back to it; a later save changes nothing; no other field is touched |
| Orders.SaveOrderKeepsNumber | shop/models.py:637-643 | once numbered, later saves keep the key and number |
| Orders.SaveItem | shop/models.py:674-680 | the line total is (price or 0) times qty; an empty name is filled from the product; id, qty and price are kept |
| Orders.SaveItemIdempotent | shop/models.py:674-680 | saving an item again changes nothing |
| Orders.RecalcTotals | shop/models.py:645-652 | the subtotal is the sum of line totals and the total differs from it by shipping minus discount; no other field changes |
| Orders.RecalcTotalsIdempotent | shop/models.py:645-652 | recalculating twice equals recalculating once |
| Orders.RecalcOfSavedItems | shop/models.py:645-652 | for saved items the subtotal is the sum of (price or 0) times qty |
| Settings.SlugReservedExactly | shop/models.py:55-60 | exactly the eight letter-case spellings of "new" are refused |
| Settings.SaveNew | shop/models.py:85-90 | saving a new record is refused exactly for a guarded model whose table is non-empty; otherwise the row is appended with the next key |
| Settings.GetSolo | shop/models.py:76-82 | the first record if any, else a newly created sole record |
| Settings.GuardedStaysSolo | shop/models.py:76-90 | for the guarded models neither `save` nor `get_solo` can make a second record |
| Settings.GetSoloStable | shop/models.py:303-305 | once `get_solo` has answered, it keeps answering the same record and leaves the table alone |
| Settings.HomeAllowsSecondRecord | shop/models.py:303-305 | the home-page settings have no guard: a direct save after `get_solo` leaves two records |
| Settings.FeaturedBlocks | shop/models.py:269-294 | one block per filled slot in slot order; the title falls back to the category name, the image to the banner or ""; a crop is named exactly when the slot has an image, under that slot's `featured_i_crop` |
| Settings.BlocksMatchSlots | shop/models.py:277-293 | the k-th block is built from the k-th filled slot |
| Storefront.CatalogOrdering | shop/views.py:76-77 | the four named sorts map to their orderings and anything else to "-id" |
| Storefront.CatalogOrderingCovers | shop/views.py:76-77 | every ordering comes from one of the named choices and is one of the four `order_by` fields |
| Storefront.Push | shop/views.py:107-111 | a slide is appended exactly for a non-empty URL not seen before, and it is `{url, alt, cover}` as given; otherwise nothing changes; the URLs gain exactly that one and stay distinct |
| Storefront.PushPhotos | shop/views.py:118-119 | the photo loop keeps the slides so far, adds no cover, keeps URLs distinct, and adds exactly the active photos' non-empty URLs |
| Storefront.PushPhotosPicks | shop/views.py:102-119 | the loop appends, in query order, one slide per active photo that is the first with its URL (non-empty and not already shown), with alt `ph.alt or product.name` |
| Storefront.Gallery | shop/views.py:104-119 | no empty or repeated URL; exactly the cover and the active photos' URLs; the cover first when present, with the product name as alt, and the only slide marked cover |
| Storefront.GallerySlides | shop/views.py:102-119 | the gallery is the cover slide, when there is one, followed by the picked photo slides in query order |
| Storefront.GalleryPhotoSlide | shop/views.py:117-119 | every other slide is the slide of the first active photo with that URL, the cover's URL excluded, carrying its alt or else the product name |
| Storefront.Related | shop/views.py:121-142 | at most four products, all active, from the listing, and never the current one |
| Storefront.RelatedDistinct | shop/views.py:132-142 | no product is suggested twice |
| Storefront.RelatedSameCategoryFirst | shop/views.py:125-142 | products of the current category come before all others |
| Storefront.RelatedComplete | shop/views.py:133-141 | fewer than four suggestions only when every other active product is already among them |
| Storefront.RelatedIsFirstFour | shop/views.py:121-142 | the suggestions are the first four of: the current category's active products, then the other categories' active products, each in listing order |
| Storefront.RelatedPrefersSameCategory | shop/views.py:125-131 | a product of the current category is left out only when four of that category were chosen, all listed before it |
| Storefront.FilterKeepsOrder | shop/views.py:125-141 | a filtered query lists its products in the order of the unfiltered one |
| AdminMenu.SectionOrderByTitle | core/admin_site.py:18-34 | every model maps to one of the four sections, and a section's order depends only on its title |
| AdminMenu.AppLabel | core/admin_site.py:81 | the label is as long as the title, has no spaces and no upper-case letters; every space becomes `_` and every other character is the title's, lower-cased |
| AdminMenu.MenuEntry | core/admin_site.py:88-96 | the name is the capitalised plural name; the row names the model's key; the changelist URL name is `admin:<app>_<model>_changelist`; the add URL name `admin:<app>_<model>_add` exists iff add is granted; view-only iff view and not change |
| AdminMenu.FindGroup | core/admin_site.py:78 | the group with that title, or none exactly when no group has it |
| AdminMenu.Collect | core/admin_site.py:59-96 | after the loop each section met holds exactly its listed models in registry order, is non-empty and carries its table order, and every listed model's section is present |
| AdminMenu.CollectStep | core/admin_site.py:61-96 | one loop turn preserves that invariant |
| AdminMenu.SortModels | core/admin_site.py:99-105 | each section's rows become a sorted permutation of themselves |
| AdminMenu.AppList | core/admin_site.py:58-110 | every listed model's section is shown; titles are distinct; each section is non-empty, holds exactly its listed models sorted by (rank, name) and has its derived label; sections are sorted by (order, title) |
| AdminMenu.MembersComplete | core/admin_site.py:61-96 | a listed model's row is among its section's rows |
| AdminMenu.MembersSound | core/admin_site.py:61-96 | every row of a section comes from a listed model mapped to that section |
| AdminMenu.ListedShownOnce | core/admin_site.py:58-110 | each listed model appears in the section its key maps to and in no other |
| AdminMenu.ShownAreListed | core/admin_site.py:63-72 | only models with some permission that are not hidden reach the menu |
| AdminMenu.CatalogueFirst | core/admin_site.py:107 | the catalogue section, when shown, is first |
| AdminMenu.OperationsLast | core/admin_site.py:107 | the operations section, when shown, is last |
| Sorting.KeyLeTotal | core/admin_site.py:101-107 | tuple comparison of (rank, name) keys is total |
| Sorting.KeyLeTransitive | core/admin_site.py:101-107 | tuple comparison is transitive |
| Sorting.KeyLeAntisymmetric | core/admin_site.py:101-107 | tuple comparison is antisymmetric |
| Sorting.Sort | core/admin_site.py:100-107 | the result is sorted by the key and is a permutation of the input |
| ShopAdmin.PhotoExtra | shop/admin.py:93-100 | never negative and at most 3; 3 on the add page; otherwise it fills up to 3 and is 0 once there are 3 photos |
| ShopAdmin.CleanItem | shop/admin.py:565-572 | a falsy price is taken from the chosen product and a falsy qty becomes 1; truthy values are kept; the cleaned qty is truthy |
| ShopAdmin.CleanItemIdempotent | shop/admin.py:565-572 | cleaning twice equals cleaning once |
| ShopAdmin.FormLineTotalAgrees | shop/admin.py:574-578 | the form's line total equals the one `OrderItem.save` recomputes right after |
| ShopAdmin.CleanedLineTotal | shop/admin.py:565-576 | after cleaning, the line total is price times a truthy quantity: the price itself when the quantity was defaulted |
| ShopAdmin.CleanProvider | shop/admin.py:554-556 | no longer than the input, no upper-case letter, no whitespace at either end, "" for None |
| ShopAdmin.CleanProviderIdempotent | shop/admin.py:554-556 | cleaning a cleaned provider changes nothing |
| ShopAdmin.ProviderChoices | shop/admin.py:533-543 | without choices, the fixed four; otherwise each key is kept with the Russian name of its lower-cased key, else its label, else the key |
| ShopAdmin.DefaultProvidersLabelled | shop/admin.py:510-542 | relabelling the fixed list leaves it unchanged |
| ShopAdmin.ProviderChoicesIdempotent | shop/admin.py:533-539 | relabelling twice equals relabelling once |
| ShopAdmin.OrderFieldsets | shop/admin.py:652-670 | only the "Доставка" sections are replaced (pickup note for a pickup order, provider and address otherwise); every other section keeps its place and content |
| ShopAdmin.OrderBaseFieldsets | shop/admin.py:625-670 | a pickup order shows the declared fieldsets; a courier order differs only in the middle one |
| ShopAdmin.CheckoutPickupShownAsPickup | shop/admin.py:652-657 | an order checkout placed without a courier is shown as a pickup |
| ShopAdmin.ItemsSum | shop/admin.py:677-685 | `Coalesce(Sum(qty * price), 0)`, with NULL products skipped by SUM, equals the sum of the saved line values (price or 0) times qty |
| ShopAdmin.SqlSumIsLineValues | shop/admin.py:677-685 | the SQL aggregate with NULL read as 0 is the sum of the line values, and is NULL exactly when no item has a price |
| ShopAdmin.SaveRelated | shop/admin.py:673-689 | subtotal and total both become the items' sum; no other field changes |
| ShopAdmin.SaveRelatedVersusRecalc | shop/admin.py:687-689 | the subtotal agrees with `recalc_totals`; the totals differ by shipping minus discount, and agree exactly when those are equal |
| ShopAdmin.CategoryFieldsets | shop/admin.py:50-74 | a category with a parent gets the first declared fieldset without its last row and no banner fieldset; otherwise the declared fieldsets |
| ShopAdmin.SubCategoryFieldsSubset | shop/admin.py:50-74 | the sub-category form's fields are name, slug and parent, a strict subset of the declared ones without `position` or any banner field |
| ShopAdmin.HomeFieldsets | shop/admin.py:282-295 | the first fieldset is kept; the second gets three rows of slot fields, each with its crop field exactly when the saved record has that image |
| ShopAdmin.HomeCropMatchesBlocks | shop/admin.py:286-291 | the page offers a crop field for exactly the slots whose home-page block is cropped, under the name the block uses |
| MiniCart.SetIcons | frontend/static/js/cart-mini.js:27-35 | with `active` and a configured picture every icon shows it; otherwise every icon shows its original |
| MiniCart.SetIconsLastWins | frontend/static/js/cart-mini.js:27-35 | only the last call counts, so a repeated call changes nothing |
| MiniCart.LineOf | frontend/static/js/cart-mini.js:76-102 | a line carries the item's name and size, links to the product page exactly when there is a URL, shows the image or else the placeholder, and its id, quantity and "<line_total> BYN" texts read back as the item's numbers |
| MiniCart.RenderItems | frontend/static/js/cart-mini.js:65-104 | an empty list gives one placeholder, icons at rest and total "0"; otherwise one line per item in order, each the item's drawn line, icons and total untouched |
| MiniCart.Refresh | frontend/static/js/cart-mini.js:107-120 | any failure leaves the panel as it was; success draws the items, shows the total, keeps the same icons and makes them show the add picture when the count is positive and one is configured, their original otherwise |
| MiniCart.AfterAdd | frontend/static/js/cart-mini.js:165-174 | after an add the icons are active unless a successful refresh says otherwise |
| MiniCart.ClickTargetsCartLine | frontend/static/js/cart-mini.js:122-133 | after a refresh against the server, a button of line k posts the k-th sellable cart product's id, which `cart_update` reads back as that product and finds sellable |
| MiniCart.ApplyMutation | frontend/static/js/cart-mini.js:143-163 | a failure changes nothing; an ok reply shows its total and sets the icons by its count; a removal drops only that line (placeholder, total "0" and icons at rest when none is left, panel kept open); an update rewrites only that line's qty and price |
| MiniCart.UpdateShownInPanel | frontend/static/js/cart-mini.js:143-163 | against `cart_update`, a kept line shows the product's new stored quantity and price times it, a removed line is gone, the total is the new cart total and the icons are active exactly when the cart counts items |
| MiniCart.RefreshShowsCart | frontend/static/js/cart-mini.js:107-116 | against the summary endpoint, the panel shows one line per sellable cart entry in session order, and the icons are active exactly when there is one |
| CheckoutClient.SetParam | frontend/static/js/checkout-submit.js:80 | afterwards the key has the single new value and every other key keeps its values |
| CheckoutClient.AppendParam | frontend/static/js/checkout-submit.js:83-88 | the value is added after the key's own values; other keys are unchanged |
| CheckoutClient.ToPostLastValue | shop/views.py:423 | the server sees exactly the keys the body has, each at its last value |
| CheckoutClient.BuildBodyValues | frontend/static/js/checkout-submit.js:70-88 | under every key the body carries the form's values, with the settled method replacing the radios, the trimmed handle after the chosen network's values, and the trimmed total as the hint |
| CheckoutClient.ServerReadsChoice | frontend/static/js/checkout-submit.js:70-88 | the server reads the settled method, the handle under the chosen network's key, the hint, and every other field as the form has it |
| CheckoutClient.SuccessMessage | frontend/static/js/checkout-submit.js:132-134 | the message is never empty and is the server's when it sent one |
| CheckoutClient.SubmitWith | frontend/static/js/checkout-submit.js:60-148 | an empty-looking cart alerts and sends nothing; otherwise the body is sent; a thrown fetch or a non-JSON body falls back to native submit; an error status alerts; `ok` false alerts with the server's message or the short one; success replaces the lines with the "Корзина пуста" placeholder, zeroes the total, shows the window with the message, and redirects exactly when `payment_url` is given |
| CheckoutClient.Respond | shop/views.py:579-592 | the refusals are non-JSON error responses; a placed order answers ok with its message, total and currency and no payment link |
| CheckoutClient.ServerRepliesShown | frontend/static/js/checkout-submit.js:109-143 | against the server a refusal gets the generic alert with the page unchanged; a placed order shows the server's message, zeroes the total and never redirects |
| CheckoutClient.PlaceholderOnlyInLines | frontend/static/js/checkout-submit.js:137-143 | the placeholder's class affects only the cart lines, not the actions or the rest of the page |
| CheckoutClient.SecondSubmitAfterSuccessSends | frontend/static/js/checkout-submit.js:139 | as written, after a success the placeholder counts as a cart line, so a second submit sends the form again |
| CheckoutClient.SecondSubmitGetsHttpAlert | frontend/static/js/checkout-submit.js:109-114 | the server refuses that repeated request as an empty cart and the customer sees the generic error alert |
| CheckoutClient.SecondSubmitAfterSuccessBlocked | frontend/static/js/checkout-submit.js:64-68 | with the placeholder under its own class, a second submit after success only alerts "Корзина пуста" and sends nothing |
| Text.ParseShowInt | shop/views.py:396-398 | `int(str(n)) == n`: a cart key written as `str(pid)` reads back as the same id |
| Text.ParseInt | shop/views.py:208-215 | `int()` refuses a blank string, accepts only strings ending in a digit, gives a negative value only after a leading minus, and reads a plain run of digits as its decimal value |
| Text.ParseIntAsciiOnly | shop/views.py:211-212 | the fullwidth digit "３" is refused, where Python reads it as 3 (the ASCII-only restriction stated under Left out) |
| Text.ShowIntAllDigits | shop/views.py:389 | `str(pid).isdigit()` holds exactly for non-negative ids |
| Text.PadLeft | shop/models.py:640 | zero padding reaches the width, keeps the digits at the end and fills only with the pad character |
| Text.TrimLower | shop/services.py:21 | lower-casing and trimming commute |
| Text.Capitalize | core/admin_site.py:89 | same length and same lower-case form; the first character is not lower-case and the rest are not upper-case |

## Left out

- I/O and infrastructure are abstract inputs:
  - the ORM, querysets, sessions, `@transaction.atomic`;
  - `JsonResponse`/`render`, `reverse` URL building;
  - `format_html` previews and status badges, date formatting;
  - the singleton `changelist_view` redirects;
  - CKEditor and image-cropping widgets;
  - fetch, cookies and CSRF headers, console logging.
- `_parse_decimal` and `_extract_utm_from_request` (shop/views.py:374-418): shipping and discount arrive as integers, and UTM capture is request metadata.
- Order `comment`, `utm`, `sku` and the payment `provider` column: stored text with no rule attached.
- The catalogue's section, tab and category filtering, pagination, `search_products`, `_menu_sections`, the `checkout` page view and the static pages: outside the modelled core.
- imageops/, search-mini.js, catalog_menu.js and shop/urls.py: library calls, debounce timing, DOM plumbing and routing.
- `ProductAdmin.save_related`, `lookup_view` and `get_search_results`, and the singleton admins' `has_add_permission`/`has_delete_permission`: file-field assignment and permission plumbing.
- `portalModalToBody`, the `showSuccess` fallback alert when showing the window throws, and the async ordering of overlapping refreshes: DOM exceptions and event-loop concurrency.
- Text.ParseInt: CPython's limit on integer string conversion (`sys.int_max_str_digits`, 4300 digits by default since 3.11 and 3.10.7) is not modelled: `int()` of a longer digit string raises `ValueError`, so `cart_add` or a `set` action with such a `qty` answers 400, while the model parses it and clamps it to 99. The limit is an interpreter setting, not part of the code.
- Text.ParseInt: only the ASCII digits 0-9 are read. Python's `int()` also accepts every other Unicode decimal digit (category Nd), so `cart_add` with `product_id="３"` adds product 3 while `Cart.CartAdd` answers 400 "bad params" (`Text.ParseIntAsciiOnly`). The Unicode digit tables are not modelled.
- Text.Lower: only Latin letters and the Cyrillic capitals U+0400 to U+042F are case-mapped; Python's and JavaScript's full Unicode case tables are not modelled.
- Cart.CartRows: the model's cart keys are integers, so the `int(pid_str)` failure branch of `_get_cart_rows` (a key that is not a number) cannot occur; the views only ever write `str(int)` keys.
- Storefront.Related: takes the product table already in `order_by("-is_new", "-id")` order rather than computing that order.
- MiniCart.Refresh: assumes the JSON answers carry every field; the `|| []`, `|| '0'` and `|| 0` defaults for missing fields are not modelled.
- AdminMenu.AppList: rows with equal (rank, name) keys keep registry order in the sort, but the contract states only sortedness and the multiset of rows.
- Customers.Upsert: `updated_at` and the other timestamps are not modelled.

## Findings

| source | as written | input that shows it | evidently intended | confidence | as-written member | corrected member |
|---|---|---|---|---|---|---|
| frontend/static/js/checkout-submit.js:139 | after a successful order, the "Корзина пуста" placeholder is written with class `product-line-placing`, the very class the empty-cart guard at line 64 counts as a cart line | submit the checkout form, get `{ok: true}` without `payment_url`, then press submit again on the same page: the guard passes, the form is posted, the server answers 400 "empty cart", and the customer sees "Не удалось оформить заказ. Проверьте поля…" | the placeholder should not count as a line, so the second submit stops at the guard with "Корзина пуста" and nothing is posted | medium, not executed | CheckoutClient.SecondSubmitAfterSuccessSends | CheckoutClient.SecondSubmitAfterSuccessBlocked |

=== FILE: admin_menu.dfy ===
/**
 The side menu of the admin site (core/admin_site.py, `get_app_list`): the
 registered models the user may see, grouped into titled sections, models
 ordered inside a section and sections ordered among themselves.
 */
module AdminMenu {
  import opened Wrappers
  import opened Text
  import opened Sorting

  /** `(opts.app_label, opts.object_name)`. */
  datatype ModelKey = ModelKey(app: string, objectName: string)

  /** `get_model_perms(request)` for the current user. */
  datatype Perms = Perms(add: bool, change: bool, delete: bool, view: bool)

  /** One entry of the admin registry, in registration order. */
  datatype Registered = Registered(key: ModelKey, modelName: string, verboseNamePlural: string, perms: Perms)

  /** One model row of the menu. `adminUrl` and `addUrl` hold the URL names
      handed to `reverse`. */
  datatype MenuModel = MenuModel(
    name: string,
    objectName: string,
    appLabel: string,
    perms: Perms,
    adminUrl: string,
    addUrl: Option<string>,
    viewOnly: bool)

  /** A section while the menu is being collected, still carrying `_order`. */
  datatype Group = Group(title: string, order: int, models: seq<MenuModel>)

  /** A section as the menu shows it, `_order` popped. */
  datatype Section = Section(name: string, appLabel: string, appUrl: string, hasModulePerms: bool, models: seq<MenuModel>)

  // ------------------------------------------------------------ the tables

  /** `HIDE_MODELS`: the "Новинки" tab settings never show. */
  predicate Hidden(k: ModelKey)
  {
    k == ModelKey("shop", "NewTabSettings")
  }

  const Catalogue: string := "Каталог"
  const Content: string := "Контент и страницы"
  const Administration: string := "Администрирование"
  const Operations: string := "Операции"

  /** `MODEL_GROUP.get(key, ("Контент и страницы", 100))`. */
  function SectionOf(k: ModelKey): (string, int)
  {
    if k in {ModelKey("shop", "Category"), ModelKey("shop", "Product")} then (Catalogue, 10)
    else if k in {ModelKey("auth", "User"), ModelKey("auth", "Group")} then (Administration, 200)
    else if k in {ModelKey("shop", "Order"), ModelKey("shop", "Customer"),
                  ModelKey("shop", "Shipment"), ModelKey("shop", "Payment")} then (Operations, 900)
    else (Content, 100)
  }

  /** The order of a section by its title; the table gives every title one order. */
  function TitleOrder(t: string): int
  {
    if t == Catalogue then 10
    else if t == Administration then 200
    else if t == Operations then 900
    else 100
  }

  lemma SectionOrderByTitle(k: ModelKey)
    ensures SectionOf(k).1 == TitleOrder(SectionOf(k).0)
    ensures SectionOf(k).0 in {Catalogue, Content, Administration, Operations}
  {
  }

  /** `MODEL_ORDER.get(key, 500)`. */
  function ModelRank(k: ModelKey): int
  {
    if k == ModelKey("shop", "HomePageSettings") then 10
    else if k == ModelKey("shop", "AboutPageSettings") then 20
    else if k == ModelKey("shop", "ContactPageSettings") then 30
    else if k == ModelKey("shop", "DeliveryPageSettings") then 40
    else if k == ModelKey("shop", "Category") then 10
    else if k == ModelKey("shop", "Product") then 20
    else if k == ModelKey("auth", "User") then 10
    else if k == ModelKey("auth", "Group") then 20
    else if k == ModelKey("shop", "Customer") then 20
    else if k == ModelKey("shop", "Order") then 30
    else if k == ModelKey("shop", "Payment") then 40
    else if k == ModelKey("shop", "Shipment") then 50
    else 500
  }

  // ------------------------------------------------------------ one model

  /** Whether the registry entry reaches the menu: some permission is granted
      and the model is not hidden. */
  predicate Listed(e: Registered)
  {
    (e.perms.add || e.perms.change || e.perms.delete || e.perms.view) && !Hidden(e.key)
  }

  /** `section_title.lower().replace(" ", "_")`. */
  function AppLabel(title: string): (r: string)
    ensures |r| == |title|
    ensures forall i :: 0 <= i < |r| ==> r[i] != ' ' && !IsUpper(r[i])
    ensures forall i :: 0 <= i < |r| && title[i] != ' ' ==> r[i] == LowerChar(title[i])
    ensures forall i :: 0 <= i < |r| && title[i] == ' ' ==> r[i] == '_'
  {
    seq(|title|, i requires 0 <= i < |title| => if title[i] == ' ' then '_' else LowerChar(title[i]))
  }

  /** The menu row of a registered model: its capitalised plural name, and the
      changelist and (with the add permission) add URL names of the model's
      admin, which differ only in their last part. */
  function MenuEntry(e: Registered): (m: MenuModel)
    ensures m.name == Capitalize(e.verboseNamePlural)
    ensures Lower(m.name) == Lower(e.verboseNamePlural)
    ensures m.adminUrl == "admin:" + e.key.app + "_" + e.modelName + "_changelist"
    ensures m.addUrl.Some? ==> m.addUrl.value == "admin:" + e.key.app + "_" + e.modelName + "_add"
    ensures m.addUrl.Some? <==> e.perms.add
    ensures m.viewOnly <==> e.perms.view && !e.perms.change
    ensures ModelKey(m.appLabel, m.objectName) == e.key
  {
    var url := "admin:" + e.key.app + "_" + e.modelName;
    MenuModel(Capitalize(e.verboseNamePlural), e.key.objectName, e.key.app, e.perms,
              url + "_changelist",
              if e.perms.add then Some(url + "_add") else None,
              e.perms.view && !e.perms.change)
  }

  // ------------------------------------------------------------ collecting

  /** The rows section `t` gets, in registry order: one per listed model whose
      section is `t`. */
  function Members(reg: seq<Registered>, t: string): seq<MenuModel>
  {
    if |reg| == 0 then []
    else
      var n := |reg| - 1;
      Members(reg[..n], t) + (if Listed(reg[n]) && SectionOf(reg[n].key).0 == t then [MenuEntry(reg[n])] else [])
  }

  function Titles(gs: seq<Group>): (r: seq<string>)
    ensures |r| == |gs| && forall i :: 0 <= i < |gs| ==> r[i] == gs[i].title
  {
    seq(|gs|, i requires 0 <= i < |gs| => gs[i].title)
  }

  ghost predicate DistinctTitles(gs: seq<Group>)
  {
    forall i, j :: 0 <= i < j < |gs| ==> gs[i].title != gs[j].title
  }

  /** The position of the group titled `t`: the `section_title in groups` test. */
  function FindGroup(gs: seq<Group>, t: string): (r: Option<nat>)
    ensures r.Some? ==> r.value < |gs| && gs[r.value].title == t
    ensures r.None? <==> t !in Titles(gs)
  {
    if |gs| == 0 then None
    else if gs[|gs| - 1].title == t then Some(|gs| - 1)
    else
      var r := FindGroup(gs[..|gs| - 1], t);
      assert Titles(gs) == Titles(gs[..|gs| - 1]) + [gs[|gs| - 1].title];
      r
  }

  /** One turn of the loop for a listed model: open its section if needed and
      append its row. */
  function AddTo(gs: seq<Group>, e: Registered): seq<Group>
  {
    var (t, o) := SectionOf(e.key);
    match FindGroup(gs, t)
    case None => gs + [Group(t, o, [MenuEntry(e)])]
    case Some(i) => gs[i := gs[i].(models := gs[i].models + [MenuEntry(e)])]
  }

  /** What the loop has built after the registry prefix `reg`: one group per
      section title met so far, each holding exactly its members, in order. */
  ghost predicate GroupsOk(reg: seq<Registered>, gs: seq<Group>)
  {
    && DistinctTitles(gs)
    && (forall i :: 0 <= i < |gs| ==>
          gs[i].models == Members(reg, gs[i].title) && |gs[i].models| > 0 && gs[i].order == TitleOrder(gs[i].title))
    && (forall k :: 0 <= k < |reg| && Listed(reg[k]) ==> SectionOf(reg[k].key).0 in Titles(gs))
    && (forall t :: t !in Titles(gs) ==> Members(reg, t) == [])
  }

  /** The `for model, model_admin in self._registry.items()` loop. */
  function Collect(reg: seq<Registered>): (gs: seq<Group>)
    ensures GroupsOk(reg, gs)
  {
    if |reg| == 0 then []
    else
      var n := |reg| - 1;
      var gs := Collect(reg[..n]);
      var r := if Listed(reg[n]) then AddTo(gs, reg[n]) else gs;
      CollectStep(reg, gs);
      r
  }

  lemma {:induction false} CollectStep(reg: seq<Registered>, gs: seq<Group>)
    requires |reg| > 0
    requires GroupsOk(reg[..|reg| - 1], gs)
    ensures GroupsOk(reg, if Listed(reg[|reg| - 1]) then AddTo(gs, reg[|reg| - 1]) else gs)
  {
    var e := reg[|reg| - 1];
    if !Listed(e) {
      KeepGroups(reg, gs);
    } else {
      match FindGroup(gs, SectionOf(e.key).0)
      case None => OpenGroup(reg, gs);
      case Some(i) => JoinGroup(reg, gs, i);
    }
  }

  /** Appending a registry entry changes the members of its own section only. */
  lemma MembersSnoc(reg: seq<Registered>, t: string)
    requires |reg| > 0
    ensures var e := reg[|reg| - 1];
      Members(reg, t) == Members(reg[..|reg| - 1], t) + (if Listed(e) && SectionOf(e.key).0 == t then [MenuEntry(e)] else [])
  {
  }

  lemma KeepGroups(reg: seq<Registered>, gs: seq<Group>)
    requires |reg| > 0 && !Listed(reg[|reg| - 1])
    requires GroupsOk(reg[..|reg| - 1], gs)
    ensures GroupsOk(reg, gs)
  {
    var pre := reg[..|reg| - 1];
    forall t ensures Members(reg, t) == Members(pre, t) {
      MembersSnoc(reg, t);
    }
    forall i | 0 <= i < |gs|
      ensures gs[i].models == Members(reg, gs[i].title)
    {
    }
    forall k | 0 <= k < |reg| && Listed(reg[k])
      ensures SectionOf(reg[k].key).0 in Titles(gs)
    {
      assert reg[k] == pre[k];
    }
  }

  lemma OpenGroup(reg: seq<Registered>, gs: seq<Group>)
    requires |reg| > 0 && Listed(reg[|reg| - 1])
    requires GroupsOk(reg[..|reg| - 1], gs)
    requires FindGroup(gs, SectionOf(reg[|reg| - 1].key).0).None?
    ensures GroupsOk(reg, AddTo(gs, reg[|reg| - 1]))
  {
    var e := reg[|reg| - 1];
    var g := Group(SectionOf(e.key).0, SectionOf(e.key).1, [MenuEntry(e)]);
    SectionOrderByTitle(e.key);
    Opened(reg, gs, g, gs + [g]);
  }

  lemma Opened(reg: seq<Registered>, gs: seq<Group>, g: Group, r: seq<Group>)
    requires |reg| > 0 && Listed(reg[|reg| - 1])
    requires GroupsOk(reg[..|reg| - 1], gs)
    requires g.title == SectionOf(reg[|reg| - 1].key).0 && g.title !in Titles(gs)
    requires g.models == [MenuEntry(reg[|reg| - 1])] && g.order == TitleOrder(g.title)
    requires r == gs + [g]
    ensures GroupsOk(reg, r)
  {
    var pre := reg[..|reg| - 1];
    var t := g.title;
    assert Titles(r) == Titles(gs) + [t];
    assert DistinctTitles(r) by {
      assert forall i :: 0 <= i < |gs| ==> gs[i].title != t;
    }
    forall i | 0 <= i < |r|
      ensures r[i].models == Members(reg, r[i].title) && |r[i].models| > 0 && r[i].order == TitleOrder(r[i].title)
    {
      MembersSnoc(reg, r[i].title);
      if i < |gs| {
        assert r[i] == gs[i] && gs[i].title != t;
      } else {
        assert r[i] == g;
      }
    }
    forall k | 0 <= k < |reg| && Listed(reg[k])
      ensures SectionOf(reg[k].key).0 in Titles(r)
    {
      if k < |pre| {
        assert reg[k] == pre[k];
      }
    }
    forall u | u !in Titles(r)
      ensures Members(reg, u) == []
    {
      MembersSnoc(reg, u);
    }
  }

  lemma JoinGroup(reg: seq<Registered>, gs: seq<Group>, i: nat)
    requires |reg| > 0 && Listed(reg[|reg| - 1])
    requires GroupsOk(reg[..|reg| - 1], gs)
    requires FindGroup(gs, SectionOf(reg[|reg| - 1].key).0) == Some(i)
    ensures GroupsOk(reg, AddTo(gs, reg[|reg| - 1]))
  {
    var e := reg[|reg| - 1];
    Joined(reg, gs, i, gs[i := gs[i].(models := gs[i].models + [MenuEntry(e)])]);
  }

  lemma Joined(reg: seq<Registered>, gs: seq<Group>, i: nat, r: seq<Group>)
    requires |reg| > 0 && Listed(reg[|reg| - 1])
    requires GroupsOk(reg[..|reg| - 1], gs)
    requires i < |gs| && gs[i].title == SectionOf(reg[|reg| - 1].key).0
    requires r == gs[i := gs[i].(models := gs[i].models + [MenuEntry(reg[|reg| - 1])])]
    ensures GroupsOk(reg, r)
  {
    assert Titles(r) == Titles(gs) by {
      assert forall j :: 0 <= j < |gs| ==> r[j].title == gs[j].title;
    }
    JoinedRows(reg, gs, i, r);
    assert Titles(gs)[i] == gs[i].title;
    JoinedCovers(reg, gs, gs[i].title, r);
  }

  lemma JoinedRows(reg: seq<Registered>, gs: seq<Group>, i: nat, r: seq<Group>)
    requires |reg| > 0 && Listed(reg[|reg| - 1])
    requires GroupsOk(reg[..|reg| - 1], gs)
    requires i < |gs| && gs[i].title == SectionOf(reg[|reg| - 1].key).0
    requires r == gs[i := gs[i].(models := gs[i].models + [MenuEntry(reg[|reg| - 1])])]
    ensures forall j :: 0 <= j < |r| ==>
      r[j].models == Members(reg, r[j].title) && |r[j].models| > 0 && r[j].order == TitleOrder(r[j].title)
  {
    var t := gs[i].title;
    forall j | 0 <= j < |r|
      ensures r[j].models == Members(reg, r[j].title) && |r[j].models| > 0 && r[j].order == TitleOrder(r[j].title)
    {
      MembersSnoc(reg, r[j].title);
      if j != i {
        assert r[j] == gs[j] && gs[j].title != t;
      }
    }
  }

  lemma JoinedCovers(reg: seq<Registered>, gs: seq<Group>, t: string, r: seq<Group>)
    requires |reg| > 0 && Listed(reg[|reg| - 1])
    requires GroupsOk(reg[..|reg| - 1], gs)
    requires t == SectionOf(reg[|reg| - 1].key).0 && t in Titles(gs)
    requires Titles(r) == Titles(gs)
    ensures forall k :: 0 <= k < |reg| && Listed(reg[k]) ==> SectionOf(reg[k].key).0 in Titles(r)
    ensures forall u :: u !in Titles(r) ==> Members(reg, u) == []
  {
    forall k | 0 <= k < |reg| - 1 && Listed(reg[k])
      ensures SectionOf(reg[k].key).0 in Titles(gs)
    {
      assert reg[k] == reg[..|reg| - 1][k];
    }
    forall u | u !in Titles(gs)
      ensures Members(reg, u) == []
    {
      MembersSnoc(reg, u);
    }
  }

  // ------------------------------------------------------------ ordering

  /** `(MODEL_ORDER.get((app_label, object_name), 500), name)`. */
  function ModelSortKey(m: MenuModel): Key
  {
    Key(ModelRank(ModelKey(m.appLabel, m.objectName)), m.name)
  }

  /** `(_order, name)`. */
  function GroupSortKey(g: Group): Key
  {
    Key(g.order, g.title)
  }

  function SortModels(gs: seq<Group>): (r: seq<Group>)
    ensures |r| == |gs|
    ensures forall i :: 0 <= i < |r| ==>
      && r[i].title == gs[i].title && r[i].order == gs[i].order
      && multiset(r[i].models) == multiset(gs[i].models) && |r[i].models| == |gs[i].models|
      && SortedBy(r[i].models, ModelSortKey)
  {
    seq(|gs|, i requires 0 <= i < |gs| => gs[i].(models := Sort(gs[i].models, ModelSortKey)))
  }

  function Show(g: Group): Section
  {
    Section(g.title, AppLabel(g.title), "", true, g.models)
  }

  function Names(r: seq<Section>): (names: seq<string>)
    ensures |names| == |r| && forall i :: 0 <= i < |r| ==> names[i] == r[i].name
  {
    seq(|r|, i requires 0 <= i < |r| => r[i].name)
  }

  /** Every listed model's section is on the menu. */
  ghost predicate Covers(reg: seq<Registered>, r: seq<Section>)
  {
    forall k :: 0 <= k < |reg| && Listed(reg[k]) ==> SectionOf(reg[k].key).0 in Names(r)
  }

  /** No two sections share a title. */
  ghost predicate DistinctNames(r: seq<Section>)
  {
    forall i, j :: 0 <= i < j < |r| ==> r[i].name != r[j].name
  }

  /** Each section is non-empty, holds exactly its members, ordered by rank and
      name, under its derived label. */
  ghost predicate RowsOk(reg: seq<Registered>, r: seq<Section>)
  {
    forall i :: 0 <= i < |r| ==>
      && |r[i].models| > 0
      && multiset(r[i].models) == multiset(Members(reg, r[i].name))
      && SortedBy(r[i].models, ModelSortKey)
      && r[i].appLabel == AppLabel(r[i].name)
  }

  /** Sections come by their order, then title. */
  ghost predicate Ordered(r: seq<Section>)
  {
    forall i, j :: 0 <= i < j < |r| ==>
      KeyLe(Key(TitleOrder(r[i].name), r[i].name), Key(TitleOrder(r[j].name), r[j].name))
  }

  /** `get_app_list`: every listed model appears in exactly one section, the
      one its key maps to; hidden models and models without permissions do
      not appear; no section is empty; models are ordered by their rank and
      then name, and sections by their order and then title. */
  function AppList(reg: seq<Registered>): (r: seq<Section>)
    ensures Covers(reg, r)
    ensures DistinctNames(r)
    ensures RowsOk(reg, r)
    ensures Ordered(r)
  {
    var sorted := Sort(SortModels(Collect(reg)), GroupSortKey);
    SortedShown(reg, sorted);
    ShowAll(sorted)
  }

  /** Every group shown as a section, in order. */
  function ShowAll(gs: seq<Group>): (r: seq<Section>)
    ensures |r| == |gs| && forall i :: 0 <= i < |r| ==> r[i] == Show(gs[i])
  {
    seq(|gs|, i requires 0 <= i < |gs| => Show(gs[i]))
  }

  lemma SortedShown(reg: seq<Registered>, sorted: seq<Group>)
    requires sorted == Sort(SortModels(Collect(reg)), GroupSortKey)
    ensures var r := ShowAll(sorted);
      Covers(reg, r) && DistinctNames(r) && RowsOk(reg, r) && Ordered(r)
  {
    var gs := Collect(reg);
    Shown(reg, gs, SortModels(gs), sorted, ShowAll(sorted));
  }

  /** The sorted groups, shown, have all four properties. */
  lemma Shown(reg: seq<Registered>, gs: seq<Group>, ms: seq<Group>, sorted: seq<Group>, r: seq<Section>)
    requires GroupsOk(reg, gs) && ms == SortModels(gs)
    requires multiset(sorted) == multiset(ms) && SortedBy(sorted, GroupSortKey)
    requires |r| == |sorted| && forall i :: 0 <= i < |r| ==> r[i] == Show(sorted[i])
    ensures Covers(reg, r) && DistinctNames(r) && RowsOk(reg, r) && Ordered(r)
  {
    SortedGroups(reg, gs, ms, sorted);
    SortedCovers(reg, gs, ms, sorted);
    ShownOrder(sorted, r);
    ShownRows(reg, sorted, r);
    assert Names(r) == Titles(sorted);
  }

  /** Popping `_order` keeps the order and the distinct titles of the groups. */
  lemma ShownOrder(sorted: seq<Group>, r: seq<Section>)
    requires |r| == |sorted| && forall i :: 0 <= i < |r| ==> r[i] == Show(sorted[i])
    requires SortedBy(sorted, GroupSortKey) && DistinctTitles(sorted)
    requires forall i :: 0 <= i < |sorted| ==> sorted[i].order == TitleOrder(sorted[i].title)
    ensures DistinctNames(r) && Ordered(r)
  {
    forall i, j | 0 <= i < j < |r|
      ensures r[i].name != r[j].name
      ensures KeyLe(Key(TitleOrder(r[i].name), r[i].name), Key(TitleOrder(r[j].name), r[j].name))
    {
      assert r[i].name == sorted[i].title && r[j].name == sorted[j].title;
      assert KeyLe(GroupSortKey(sorted[i]), GroupSortKey(sorted[j]));
    }
  }

  /** Popping `_order` keeps each group's rows. */
  lemma ShownRows(reg: seq<Registered>, sorted: seq<Group>, r: seq<Section>)
    requires |r| == |sorted| && forall i :: 0 <= i < |r| ==> r[i] == Show(sorted[i])
    requires forall i :: 0 <= i < |sorted| ==>
      && |sorted[i].models| > 0
      && multiset(sorted[i].models) == multiset(Members(reg, sorted[i].title))
      && SortedBy(sorted[i].models, ModelSortKey)
    ensures RowsOk(reg, r)
  {
    forall i | 0 <= i < |r|
      ensures |r[i].models| > 0
      ensures multiset(r[i].models) == multiset(Members(reg, r[i].name))
      ensures SortedBy(r[i].models, ModelSortKey)
      ensures r[i].appLabel == AppLabel(r[i].name)
    {
      assert r[i] == Show(sorted[i]);
    }
  }

  /** Each sorted section is one of the collected groups, its rows sorted. */
  lemma SortedGroups(reg: seq<Registered>, gs: seq<Group>, ms: seq<Group>, sorted: seq<Group>)
    requires GroupsOk(reg, gs) && ms == SortModels(gs)
    requires multiset(sorted) == multiset(ms)
    ensures DistinctTitles(sorted)
    ensures forall i :: 0 <= i < |sorted| ==>
      && |sorted[i].models| > 0
      && multiset(sorted[i].models) == multiset(Members(reg, sorted[i].title))
      && SortedBy(sorted[i].models, ModelSortKey)
      && sorted[i].order == TitleOrder(sorted[i].title)
  {
    assert DistinctTitles(ms) by {
      assert forall i :: 0 <= i < |ms| ==> ms[i].title == gs[i].title;
    }
    DistinctTitlesPerm(ms, sorted);
    forall i | 0 <= i < |sorted|
      ensures |sorted[i].models| > 0
      ensures multiset(sorted[i].models) == multiset(Members(reg, sorted[i].title))
      ensures SortedBy(sorted[i].models, ModelSortKey)
      ensures sorted[i].order == TitleOrder(sorted[i].title)
    {
      assert sorted[i] in multiset(ms);
      var j :| 0 <= j < |ms| && ms[j] == sorted[i];
    }
  }

  /** Sorting loses no section. */
  lemma SortedCovers(reg: seq<Registered>, gs: seq<Group>, ms: seq<Group>, sorted: seq<Group>)
    requires GroupsOk(reg, gs) && ms == SortModels(gs)
    requires multiset(sorted) == multiset(ms)
    ensures forall k :: 0 <= k < |reg| && Listed(reg[k]) ==> SectionOf(reg[k].key).0 in Titles(sorted)
  {
    assert Titles(ms) == Titles(gs);
    TitlesPerm(ms, sorted);
  }

  /** A permutation of groups has the same titles. */
  lemma TitlesPerm(a: seq<Group>, b: seq<Group>)
    requires multiset(a) == multiset(b)
    ensures forall t :: t in Titles(a) ==> t in Titles(b)
  {
    forall t | t in Titles(a) ensures t in Titles(b) {
      var j :| 0 <= j < |a| && Titles(a)[j] == t;
      assert a[j] in multiset(b);
      var i :| 0 <= i < |b| && b[i] == a[j];
      assert Titles(b)[i] == t;
    }
  }

  // ------------------------------------------------------------ consequences

  /** A listed model's row is among the members of its section. */
  lemma {:induction false} MembersComplete(reg: seq<Registered>, k: nat)
    requires k < |reg| && Listed(reg[k])
    ensures MenuEntry(reg[k]) in Members(reg, SectionOf(reg[k].key).0)
  {
    var n := |reg| - 1;
    if k < n {
      assert reg[..n][k] == reg[k];
      MembersComplete(reg[..n], k);
    }
  }

  /** Every member row comes from a listed model of that section. */
  lemma {:induction false} MembersSound(reg: seq<Registered>, t: string, m: MenuModel)
    requires m in Members(reg, t)
    ensures exists k :: 0 <= k < |reg| && Listed(reg[k]) && SectionOf(reg[k].key).0 == t && m == MenuEntry(reg[k])
  {
    var n := |reg| - 1;
    if m in Members(reg[..n], t) {
      MembersSound(reg[..n], t, m);
      var k :| 0 <= k < n && Listed(reg[..n][k]) && SectionOf(reg[..n][k].key).0 == t && m == MenuEntry(reg[..n][k]);
      assert reg[..n][k] == reg[k];
    } else {
      assert Listed(reg[n]) && SectionOf(reg[n].key).0 == t && m == MenuEntry(reg[n]);
    }
  }

  /** Each listed model shows in exactly one section: the one its key maps to. */
  lemma ListedShownOnce(reg: seq<Registered>, k: nat)
    requires k < |reg| && Listed(reg[k])
    ensures var r := AppList(reg);
      exists i :: 0 <= i < |r| && r[i].name == SectionOf(reg[k].key).0 && MenuEntry(reg[k]) in multiset(r[i].models)
    ensures var r := AppList(reg);
      forall i :: 0 <= i < |r| && MenuEntry(reg[k]) in r[i].models ==> r[i].name == SectionOf(reg[k].key).0
  {
    ShownOnceIn(reg, AppList(reg), k);
  }

  lemma ShownOnceIn(reg: seq<Registered>, r: seq<Section>, k: nat)
    requires Covers(reg, r) && RowsOk(reg, r)
    requires k < |reg| && Listed(reg[k])
    ensures exists i :: 0 <= i < |r| && r[i].name == SectionOf(reg[k].key).0 && MenuEntry(reg[k]) in multiset(r[i].models)
    ensures forall i :: 0 <= i < |r| && MenuEntry(reg[k]) in r[i].models ==> r[i].name == SectionOf(reg[k].key).0
  {
    var t := SectionOf(reg[k].key).0;
    assert t in Names(r);
    var i :| 0 <= i < |r| && Names(r)[i] == t;
    MembersComplete(reg, k);
    assert MenuEntry(reg[k]) in multiset(Members(reg, t));
    forall j | 0 <= j < |r| && MenuEntry(reg[k]) in r[j].models
      ensures r[j].name == t
    {
      assert MenuEntry(reg[k]) in multiset(Members(reg, r[j].name));
      MembersSound(reg, r[j].name, MenuEntry(reg[k]));
      var k' :| 0 <= k' < |reg| && Listed(reg[k']) && SectionOf(reg[k'].key).0 == r[j].name && MenuEntry(reg[k]) == MenuEntry(reg[k']);
      assert reg[k'].key == reg[k].key;
    }
  }

  /** Only listed models reach the menu: hidden ones and ones without any
      permission never do. */
  lemma ShownAreListed(reg: seq<Registered>, i: nat, m: MenuModel)
    requires i < |AppList(reg)| && m in AppList(reg)[i].models
    ensures exists k :: 0 <= k < |reg| && Listed(reg[k]) && m == MenuEntry(reg[k])
    ensures !Hidden(ModelKey(m.appLabel, m.objectName))
  {
    var r := AppList(reg);
    assert m in multiset(Members(reg, r[i].name));
    MembersSound(reg, r[i].name, m);
  }

  /** Only the catalogue sorts at or before the catalogue. */
  lemma AtOrBeforeCatalogue(t: string)
    requires KeyLe(Key(TitleOrder(t), t), Key(TitleOrder(Catalogue), Catalogue))
    ensures t == Catalogue
  {
  }

  /** Only the operations section sorts at or after the operations section. */
  lemma AtOrAfterOperations(t: string)
    requires KeyLe(Key(TitleOrder(Operations), Operations), Key(TitleOrder(t), t))
    ensures t == Operations
  {
    assert TitleOrder(Operations) == 900;
    if TitleOrder(t) == 900 {
      assert t == Operations;
    }
  }

  /** The catalogue section, when shown, comes first. */
  lemma CatalogueFirst(reg: seq<Registered>)
    requires Catalogue in Names(AppList(reg))
    ensures AppList(reg)[0].name == Catalogue
  {
    FirstIn(AppList(reg));
  }

  lemma FirstIn(r: seq<Section>)
    requires Ordered(r) && Catalogue in Names(r)
    ensures r[0].name == Catalogue
  {
    var i :| 0 <= i < |r| && Names(r)[i] == Catalogue;
    if i > 0 {
      AtOrBeforeCatalogue(r[0].name);
    }
  }

  /** The operations section, when shown, comes last. */
  lemma OperationsLast(reg: seq<Registered>)
    requires Operations in Names(AppList(reg))
    ensures AppList(reg)[|AppList(reg)| - 1].name == Operations
  {
    LastIn(AppList(reg));
  }

  lemma LastIn(r: seq<Section>)
    requires Ordered(r) && Operations in Names(r)
    ensures r[|r| - 1].name == Operations
  {
    var i :| 0 <= i < |r| && Names(r)[i] == Operations;
    var last := |r| - 1;
    if i < last {
      AtOrAfterOperations(r[last].name);
    }
  }

  // ------------------------------------------------------------ permutations

  lemma {:induction false} CountAtMostOne(a: seq<Group>, x: Group)
    requires DistinctTitles(a)
    ensures multiset(a)[x] <= 1
  {
    if |a| > 0 {
      assert a == [a[0]] + a[1..];
      CountAtMostOne(a[1..], x);
      if a[0] == x {
        assert x !in a[1..];
      }
    }
  }

  lemma TwoPositions(b: seq<Group>, i: nat, j: nat)
    requires i < j < |b| && b[i] == b[j]
    ensures multiset(b)[b[i]] >= 2
  {
    assert b == b[..j] + b[j..];
    assert b[i] in b[..j];
    assert b[j] in b[j..];
  }

  /** Different groups of a list with distinct titles have different titles. */
  lemma DistinctMembers(a: seq<Group>, x: Group, y: Group)
    requires DistinctTitles(a) && x in multiset(a) && y in multiset(a) && x != y
    ensures x.title != y.title
  {
    var p :| 0 <= p < |a| && a[p] == x;
    var q :| 0 <= q < |a| && a[q] == y;
  }

  /** Reordering keeps section titles distinct. */
  lemma DistinctTitlesPerm(a: seq<Group>, b: seq<Group>)
    requires multiset(a) == multiset(b) && DistinctTitles(a)
    ensures DistinctTitles(b)
  {
    forall i, j | 0 <= i < j < |b|
      ensures b[i].title != b[j].title
    {
      if b[i] == b[j] {
        TwoPositions(b, i, j);
        CountAtMostOne(a, b[i]);
      } else {
        DistinctMembers(a, b[i], b[j]);
      }
    }
  }
}

=== FILE: cart.dfy ===
/**
 The session cart of shop/views.py: a dictionary `{"<pid>": {"qty": n}}` kept in
 the session, changed by `cart_add` and `cart_update`, and summarised by
 `_cart_totals`, `_cart_context` and `_get_cart_rows`.

 The dictionary is modelled as a sequence of entries in insertion order (Python
 dictionaries keep it, and `_cart_context` lists items in that order). Keys are
 written as `str(pid)` and read back with `int()`; `Text.ParseShowInt` shows the
 two agree, so an entry carries the integer id directly.
 */
module Cart {
  import opened Wrappers
  import opened Text

  /** Upper bound on a line quantity (`min(..., 99)` throughout the views). */
  const MaxQty: int := 99

  /** The fields of a `Product` row the cart views read; prices have
      `decimal_places=0`, so they are integers. */
  datatype Product = Product(name: string, slug: string, price: int, active: bool)

  /** The product table, by primary key. */
  type Catalogue = map<int, Product>

  /** `Product.objects.filter(pk=pid, is_active=True).exists()`. */
  predicate Sellable(cat: Catalogue, pid: int)
  {
    pid in cat && cat[pid].active
  }

  /** One session entry `"pid": {"qty": qty}`. */
  datatype Entry = Entry(pid: int, qty: int)

  /** The session cart, in dictionary insertion order. */
  type Cart = seq<Entry>

  function Keys(c: Cart): set<int>
  {
    set i | 0 <= i < |c| :: c[i].pid
  }

  /** Dictionary keys are unique. */
  ghost predicate UniqueKeys(c: Cart)
  {
    forall i, j :: 0 <= i < j < |c| ==> c[i].pid != c[j].pid
  }

  /** What the views keep true of the session cart: unique keys, and every
      stored quantity in 1..99 (a quantity that reaches 0 is deleted). */
  ghost predicate WellFormed(c: Cart)
  {
    UniqueKeys(c) && forall i :: 0 <= i < |c| ==> 1 <= c[i].qty <= MaxQty
  }

  /** `cart.get(str(pid), {}).get("qty", 0)`. */
  function QtyOf(c: Cart, pid: int): int
  {
    if |c| == 0 then 0 else if c[0].pid == pid then c[0].qty else QtyOf(c[1..], pid)
  }

  /** The keys of a non-empty cart: its first key and the keys of the rest. */
  lemma KeysCons(c: Cart)
    requires |c| > 0
    ensures Keys(c) == {c[0].pid} + Keys(c[1..])
  {
    forall k ensures k in Keys(c) <==> k == c[0].pid || k in Keys(c[1..]) {
      if k in Keys(c) && k != c[0].pid {
        var i :| 0 <= i < |c| && c[i].pid == k;
        assert c[1..][i - 1].pid == k;
      }
      if k in Keys(c[1..]) {
        var i :| 0 <= i < |c[1..]| && c[1..][i].pid == k;
        assert c[i + 1].pid == k;
      }
    }
  }

  lemma {:induction false} QtyOfWellFormed(c: Cart, pid: int)
    requires WellFormed(c)
    ensures pid in Keys(c) <==> QtyOf(c, pid) != 0
    ensures 0 <= QtyOf(c, pid) <= MaxQty
  {
    if |c| > 0 {
      KeysCons(c);
      assert WellFormed(c[1..]);
      QtyOfWellFormed(c[1..], pid);
    }
  }

  /** `cart.pop(str(pid), None)`: the key goes, every other entry stays in place. */
  function Without(c: Cart, pid: int): (r: Cart)
    ensures Keys(r) == Keys(c) - {pid}
    ensures forall k :: QtyOf(r, k) == if k == pid then 0 else QtyOf(c, k)
    ensures forall j :: 0 <= j < |r| ==> r[j] in c
    ensures |r| <= |c|
  {
    if |c| == 0 then []
    else
      var rest := Without(c[1..], pid);
      KeysCons(c);
      if c[0].pid == pid then rest
      else
        var r := [c[0]] + rest;
        assert r[1..] == rest;
        KeysCons(r);
        r
  }

  /** Removing a key keeps the cart well formed. */
  lemma {:induction false} WithoutWellFormed(c: Cart, pid: int)
    requires WellFormed(c)
    ensures WellFormed(Without(c, pid))
  {
    if |c| > 0 {
      assert WellFormed(c[1..]);
      WithoutWellFormed(c[1..], pid);
      KeysCons(c);
      var rest := Without(c[1..], pid);
      if c[0].pid != pid {
        var r := [c[0]] + rest;
        assert c[0].pid !in Keys(c[1..]);
        forall j | 0 <= j < |rest| ensures rest[j].pid != c[0].pid {
          assert rest[j].pid in Keys(rest);
        }
        assert r == Without(c, pid);
      }
    }
  }

  /** `cart[str(pid)] = {"qty": q}`: an existing key keeps its place, a new key
      goes to the end. */
  function Put(c: Cart, pid: int, q: int): (r: Cart)
    ensures Keys(r) == Keys(c) + {pid}
    ensures forall k :: QtyOf(r, k) == if k == pid then q else QtyOf(c, k)
    ensures Without(r, pid) == Without(c, pid)
    ensures pid in Keys(c) ==> |r| == |c|
    ensures pid !in Keys(c) ==> r == c + [Entry(pid, q)]
  {
    if pid in Keys(c) then
      ReplaceKeysQty(c, pid, q);
      Replace(c, pid, q)
    else
      Append(c, pid, q);
      c + [Entry(pid, q)]
  }

  lemma {:induction false} Append(c: Cart, pid: int, q: int)
    requires pid !in Keys(c)
    ensures var r := c + [Entry(pid, q)];
      && Keys(r) == Keys(c) + {pid}
      && (forall k :: QtyOf(r, k) == if k == pid then q else QtyOf(c, k))
      && Without(r, pid) == Without(c, pid)
  {
    var r := c + [Entry(pid, q)];
    if |c| > 0 {
      KeysCons(c);
      KeysCons(r);
      assert r[1..] == c[1..] + [Entry(pid, q)];
      Append(c[1..], pid, q);
      assert r[0] == c[0];
    } else {
      assert Keys(r) == {pid} by { KeysCons(r); }
      assert Without(r, pid) == Without(r[1..], pid);
    }
  }

  /** The in-place case of `Put`: the entry of `pid` gets quantity `q` where
      it stands. */
  function Replace(c: Cart, pid: int, q: int): (r: Cart)
    ensures |r| == |c|
    ensures forall i :: 0 <= i < |c| ==> r[i] == if c[i].pid == pid then Entry(pid, q) else c[i]
  {
    if |c| == 0 then []
    else
      var rest := Replace(c[1..], pid, q);
      var r := [if c[0].pid == pid then Entry(pid, q) else c[0]] + rest;
      assert forall i :: 1 <= i < |c| ==> r[i] == rest[i - 1] && c[i] == c[1..][i - 1];
      r
  }

  /** Replacing in place keeps the keys, changes only the quantity of `pid`
      and leaves the other entries alone. */
  lemma {:induction false} ReplaceKeysQty(c: Cart, pid: int, q: int)
    ensures var r := Replace(c, pid, q);
      && Keys(r) == Keys(c)
      && (forall k :: QtyOf(r, k) == if k == pid && pid in Keys(c) then q else QtyOf(c, k))
      && Without(r, pid) == Without(c, pid)
  {
    if |c| > 0 {
      var r := Replace(c, pid, q);
      var rest := Replace(c[1..], pid, q);
      assert r[1..] == rest;
      ReplaceKeysQty(c[1..], pid, q);
      KeysCons(c);
      KeysCons(r);
    }
  }

  /** Storing a quantity in 1..99 keeps the cart well formed. */
  lemma PutWellFormed(c: Cart, pid: int, q: int)
    requires WellFormed(c) && 1 <= q <= MaxQty
    ensures WellFormed(Put(c, pid, q))
  {
    var r := Put(c, pid, q);
    if pid !in Keys(c) {
      forall i | 0 <= i < |c| ensures c[i].pid != pid {
        assert c[i].pid in Keys(c);
      }
    }
  }

  // ------------------------------------------------------------ totals

  /** The quantity a summary counts for an entry: `max(1, int(row.get("qty", 1)))`. */
  function CountedQty(e: Entry): int
  {
    if e.qty < 1 then 1 else e.qty
  }

  datatype Totals = Totals(total: int, count: int)

  /** `_cart_totals(cart)`: the sum of `price * max(1, qty)` and of `max(1, qty)`
      over the entries whose product exists and is active. */
  function CartTotals(cat: Catalogue, c: Cart): (r: Totals)
    ensures r.count >= 0
    ensures r.count == 0 <==> forall i :: 0 <= i < |c| ==> !Sellable(cat, c[i].pid)
    ensures (forall p :: p in cat ==> cat[p].price >= 0) ==> r.total >= 0
  {
    if |c| == 0 then Totals(0, 0)
    else
      var rest := CartTotals(cat, c[1..]);
      assert forall i :: 1 <= i < |c| ==> c[i] == c[1..][i - 1];
      if !Sellable(cat, c[0].pid) then rest
      else
        var q := CountedQty(c[0]);
        Totals(cat[c[0].pid].price * q + rest.total, q + rest.count)
  }

  lemma CartTotalsEmpty(cat: Catalogue)
    ensures CartTotals(cat, []) == Totals(0, 0)
  {
  }

  /** One line of `_cart_context(request)["items"]`. */
  datatype CartItem = CartItem(id: int, name: string, slug: string, price: int, qty: int, lineTotal: int)

  datatype Context = Context(items: seq<CartItem>, total: int, count: int)

  /** The ids, in session order, of the entries whose product is sellable. */
  function SellableIds(cat: Catalogue, c: Cart): seq<int>
  {
    if |c| == 0 then []
    else (if Sellable(cat, c[0].pid) then [c[0].pid] else []) + SellableIds(cat, c[1..])
  }

  /** The item list `_cart_context` builds: one item per sellable entry, in
      session order, with the catalogue's name, slug and price and the stored
      quantity floored at 1. */
  function ContextItems(cat: Catalogue, c: Cart): (items: seq<CartItem>)
    ensures |items| == |SellableIds(cat, c)|
    ensures forall k :: 0 <= k < |items| ==> items[k].id == SellableIds(cat, c)[k]
    ensures forall k :: 0 <= k < |items| ==>
      && Sellable(cat, items[k].id)
      && items[k].qty >= 1
      && items[k].name == cat[items[k].id].name
      && items[k].slug == cat[items[k].id].slug
      && items[k].price == cat[items[k].id].price
      && items[k].lineTotal == items[k].price * items[k].qty
  {
    if |c| == 0 then []
    else
      var rest := ContextItems(cat, c[1..]);
      var pid := c[0].pid;
      if !Sellable(cat, pid) then rest
      else
        var p := cat[pid];
        var q := CountedQty(c[0]);
        [CartItem(pid, p.name, p.slug, p.price, q, p.price * q)] + rest
  }

  /** Each summary line shows the quantity stored for its product, floored at 1
      (a session dictionary has one entry per product). */
  lemma {:induction false} ContextItemsQty(cat: Catalogue, c: Cart)
    requires UniqueKeys(c)
    ensures forall k :: 0 <= k < |ContextItems(cat, c)| ==>
      ContextItems(cat, c)[k].qty == Max(1, QtyOf(c, ContextItems(cat, c)[k].id))
  {
    if |c| > 0 {
      UniqueRest(c);
      ContextItemsQty(cat, c[1..]);
      var items := ContextItems(cat, c);
      var rest := ContextItems(cat, c[1..]);
      forall k | 0 <= k < |rest| ensures rest[k].qty == Max(1, QtyOf(c, rest[k].id)) {
        assert rest[k].id in SellableIds(cat, c[1..]);
        LaterSellableKey(cat, c, rest[k].id);
      }
      if Sellable(cat, c[0].pid) {
        assert items[1..] == rest;
        forall k | 0 <= k < |items| ensures items[k].qty == Max(1, QtyOf(c, items[k].id)) {
          if k > 0 { assert items[k] == rest[k - 1]; }
        }
      }
    }
  }

  /** Dropping the first entry keeps the keys unique. */
  lemma UniqueRest(c: Cart)
    requires |c| > 0 && UniqueKeys(c)
    ensures UniqueKeys(c[1..])
  {
    forall i, j | 0 <= i < j < |c| - 1 ensures c[1..][i].pid != c[1..][j].pid {
      assert c[1..][i] == c[i + 1] && c[1..][j] == c[j + 1];
    }
  }

  /** A sellable id seen past the first entry is not the first key, so its
      quantity is read from the rest of the cart. */
  lemma LaterSellableKey(cat: Catalogue, c: Cart, x: int)
    requires |c| > 0 && UniqueKeys(c) && x in SellableIds(cat, c[1..])
    ensures x != c[0].pid && QtyOf(c, x) == QtyOf(c[1..], x)
  {
    SellableIdsSound(cat, c[1..], x);
    var i :| 0 <= i < |c[1..]| && c[1..][i].pid == x && Sellable(cat, x);
    assert c[i + 1].pid == x;
  }

  function ItemsTotal(items: seq<CartItem>): int
  {
    if |items| == 0 then 0 else items[0].lineTotal + ItemsTotal(items[1..])
  }

  function ItemsCount(items: seq<CartItem>): int
  {
    if |items| == 0 then 0 else items[0].qty + ItemsCount(items[1..])
  }

  /** `_cart_context(request)`: the items plus their summed total and count. */
  function CartContext(cat: Catalogue, c: Cart): Context
  {
    var items := ContextItems(cat, c);
    Context(items, ItemsTotal(items), ItemsCount(items))
  }

  /** The mini-cart summary and the add/update responses agree: `_cart_context`
      totals its items to exactly what `_cart_totals` computes. */
  lemma {:induction false} ContextMatchesTotals(cat: Catalogue, c: Cart)
    ensures CartContext(cat, c).total == CartTotals(cat, c).total
    ensures CartContext(cat, c).count == CartTotals(cat, c).count
  {
    if |c| > 0 {
      ContextMatchesTotals(cat, c[1..]);
      var rest := ContextItems(cat, c[1..]);
      if Sellable(cat, c[0].pid) {
        var items := ContextItems(cat, c);
        assert items[1..] == rest;
      }
    }
  }

  /** An empty item list and a zero count go together. */
  lemma ContextEmptyIffNoCount(cat: Catalogue, c: Cart)
    ensures |CartContext(cat, c).items| == 0 <==> CartTotals(cat, c).count == 0
  {
    ContextMatchesTotals(cat, c);
    var items := ContextItems(cat, c);
    if |items| > 0 {
      assert SellableIds(cat, c)[0] in SellableIds(cat, c);
      SellableIdsSound(cat, c, SellableIds(cat, c)[0]);
    } else {
      forall i | 0 <= i < |c| ensures !Sellable(cat, c[i].pid) {
        if Sellable(cat, c[i].pid) {
          SellableIdsComplete(cat, c, i);
        }
      }
    }
  }

  lemma {:induction false} SellableIdsSound(cat: Catalogue, c: Cart, pid: int)
    requires pid in SellableIds(cat, c)
    ensures exists i :: 0 <= i < |c| && c[i].pid == pid && Sellable(cat, pid)
  {
    if |c| > 0 {
      if Sellable(cat, c[0].pid) && pid == c[0].pid {
      } else {
        SellableIdsSound(cat, c[1..], pid);
        var i :| 0 <= i < |c[1..]| && c[1..][i].pid == pid && Sellable(cat, pid);
        assert c[i + 1].pid == pid;
      }
    }
  }

  lemma {:induction false} SellableIdsComplete(cat: Catalogue, c: Cart, i: int)
    requires 0 <= i < |c| && Sellable(cat, c[i].pid)
    ensures |SellableIds(cat, c)| > 0
  {
    if i > 0 && !Sellable(cat, c[0].pid) {
      SellableIdsComplete(cat, c[1..], i - 1);
    }
  }

  // ------------------------------------------------------------ checkout rows

  /** One `(product, qty, price_byn)` tuple of `_get_cart_rows`. */
  datatype Row = Row(pid: int, name: string, qty: int, price: int)

  /** `_get_cart_rows(session)`: entries whose key passes `str(pid).isdigit()`
      and whose product is sellable, quantity floored at 1, in session order.
      With non-negative catalogue keys (Django's auto primary keys) these are
      exactly the entries `_cart_context` lists. */
  function CartRows(cat: Catalogue, c: Cart): (rows: seq<Row>)
    ensures |rows| <= |c|
    ensures forall k :: 0 <= k < |rows| ==>
      && rows[k].pid >= 0 && Sellable(cat, rows[k].pid)
      && rows[k].qty >= 1
      && rows[k].name == cat[rows[k].pid].name
      && rows[k].price == cat[rows[k].pid].price
  {
    if |c| == 0 then []
    else
      var e := c[0];
      ShowIntAllDigits(e.pid);
      var keep := AllDigits(ShowInt(e.pid)) && Sellable(cat, e.pid);
      var rest := CartRows(cat, c[1..]);
      if keep then
        var rows := [Row(e.pid, cat[e.pid].name, CountedQty(e), cat[e.pid].price)] + rest;
        assert rows[1..] == rest;
        rows
      else rest
  }

  /** With non-negative catalogue keys the order rows are for exactly the
      products the summary lists, in the same order. */
  lemma {:induction false} RowsFollowSummary(cat: Catalogue, c: Cart)
    requires forall p :: p in cat ==> p >= 0
    ensures |CartRows(cat, c)| == |SellableIds(cat, c)|
    ensures forall k :: 0 <= k < |CartRows(cat, c)| ==> CartRows(cat, c)[k].pid == SellableIds(cat, c)[k]
  {
    if |c| > 0 {
      RowsFollowSummary(cat, c[1..]);
      ShowIntAllDigits(c[0].pid);
      var rows := CartRows(cat, c);
      var rest := CartRows(cat, c[1..]);
      var ids := SellableIds(cat, c);
      var restIds := SellableIds(cat, c[1..]);
      if Sellable(cat, c[0].pid) {
        assert c[0].pid >= 0;
        assert rows[1..] == rest && ids[1..] == restIds;
        forall k | 0 <= k < |rows| ensures rows[k].pid == ids[k] {
          if k > 0 { assert rows[k] == rest[k - 1] && ids[k] == restIds[k - 1]; }
        }
      } else {
        assert rows == rest && ids == restIds;
      }
    }
  }

  /** Every order row is for a product the summary lists. */
  lemma {:induction false} RowsInSellableIds(cat: Catalogue, c: Cart)
    ensures forall k :: 0 <= k < |CartRows(cat, c)| ==> CartRows(cat, c)[k].pid in SellableIds(cat, c)
  {
    if |c| > 0 {
      RowsInSellableIds(cat, c[1..]);
      var rows := CartRows(cat, c);
      var rest := CartRows(cat, c[1..]);
      ShowIntAllDigits(c[0].pid);
      assert SellableIds(cat, c) == (if Sellable(cat, c[0].pid) then [c[0].pid] else []) + SellableIds(cat, c[1..]);
      if c[0].pid >= 0 && Sellable(cat, c[0].pid) {
        assert rows[1..] == rest;
        forall k | 0 <= k < |rows| ensures rows[k].pid in SellableIds(cat, c) {
          if k > 0 { assert rows[k] == rest[k - 1]; }
        }
      }
    }
  }

  /** Each order row carries the quantity stored for its product, floored at 1. */
  lemma {:induction false} CartRowsQty(cat: Catalogue, c: Cart)
    requires UniqueKeys(c)
    ensures forall k :: 0 <= k < |CartRows(cat, c)| ==>
      CartRows(cat, c)[k].qty == Max(1, QtyOf(c, CartRows(cat, c)[k].pid))
  {
    if |c| > 0 {
      UniqueRest(c);
      CartRowsQty(cat, c[1..]);
      var rows := CartRows(cat, c);
      var rest := CartRows(cat, c[1..]);
      RowsInSellableIds(cat, c[1..]);
      forall k | 0 <= k < |rest| ensures rest[k].qty == Max(1, QtyOf(c, rest[k].pid)) {
        LaterSellableKey(cat, c, rest[k].pid);
      }
      ShowIntAllDigits(c[0].pid);
      if c[0].pid >= 0 && Sellable(cat, c[0].pid) {
        assert rows[1..] == rest;
        forall k | 0 <= k < |rows| ensures rows[k].qty == Max(1, QtyOf(c, rows[k].pid)) {
          if k > 0 { assert rows[k] == rest[k - 1]; }
        }
      }
    }
  }

  function RowsSubtotal(rows: seq<Row>): int
  {
    if |rows| == 0 then 0 else rows[0].price * rows[0].qty + RowsSubtotal(rows[1..])
  }

  function RowsCount(rows: seq<Row>): int
  {
    if |rows| == 0 then 0 else rows[0].qty + RowsCount(rows[1..])
  }

  /** With non-negative product ids (Django's auto primary keys), the rows an
      order is built from sum to the total and count the cart endpoints report. */
  lemma {:induction false} RowsMatchTotals(cat: Catalogue, c: Cart)
    requires forall p :: p in cat ==> p >= 0
    ensures RowsSubtotal(CartRows(cat, c)) == CartTotals(cat, c).total
    ensures RowsCount(CartRows(cat, c)) == CartTotals(cat, c).count
    ensures |CartRows(cat, c)| == 0 <==> CartTotals(cat, c).count == 0
  {
    if |c| > 0 {
      RowsMatchTotals(cat, c[1..]);
      ShowIntAllDigits(c[0].pid);
      var rows := CartRows(cat, c);
      var rest := CartRows(cat, c[1..]);
      if Sellable(cat, c[0].pid) {
        var e := c[0];
        assert rows == [Row(e.pid, cat[e.pid].name, CountedQty(e), cat[e.pid].price)] + rest;
        assert rows[1..] == rest;
      } else {
        assert rows == rest;
      }
    }
  }

  // ------------------------------------------------------------ endpoints

  /** `request.POST`; a key sent twice keeps its last value, as `QueryDict.get` does. */
  type Post = map<string, string>

  function Get(post: Post, key: string): Option<string>
  {
    if key in post then Some(post[key]) else None
  }

  /** `int(x)` where `x` may be `None` (`TypeError`) or a string (`ValueError`
      when malformed); `None` stands for either exception. */
  function IntParam(x: Option<string>): Option<int>
  {
    match x
    case None => None
    case Some(s) => ParseInt(s)
  }

  function Min(a: int, b: int): int { if a <= b then a else b }
  function Max(a: int, b: int): int { if a >= b then a else b }

  /** The response of a cart endpoint. */
  datatype Status =
    | BadRequest(reason: string)
    | NotFound
    | Added(count: int, total: int)
    | Updated(removed: bool, qty: int, lineTotal: int, total: int, count: int)

  /** A response together with the session cart after the request. */
  datatype Outcome = Outcome(status: Status, cart: Cart)

  /** `cart_add`: parse `product_id` and `qty` (default `"1"`), clamp the quantity to
      1..99, require a sellable product, then accumulate up to 99. */
  function CartAdd(cat: Catalogue, cart: Cart, post: Post): (r: Outcome)
    ensures var pid := IntParam(Get(post, "product_id"));
      var qty := ParseInt(if "qty" in post then post["qty"] else "1");
      && (pid.None? || qty.None? <==> r.status == BadRequest("bad params"))
      && (pid.Some? && qty.Some? && !Sellable(cat, pid.value) <==> r.status == NotFound)
      && (!r.status.Added? ==> r.cart == cart)
      && (r.status.Added? ==>
            var q := Min(Max(qty.value, 1), MaxQty);
            && r.cart == Accumulate(cart, pid.value, q)
            && QtyOf(r.cart, pid.value) == Min(QtyOf(cart, pid.value) + q, MaxQty)
            && Without(r.cart, pid.value) == Without(cart, pid.value)
            && r.status == Added(CartTotals(cat, r.cart).count, CartTotals(cat, r.cart).total))
  {
    var pid := IntParam(Get(post, "product_id"));
    var qty := ParseInt(if "qty" in post then post["qty"] else "1");
    if pid.None? || qty.None? then Outcome(BadRequest("bad params"), cart)
    else
      var q := Min(Max(qty.value, 1), MaxQty);
      if !Sellable(cat, pid.value) then Outcome(NotFound, cart)
      else
        var c := Accumulate(cart, pid.value, q);
        var t := CartTotals(cat, c);
        Outcome(Added(t.count, t.total), c)
  }

  /** `cart[key]["qty"] = min(current + qty, 99)`. */
  function Accumulate(cart: Cart, pid: int, q: int): Cart
  {
    Put(cart, pid, Min(QtyOf(cart, pid) + q, MaxQty))
  }

  /** Accumulating a clamped quantity keeps the cart well formed, and every
      stored quantity grows but never passes 99. */
  lemma AccumulateWellFormed(cart: Cart, pid: int, q: int)
    requires WellFormed(cart) && 1 <= q <= MaxQty
    ensures WellFormed(Accumulate(cart, pid, q))
    ensures forall k :: QtyOf(cart, k) <= QtyOf(Accumulate(cart, pid, q), k) <= MaxQty
  {
    var n := Min(QtyOf(cart, pid) + q, MaxQty);
    QtyOfWellFormed(cart, pid);
    PutWellFormed(cart, pid, n);
    forall k ensures QtyOf(cart, k) <= QtyOf(Put(cart, pid, n), k) <= MaxQty {
      QtyOfWellFormed(cart, k);
    }
  }

  /** `cart_add` keeps the session cart well formed, and the stored quantity grows
      but never passes 99. */
  lemma CartAddWellFormed(cat: Catalogue, cart: Cart, post: Post)
    requires WellFormed(cart)
    ensures WellFormed(CartAdd(cat, cart, post).cart)
    ensures var r := CartAdd(cat, cart, post);
      r.status.Added? ==> forall k :: QtyOf(cart, k) <= QtyOf(r.cart, k) <= MaxQty
  {
    var r := CartAdd(cat, cart, post);
    if r.status.Added? {
      var pid := IntParam(Get(post, "product_id"));
      var qty := ParseInt(if "qty" in post then post["qty"] else "1");
      AccumulateWellFormed(cart, pid.value, Min(Max(qty.value, 1), MaxQty));
    }
  }

  /** The result of applying one `cart_update` action to the cart. */
  datatype Step = Applied(cart: Cart) | Rejected(reason: string)

  /** The `if action == ...` chain of `cart_update`, for a product `pid` whose
      current quantity is `QtyOf(cart, pid)`. */
  function ApplyAction(cart: Cart, pid: int, action: Option<string>, qtyRaw: Option<string>): (s: Step)
    ensures var cur := QtyOf(cart, pid);
      && (action == Some("remove") ==> s == Applied(Without(cart, pid)))
      && (action == Some("plus") ==> s.Applied? && QtyOf(s.cart, pid) == Min(MaxQty, cur + 1))
      && (action == Some("minus") ==> s.Applied? && (if cur - 1 <= 0 then s.cart == Without(cart, pid) else QtyOf(s.cart, pid) == cur - 1))
      && (action == Some("set") ==> (IntParam(qtyRaw).None? <==> s == Rejected("bad qty")))
      && (action == Some("set") && IntParam(qtyRaw).Some? ==>
            var q := Max(0, Min(MaxQty, IntParam(qtyRaw).value));
            s.Applied? && (if q <= 0 then s.cart == Without(cart, pid) else QtyOf(s.cart, pid) == q))
      && (action !in {Some("remove"), Some("plus"), Some("minus"), Some("set")} ==> s == Rejected("bad action"))
      && (s.Applied? ==> Without(s.cart, pid) == Without(cart, pid))
  {
    var cur := QtyOf(cart, pid);
    if action == Some("remove") then
      WithoutTwice(cart, pid);
      Applied(Without(cart, pid))
    else if action == Some("plus") then Applied(Put(cart, pid, Min(MaxQty, cur + 1)))
    else if action == Some("minus") then
      if cur - 1 <= 0 then
        WithoutTwice(cart, pid);
        Applied(Without(cart, pid))
      else Applied(Put(cart, pid, cur - 1))
    else if action == Some("set") then
      match IntParam(qtyRaw)
      case None => Rejected("bad qty")
      case Some(raw) =>
        var q := Max(0, Min(MaxQty, raw));
        if q <= 0 then
          WithoutTwice(cart, pid);
          Applied(Without(cart, pid))
        else Applied(Put(cart, pid, q))
    else Rejected("bad action")
  }

  lemma {:induction false} WithoutTwice(c: Cart, pid: int)
    ensures Without(Without(c, pid), pid) == Without(c, pid)
  {
    if |c| > 0 {
      WithoutTwice(c[1..], pid);
      if c[0].pid != pid {
        var w := Without(c, pid);
        assert w[1..] == Without(c[1..], pid);
      }
    }
  }

  /** `cart_update`: parse `product_id`, require a sellable product, apply the
      action, and answer with the line's new quantity and the cart totals. */
  function CartUpdate(cat: Catalogue, cart: Cart, post: Post): (r: Outcome)
    ensures var pid := IntParam(Get(post, "product_id"));
      && (pid.None? <==> r.status == BadRequest("bad pid"))
      && (pid.Some? && !Sellable(cat, pid.value) <==> r.status == NotFound)
      && (!r.status.Updated? ==> r.cart == cart)
      && (pid.Some? && Sellable(cat, pid.value) ==>
            var s := ApplyAction(cart, pid.value, Get(post, "action"), Get(post, "qty"));
            && (s.Rejected? ==> r.status == BadRequest(s.reason))
            && (s.Applied? ==>
                  && r.cart == s.cart
                  && r.status.Updated?
                  && r.status.qty == QtyOf(s.cart, pid.value)
                  && (r.status.removed <==> r.status.qty == 0)
                  && r.status.lineTotal == (if r.status.removed then 0 else cat[pid.value].price * r.status.qty)
                  && r.status.total == CartTotals(cat, s.cart).total
                  && r.status.count == CartTotals(cat, s.cart).count))
  {
    var pid := IntParam(Get(post, "product_id"));
    if pid.None? then Outcome(BadRequest("bad pid"), cart)
    else if !Sellable(cat, pid.value) then Outcome(NotFound, cart)
    else
      var p := pid.value;
      match ApplyAction(cart, p, Get(post, "action"), Get(post, "qty"))
      case Rejected(why) => Outcome(BadRequest(why), cart)
      case Applied(c) =>
        var t := CartTotals(cat, c);
        var qty := QtyOf(c, p);
        var removed := qty == 0;
        var lineTotal := if removed then 0 else cat[p].price * qty;
        Outcome(Updated(removed, qty, lineTotal, t.total, t.count), c)
  }

  /** `cart_update` keeps the session cart well formed; on a well-formed cart the
      response says `removed` exactly when the key is gone. */
  lemma CartUpdateWellFormed(cat: Catalogue, cart: Cart, post: Post)
    requires WellFormed(cart)
    ensures WellFormed(CartUpdate(cat, cart, post).cart)
    ensures var r := CartUpdate(cat, cart, post);
      r.status.Updated? ==> (r.status.removed <==> IntParam(Get(post, "product_id")).value !in Keys(r.cart))
  {
    var pid := IntParam(Get(post, "product_id"));
    if pid.Some? && Sellable(cat, pid.value) {
      var s := ApplyAction(cart, pid.value, Get(post, "action"), Get(post, "qty"));
      ApplyActionWellFormed(cart, pid.value, Get(post, "action"), Get(post, "qty"));
      if s.Applied? {
        QtyOfWellFormed(s.cart, pid.value);
      }
    }
  }

  /** Every action `cart_update` accepts keeps the cart well formed. */
  lemma ApplyActionWellFormed(cart: Cart, pid: int, action: Option<string>, qtyRaw: Option<string>)
    requires WellFormed(cart)
    ensures ApplyAction(cart, pid, action, qtyRaw).Applied? ==> WellFormed(ApplyAction(cart, pid, action, qtyRaw).cart)
  {
    if action == Some("remove") {
      RemoveWellFormed(cart, pid, qtyRaw);
    } else if action == Some("plus") {
      PlusWellFormed(cart, pid, qtyRaw);
    } else if action == Some("minus") {
      MinusWellFormed(cart, pid, qtyRaw);
    } else if action == Some("set") {
      SetWellFormed(cart, pid, qtyRaw);
    }
  }

  lemma RemoveWellFormed(cart: Cart, pid: int, qtyRaw: Option<string>)
    requires WellFormed(cart)
    ensures WellFormed(ApplyAction(cart, pid, Some("remove"), qtyRaw).cart)
  {
    WithoutWellFormed(cart, pid);
  }

  lemma PlusWellFormed(cart: Cart, pid: int, qtyRaw: Option<string>)
    requires WellFormed(cart)
    ensures WellFormed(ApplyAction(cart, pid, Some("plus"), qtyRaw).cart)
  {
    QtyOfWellFormed(cart, pid);
    var q := Min(MaxQty, QtyOf(cart, pid) + 1);
    assert ApplyAction(cart, pid, Some("plus"), qtyRaw) == Applied(Put(cart, pid, q));
    PutWellFormed(cart, pid, q);
  }

  lemma MinusWellFormed(cart: Cart, pid: int, qtyRaw: Option<string>)
    requires WellFormed(cart)
    ensures WellFormed(ApplyAction(cart, pid, Some("minus"), qtyRaw).cart)
  {
    QtyOfWellFormed(cart, pid);
    if QtyOf(cart, pid) <= 1 {
      MinusRemovesWellFormed(cart, pid, qtyRaw);
    } else {
      MinusDecrementsWellFormed(cart, pid, qtyRaw);
    }
  }

  lemma MinusDecrementsWellFormed(cart: Cart, pid: int, qtyRaw: Option<string>)
    requires WellFormed(cart) && 2 <= QtyOf(cart, pid) <= MaxQty
    ensures WellFormed(ApplyAction(cart, pid, Some("minus"), qtyRaw).cart)
  {
    MinusStep(cart, pid, qtyRaw);
    PutWellFormed(cart, pid, QtyOf(cart, pid) - 1);
  }

  /** `minus` on a quantity of at least 2 stores one less. */
  lemma MinusStep(cart: Cart, pid: int, qtyRaw: Option<string>)
    requires QtyOf(cart, pid) >= 2
    ensures ApplyAction(cart, pid, Some("minus"), qtyRaw) == Applied(Put(cart, pid, QtyOf(cart, pid) - 1))
  {
  }

  lemma MinusRemovesWellFormed(cart: Cart, pid: int, qtyRaw: Option<string>)
    requires WellFormed(cart) && QtyOf(cart, pid) <= 1
    ensures WellFormed(ApplyAction(cart, pid, Some("minus"), qtyRaw).cart)
  {
    assert ApplyAction(cart, pid, Some("minus"), qtyRaw) == Applied(Without(cart, pid));
    WithoutWellFormed(cart, pid);
  }

  lemma SetWellFormed(cart: Cart, pid: int, qtyRaw: Option<string>)
    requires WellFormed(cart)
    ensures ApplyAction(cart, pid, Some("set"), qtyRaw).Applied? ==> WellFormed(ApplyAction(cart, pid, Some("set"), qtyRaw).cart)
  {
    if IntParam(qtyRaw).Some? {
      var q := Max(0, Min(MaxQty, IntParam(qtyRaw).value));
      if q <= 0 {
        WithoutWellFormed(cart, pid);
      } else {
        assert ApplyAction(cart, pid, Some("set"), qtyRaw) == Applied(Put(cart, pid, q));
        PutWellFormed(cart, pid, q);
      }
    }
  }


}

=== FILE: checkout.dfy ===
/**
 `checkout_submit` of shop/views.py: the cart rows become order lines, the
 contact method and handles are worked out from the form, the customer is
 upserted, and the order is created with its delivery split and totals.
 Shipping and discount arrive already parsed (`_parse_decimal` is not part of
 this model), and the primary key the database gives the new order is a
 parameter.
 */
module Checkout {
  import opened Wrappers
  import opened Text
  import opened Cart
  import Customers
  import opened Orders

  // ------------------------------------------------------------ form fields

  /** `(request.POST.get(k) or "").strip()`. */
  function Field(post: Post, k: string): string
  {
    Trim(Get(post, k).GetOr(""))
  }

  /** The position of the first non-empty string. */
  function FirstNonEmpty(vals: seq<string>): (r: Option<nat>)
    ensures r.None? <==> forall i :: 0 <= i < |vals| ==> vals[i] == ""
    ensures r.Some? ==>
      && r.value < |vals|
      && vals[r.value] != ""
      && forall j :: 0 <= j < r.value ==> vals[j] == ""
  {
    if |vals| == 0 then None
    else if vals[0] != "" then Some(0)
    else
      var tail := vals[1..];
      assert forall i :: 1 <= i < |vals| ==> vals[i] == tail[i - 1];
      match FirstNonEmpty(tail)
      case None => None
      case Some(i) => Some(i + 1)
  }

  /** The trimmed values of `keys`, in order. */
  function Fields(post: Post, keys: seq<string>): (r: seq<string>)
    ensures |r| == |keys| && forall i :: 0 <= i < |keys| ==> r[i] == Field(post, keys[i])
  {
    seq(|keys|, i requires 0 <= i < |keys| => Field(post, keys[i]))
  }

  /** The position of the first key whose trimmed value is non-empty. */
  function FirstFilled(post: Post, keys: seq<string>): (r: Option<nat>)
    ensures r.None? <==> forall i :: 0 <= i < |keys| ==> Field(post, keys[i]) == ""
    ensures r.Some? ==>
      && r.value < |keys|
      && Field(post, keys[r.value]) != ""
      && forall j :: 0 <= j < r.value ==> Field(post, keys[j]) == ""
  {
    FirstNonEmpty(Fields(post, keys))
  }

  /** `_post(request, key, fallback_keys)` with `keys == [key] + fallback_keys`:
      the first non-empty trimmed value, else `""`. */
  function PostField(post: Post, keys: seq<string>): (r: string)
    ensures r == "" <==> forall i :: 0 <= i < |keys| ==> Field(post, keys[i]) == ""
    ensures r != "" ==> FirstFilled(post, keys).Some? && r == Field(post, keys[FirstFilled(post, keys).value])
  {
    match FirstFilled(post, keys)
    case None => ""
    case Some(i) => Field(post, keys[i])
  }

  // ------------------------------------------------------------ delivery

  /** The delivery columns of the new order. */
  datatype Delivery = Delivery(provider: string, deliveryMethod: string, pickupAddress: string, address: string)

  /** The characters `str.strip(", ")` removes. */
  predicate IsCommaOrSpace(c: char)
  {
    c == ',' || c == ' '
  }

  /** `is_delivery = bool(delivery_provider or country or city)`. */
  predicate IsDelivery(provider: string, country: string, city: string)
  {
    provider != "" || country != "" || city != ""
  }

  /** The delivery split of `Order.objects.create`: a courier order keeps the
      provider and joins the address parts; otherwise the order is a pickup with
      the pickup point and no delivery address. */
  function DeliveryOf(provider: string, country: string, city: string, pickup: string): (d: Delivery)
    ensures IsDelivery(provider, country, city) <==> d.deliveryMethod == "courier"
    ensures !IsDelivery(provider, country, city) ==> d == Delivery("pickup", "pickup", pickup, "")
    ensures IsDelivery(provider, country, city) ==>
      && d.provider == provider
      && d.pickupAddress == ""
      && d.address == Strip(country + ", " + city + ", " + pickup, IsCommaOrSpace)
    ensures |d.address| > 0 ==> !IsCommaOrSpace(d.address[0]) && !IsCommaOrSpace(d.address[|d.address| - 1])
  {
    if IsDelivery(provider, country, city) then
      Delivery(provider, "courier", "", Strip(country + ", " + city + ", " + pickup, IsCommaOrSpace))
    else Delivery("pickup", "pickup", pickup, "")
  }

  // ------------------------------------------------------------ contact

  /** The contact method and the two handles after `checkout_submit` has placed
      a generic handle and inferred a missing method. */
  datatype ContactChoice = ContactChoice(contactMethod: string, tg: string, ig: string)

  /** Steps "если выбранный метод..." and "если метод пуст..." of the view. */
  function ResolveHandles(contactMethod: string, handle: string, tg: string, ig: string): (c: ContactChoice)
    // the generic handle fills the chosen network's field only when that is empty
    ensures c.tg == (if contactMethod == "tg" && handle != "" && tg == "" then handle else tg)
    ensures c.ig == (if contactMethod == "ig" && handle != "" && ig == "" then handle else ig)
    // a given method is kept; an empty one is inferred only from exactly one handle
    ensures contactMethod != "" ==> c.contactMethod == contactMethod
    ensures contactMethod == "" ==>
      c.contactMethod == (if c.ig != "" && c.tg == "" then "ig" else if c.tg != "" && c.ig == "" then "tg" else "")
  {
    var tg1 := if contactMethod == "tg" && handle != "" && tg == "" then handle else tg;
    var ig1 := if contactMethod != "tg" && contactMethod == "ig" && handle != "" && ig == "" then handle else ig;
    var m := if contactMethod != "" then contactMethod
      else if ig1 != "" && tg1 == "" then "ig"
      else if tg1 != "" && ig1 == "" then "tg"
      else "";
    ContactChoice(m, tg1, ig1)
  }

  /** An inferred method always names a handle the customer gave. */
  lemma InferredMethodHasHandle(handle: string, tg: string, ig: string)
    ensures var c := ResolveHandles("", handle, tg, ig);
      && (c.contactMethod == "tg" ==> c.tg != "" && c.ig == "")
      && (c.contactMethod == "ig" ==> c.ig != "" && c.tg == "")
      && (c.contactMethod == "" ==> (c.tg == "") == (c.ig == ""))
      && c.tg == tg && c.ig == ig
  {
  }

  /** `pref_map.get(contact_method)`. */
  function PrefArgument(contactMethod: string): (r: Option<string>)
    ensures r.Some? <==> contactMethod in {"email", "phone", "tg", "ig"}
    ensures r.Some? ==> r.value == contactMethod
  {
    if contactMethod in {"email", "phone", "tg", "ig"} then Some(contactMethod) else None
  }

  /** `resolve_contact_value()`: the field matching the method when it is filled,
      otherwise the customer's preferred contact value, e-mail, phone, Telegram or
      Instagram, the first non-empty. */
  function ContactValue(contactMethod: string, email: string, phone: string, tg: string, ig: string,
                        customer: Customers.Customer): (r: string)
    ensures contactMethod == "email" && email != "" ==> r == email
    ensures contactMethod == "phone" && phone != "" ==> r == phone
    ensures contactMethod == "tg" && tg != "" ==> r == tg
    ensures contactMethod == "ig" && ig != "" ==> r == ig
    ensures email != "" ==> r != ""
    ensures r in {email, phone, tg, ig, Customers.PreferredContactValue(customer)}
  {
    if contactMethod == "email" && email != "" then email
    else if contactMethod == "phone" && phone != "" then phone
    else if contactMethod == "tg" && tg != "" then tg
    else if contactMethod == "ig" && ig != "" then ig
    else
      var pv := Customers.PreferredContactValue(customer);
      if pv != "" then pv
      else if email != "" then email
      else if phone != "" then phone
      else if tg != "" then tg
      else ig
  }

  // ------------------------------------------------------------ order

  /** The `Payment` row created with the order. */
  datatype Payment = Payment(amount: int, currency: string, status: string)

  /** The order lines created from the cart rows (`OrderItem.objects.create`,
      which runs `OrderItem.save`). */
  function OrderLines(rows: seq<Row>): (items: seq<OrderItem>)
    ensures |items| == |rows|
    ensures forall i :: 0 <= i < |rows| ==>
      && items[i].productId == rows[i].pid
      && items[i].productName == rows[i].name
      && items[i].qty == rows[i].qty
      && items[i].price == Some(rows[i].price)
    ensures ItemsSaved(items)
    ensures SumLineTotals(items) == RowsSubtotal(rows)
  {
    if |rows| == 0 then []
    else
      var r := rows[0];
      var it := SaveItem(OrderItem(r.pid, r.name, r.qty, Some(r.price), r.price * r.qty), r.name);
      var rest := OrderLines(rows[1..]);
      var items := [it] + rest;
      assert items[1..] == rest;
      items
  }

  /** The JSON `message` of a placed order. */
  function Confirmation(number: string, total: int, currency: string): string
  {
    "Ваш заказ " + number + " на сумму " + ShowInt(total) + " " + currency +
    " оформлен. Мы свяжемся с вами для уточнения оплаты."
  }

  /** The response of `checkout_submit`. */
  datatype Reply =
    | EmptyCart
    | EmailRequired
    | Placed(order: Order, items: seq<OrderItem>, payment: Payment, message: string)

  /** The response together with the session cart and the customer table after
      the request. */
  datatype Submitted = Submitted(reply: Reply, cart: Cart, customers: Customers.Customers)

  const ContactKeys: seq<string> := ["contact_method", "contact_method_pickup"]
  const HandleKeys: seq<string> := ["contact_handle", "contact_handle_pickup", "handle", "contact", "username"]
  const TgKeys: seq<string> := ["tg_username", "tg", "telegram"]
  const IgKeys: seq<string> := ["instagram_username", "ig_username", "instagram", "insta_username"]

  /** The e-mail the view works with: `_post(...).lower()`. */
  function CheckoutEmail(post: Post): string
  {
    Lower(PostField(post, ["email", "email_pickup"]))
  }

  /** The delivery split the form asks for. */
  function FormDelivery(post: Post): Delivery
  {
    DeliveryOf(PostField(post, ["delivery_provider"]), PostField(post, ["country"]),
               PostField(post, ["city"]), PostField(post, ["pickup_address"]))
  }

  /** Steps 7 to 9 of the view: create the order (which numbers it), its lines,
      the totals and the pending payment. */
  function PlaceOrder(rows: seq<Row>, email: string, phone: string, contactMethod: string, contactValue: string,
                      d: Delivery, shipping: int, discount: int, newPk: nat): (r: Reply)
    ensures r.Placed?
    ensures var o := r.order;
      && o.pk == Some(newPk)
      && o.number == Some(OrderNumber(newPk)) && ParseOrderNumber(o.number.value) == Some(newPk)
      && o.email == email && o.phone == phone
      && o.contactMethod == contactMethod && o.contactValue == contactValue
      && o.provider == d.provider && o.deliveryMethod == d.deliveryMethod
      && o.pickupAddress == d.pickupAddress && o.deliveryAddress == d.address
      && o.currency == "BYN"
      && o.shipping == shipping && o.discount == discount
      && o.subtotal == RowsSubtotal(rows)
      && o.total == o.subtotal + shipping - discount
      && o == RecalcTotals(o, r.items)
      && r.payment == Payment(o.total, "BYN", "pending")
      && r.message == Confirmation(o.number.value, o.total, "BYN")
    ensures r.items == OrderLines(rows)
  {
    var draft := Order(None, None, email, phone, contactMethod, contactValue,
      d.provider, d.deliveryMethod, d.pickupAddress, d.address, "BYN", 0, shipping, discount, 0);
    var created := SaveOrder(draft, newPk);
    var items := OrderLines(rows);
    var subtotal := SumLineTotals(items);
    var order := SaveOrder(created.(subtotal := subtotal, total := subtotal + shipping - discount), newPk);
    Placed(order, items, Payment(order.total, order.currency, "pending"),
           Confirmation(order.number.value, order.total, order.currency))
  }

  /** The name, phone and contact choice the view reads from the form. */
  datatype ContactForm = ContactForm(fullName: string, phone: string, choice: ContactChoice)

  /** Steps 1 to 4 of the view for the contact fields. */
  function ContactFormOf(post: Post): ContactForm
  {
    ContactForm(PostField(post, ["full_name", "full_name_pickup"]), PostField(post, ["phone", "phone_pickup"]),
                ResolveHandles(PostField(post, ContactKeys), PostField(post, HandleKeys),
                               PostField(post, TgKeys), PostField(post, IgKeys)))
  }

  /** The arguments the view hands `upsert_customer_from_checkout`. */
  function CustomerContact(email: string, cf: ContactForm): Customers.Contact
  {
    Customers.Contact(email, cf.fullName, cf.phone, cf.choice.tg, cf.choice.ig, PrefArgument(cf.choice.contactMethod))
  }

  /** The order `checkout_submit` places for `rows`: the customer is upserted
      from the form; the order gets the new key and its number, the e-mail and
      phone, the chosen method (or the customer's preference) and the value
      `resolve_contact_value` picks, the delivery split, one saved line per row
      and the totals; the cart is emptied. */
  ghost predicate PlacedFor(r: Submitted, rows: seq<Row>, db: Customers.Customers, email: string, cf: ContactForm,
                            d: Delivery, shipping: int, discount: int, newPk: nat)
  {
    var up := Customers.Upsert(db, CustomerContact(email, cf));
    var cm := cf.choice.contactMethod;
    && r.reply.Placed? && r.cart == []
    && r.customers == up.db
    && r.customers.Keys == db.Keys + {Customers.NormalizeEmail(email)}
    && r.reply.items == OrderLines(rows)
    && var o := r.reply.order;
    && o.pk == Some(newPk)
    && o.number == Some(OrderNumber(newPk))
    && o.email == email && o.phone == cf.phone
    && o.contactMethod == (if cm != "" then cm else Customers.PrefValue(up.customer.pref))
    && o.contactValue == ContactValue(cm, email, cf.phone, cf.choice.tg, cf.choice.ig, up.customer)
    && o.contactValue != ""
    && o.provider == d.provider
    && o.deliveryMethod == d.deliveryMethod
    && o.pickupAddress == d.pickupAddress
    && o.deliveryAddress == d.address
    && o.subtotal == RowsSubtotal(rows)
    && o.total == o.subtotal + shipping - discount
    && r.reply.payment == Payment(o.total, "BYN", "pending")
  }

  /** Steps 5 to 10 for a non-empty cart and an e-mail: upsert the customer,
      place the order, empty the cart. */
  function Accept(rows: seq<Row>, db: Customers.Customers, email: string, cf: ContactForm, d: Delivery,
                  shipping: int, discount: int, newPk: nat): (r: Submitted)
    requires email != ""
    ensures PlacedFor(r, rows, db, email, cf, d, shipping, discount, newPk)
  {
    var choice := cf.choice;
    var cm := choice.contactMethod;
    var contact := CustomerContact(email, cf);
    var up := Customers.Upsert(db, contact);
    Customers.UpsertKeys(db, contact);
    var customer := up.customer;
    var value := ContactValue(cm, email, cf.phone, choice.tg, choice.ig, customer);
    assert value != "";
    var reply := PlaceOrder(rows, email, cf.phone,
      if cm != "" then cm else Customers.PrefValue(customer.pref), value, d, shipping, discount, newPk);
    assert reply.Placed? && reply.items == OrderLines(rows) && reply.order.contactValue == value;
    Submitted(reply, [], up.db)
  }

  /** `checkout_submit`. */
  function CheckoutSubmit(cat: Catalogue, cart: Cart, db: Customers.Customers, post: Post,
                          shipping: int, discount: int, newPk: nat): (r: Submitted)
    ensures |CartRows(cat, cart)| == 0 <==> r.reply == EmptyCart
    ensures r.reply == EmailRequired <==> |CartRows(cat, cart)| > 0 && CheckoutEmail(post) == ""
    ensures !r.reply.Placed? ==> r.cart == cart && r.customers == db
    ensures r.reply.Placed? ==>
      PlacedFor(r, CartRows(cat, cart), db, CheckoutEmail(post), ContactFormOf(post), FormDelivery(post),
                shipping, discount, newPk)
  {
    Gate(CartRows(cat, cart), CheckoutEmail(post), ContactFormOf(post), FormDelivery(post),
         cart, db, shipping, discount, newPk)
  }

  /** The view's two refusals in front of `Accept`: no cart rows, then no
      e-mail. */
  function Gate(rows: seq<Row>, email: string, cf: ContactForm, d: Delivery, cart: Cart, db: Customers.Customers,
                shipping: int, discount: int, newPk: nat): (r: Submitted)
    ensures |rows| == 0 <==> r.reply == EmptyCart
    ensures r.reply == EmailRequired <==> |rows| > 0 && email == ""
    ensures !r.reply.Placed? ==> r.cart == cart && r.customers == db
    ensures r.reply.Placed? ==> PlacedFor(r, rows, db, email, cf, d, shipping, discount, newPk)
  {
    if |rows| == 0 then Submitted(EmptyCart, cart, db)
    else if email == "" then Submitted(EmailRequired, cart, db)
    else Accept(rows, db, email, cf, d, shipping, discount, newPk)
  }

  /** The order is charged what the mini-cart showed: with non-negative product
      ids its subtotal is `_cart_totals`' total, and a non-empty cart always
      gets past the cart check exactly when that count is positive. */
  lemma CheckoutMatchesCartTotals(cat: Catalogue, cart: Cart, db: Customers.Customers, post: Post,
                                  shipping: int, discount: int, newPk: nat)
    requires forall p :: p in cat ==> p >= 0
    ensures var r := CheckoutSubmit(cat, cart, db, post, shipping, discount, newPk);
      && (r.reply == EmptyCart <==> CartTotals(cat, cart).count == 0)
      && (r.reply.Placed? ==> r.reply.order.subtotal == CartTotals(cat, cart).total)
  {
    RowsMatchTotals(cat, cart);
  }

  /** A form without provider, country and city gives a pickup order. */
  lemma CheckoutPickup(cat: Catalogue, cart: Cart, db: Customers.Customers, post: Post,
                       shipping: int, discount: int, newPk: nat)
    requires !IsDelivery(PostField(post, ["delivery_provider"]), PostField(post, ["country"]), PostField(post, ["city"]))
    ensures var r := CheckoutSubmit(cat, cart, db, post, shipping, discount, newPk);
      r.reply.Placed? ==>
        && r.reply.order.provider == "pickup"
        && r.reply.order.deliveryMethod == "pickup"
        && r.reply.order.deliveryAddress == ""
  {
  }

  /** With the session cart empty the request is refused as an empty cart,
      whatever the form says, and nothing changes. */
  lemma EmptyCartRefused(cat: Catalogue, db: Customers.Customers, post: Post,
                         shipping: int, discount: int, newPk: nat)
    ensures CheckoutSubmit(cat, [], db, post, shipping, discount, newPk) == Submitted(EmptyCart, [], db)
  {
    assert CartRows(cat, []) == [];
  }
}

=== FILE: checkout_client.dfy ===
/**
 The checkout form script (frontend/static/js/checkout-submit.js): the
 empty-cart guard, the form-encoded body it posts, and what each kind of
 answer does to the page. The page is reduced to the cart lines, the total
 element and the success window; the request body is a list of key/value
 pairs in order, as `URLSearchParams` keeps it.
 */
module CheckoutClient {
  import opened Wrappers
  import opened Text
  import Cart
  import Checkout
  import Customers

  // ------------------------------------------------------------ request body

  /** One `name=value` pair of a form-encoded body. */
  datatype Param = Param(key: string, value: string)

  /** The values of key `k`, in body order. */
  function Values(ps: seq<Param>, k: string): seq<string>
  {
    if |ps| == 0 then []
    else (if ps[0].key == k then [ps[0].value] else []) + Values(ps[1..], k)
  }

  /** The body without the pairs of key `k`. */
  function Without(ps: seq<Param>, k: string): (r: seq<Param>)
    ensures Values(r, k) == []
  {
    if |ps| == 0 then []
    else
      var rest := Without(ps[1..], k);
      ValuesConcat(if ps[0].key == k then [] else [ps[0]], rest, k);
      (if ps[0].key == k then [] else [ps[0]]) + rest
  }

  lemma {:induction false} ValuesConcat(a: seq<Param>, b: seq<Param>, k: string)
    ensures Values(a + b, k) == Values(a, k) + Values(b, k)
  {
    if |a| > 0 {
      assert (a + b)[0] == a[0];
      assert (a + b)[1..] == a[1..] + b;
      ValuesConcat(a[1..], b, k);
    } else {
      assert a + b == b;
    }
  }

  /** Dropping one key does not touch the values of another. */
  lemma {:induction false} ValuesWithout(ps: seq<Param>, k: string, j: string)
    requires j != k
    ensures Values(Without(ps, k), j) == Values(ps, j)
  {
    if |ps| > 0 {
      ValuesWithout(ps[1..], k, j);
      ValuesConcat(if ps[0].key == k then [] else [ps[0]], Without(ps[1..], k), j);
    }
  }

  /** The first pair of key `k` gets value `v` and the others go. */
  function ReplaceFirst(ps: seq<Param>, k: string, v: string): seq<Param>
  {
    if |ps| == 0 then []
    else if ps[0].key == k then [Param(k, v)] + Without(ps[1..], k)
    else [ps[0]] + ReplaceFirst(ps[1..], k, v)
  }

  /** `URLSearchParams.set(k, v)`: afterwards `k` has the one value `v`, and
      the other keys keep their values in order. */
  function SetParam(ps: seq<Param>, k: string, v: string): (r: seq<Param>)
    ensures Values(r, k) == [v]
    ensures forall j :: j != k ==> Values(r, j) == Values(ps, j)
  {
    if Values(ps, k) == [] then
      ValuesConcat(ps, [Param(k, v)], k);
      forall j | j != k ensures Values(ps + [Param(k, v)], j) == Values(ps, j) {
        ValuesConcat(ps, [Param(k, v)], j);
      }
      ps + [Param(k, v)]
    else
      ReplaceFirstValues(ps, k, v);
      ReplaceFirst(ps, k, v)
  }

  lemma {:induction false} ReplaceFirstValues(ps: seq<Param>, k: string, v: string)
    requires Values(ps, k) != []
    ensures Values(ReplaceFirst(ps, k, v), k) == [v]
    ensures forall j :: j != k ==> Values(ReplaceFirst(ps, k, v), j) == Values(ps, j)
  {
    var r := ReplaceFirst(ps, k, v);
    if ps[0].key == k {
      ValuesConcat([Param(k, v)], Without(ps[1..], k), k);
      forall j | j != k ensures Values(r, j) == Values(ps, j) {
        ValuesConcat([Param(k, v)], Without(ps[1..], k), j);
        ValuesWithout(ps[1..], k, j);
      }
    } else {
      ReplaceFirstValues(ps[1..], k, v);
      ValuesConcat([ps[0]], ReplaceFirst(ps[1..], k, v), k);
      forall j | j != k ensures Values(r, j) == Values(ps, j) {
        ValuesConcat([ps[0]], ReplaceFirst(ps[1..], k, v), j);
      }
    }
  }

  /** `URLSearchParams.append(k, v)`. */
  function AppendParam(ps: seq<Param>, k: string, v: string): (r: seq<Param>)
    ensures Values(r, k) == Values(ps, k) + [v]
    ensures forall j :: j != k ==> Values(r, j) == Values(ps, j)
  {
    ValuesConcat(ps, [Param(k, v)], k);
    forall j | j != k ensures Values(ps + [Param(k, v)], j) == Values(ps, j) {
      ValuesConcat(ps, [Param(k, v)], j);
    }
    ps + [Param(k, v)]
  }

  lemma AppendedValues(ps: seq<Param>, key: string, v: string, k: string, cond: bool)
    ensures Values(if cond then AppendParam(ps, key, v) else ps, k) ==
      Values(ps, k) + (if cond && k == key then [v] else [])
  {
  }

  /** The body as Django's `request.POST.get` reads it: the last value of each
      key. */
  function ToPost(ps: seq<Param>): Cart.Post
  {
    if |ps| == 0 then map[]
    else
      var rest := ToPost(ps[1..]);
      if ps[0].key in rest then rest else rest[ps[0].key := ps[0].value]
  }

  /** The server reads exactly the keys the body has, each at its last value. */
  lemma {:induction false} ToPostLastValue(ps: seq<Param>, k: string)
    ensures k in ToPost(ps) <==> Values(ps, k) != []
    ensures k in ToPost(ps) ==> ToPost(ps)[k] == Values(ps, k)[|Values(ps, k)| - 1]
  {
    if |ps| > 0 {
      ToPostLastValue(ps[1..], k);
      ValuesConcat([ps[0]], ps[1..], k);
      assert [ps[0]] + ps[1..] == ps;
    }
  }

  // ------------------------------------------------------------ the form

  /** The checkout form: its own fields in document order, the values of the
      checked `contact_method` and `contact_method_pickup` radios (`""` when
      none is checked) and the value of the enabled handle input (`""` when
      there is none). */
  datatype Form = Form(fields: seq<Param>, methodDelivery: string, methodPickup: string, handle: string)

  /** The contact method the script settles on: the delivery radio, else the
      pickup radio, lower-cased. */
  function Method(f: Form): string
  {
    Lower(if f.methodDelivery != "" then f.methodDelivery else f.methodPickup)
  }

  /** The trimmed text of the total element, `""` without one. */
  function DomTotal(total: Option<string>): string
  {
    if total.Some? then JsTrim(total.value) else ""
  }

  const ContactKey: string := "contact_method"
  const TgKey: string := "tg_username"
  const IgKey: string := "instagram_username"
  const HintKey: string := "client_total_hint"

  /** The body the script posts, step by step. */
  function BuildBody(f: Form, total: Option<string>): seq<Param>
  {
    var m := Method(f);
    var h := JsTrim(f.handle);
    var t := DomTotal(total);
    var b1 := if m != "" then SetParam(f.fields, ContactKey, m) else f.fields;
    var b2 := if h != "" && m == "tg" then AppendParam(b1, TgKey, h) else b1;
    var b3 := if h != "" && m == "ig" then AppendParam(b2, IgKey, h) else b2;
    if t != "" then AppendParam(b3, HintKey, t) else b3
  }

  /** What the body should carry under key `k`: the form's own values, except
      that a settled contact method replaces the radios' values, the trimmed
      handle follows the chosen network's own values, and the trimmed total
      follows the hint's. */
  function ExpectedValues(f: Form, total: Option<string>, k: string): seq<string>
  {
    Expect(f.fields, Method(f), JsTrim(f.handle), DomTotal(total), k)
  }

  /** The same, for the form fields `fields`, the method `m`, the handle `h`
      and the total `t`. */
  function Expect(fields: seq<Param>, m: string, h: string, t: string, k: string): seq<string>
  {
    if k == ContactKey && m != "" then [m]
    else if k == TgKey && m == "tg" && h != "" then Values(fields, k) + [h]
    else if k == IgKey && m == "ig" && h != "" then Values(fields, k) + [h]
    else if k == HintKey && t != "" then Values(fields, k) + [t]
    else Values(fields, k)
  }

  /** The body built by the script carries exactly the expected values under
      every key. */
  lemma BuildBodyValues(f: Form, total: Option<string>, k: string)
    ensures Values(BuildBody(f, total), k) == ExpectedValues(f, total, k)
  {
    var m := Method(f);
    var h := JsTrim(f.handle);
    var t := DomTotal(total);
    assert ContactKey != TgKey && ContactKey != IgKey && ContactKey != HintKey;
    assert TgKey != IgKey && TgKey != HintKey && IgKey != HintKey;
    var b1 := if m != "" then SetParam(f.fields, ContactKey, m) else f.fields;
    assert Values(b1, k) == (if k == ContactKey && m != "" then [m] else Values(f.fields, k));
    var b2 := if h != "" && m == "tg" then AppendParam(b1, TgKey, h) else b1;
    AppendedValues(b1, TgKey, h, k, h != "" && m == "tg");
    var b3 := if h != "" && m == "ig" then AppendParam(b2, IgKey, h) else b2;
    AppendedValues(b2, IgKey, h, k, h != "" && m == "ig");
    var b4 := if t != "" then AppendParam(b3, HintKey, t) else b3;
    AppendedValues(b3, HintKey, t, k, t != "");
    assert BuildBody(f, total) == b4;
  }

  /** The last of a key's values, as `QueryDict.get` returns it. */
  function LastOf(vs: seq<string>): Option<string>
  {
    if vs == [] then None else Some(vs[|vs| - 1])
  }

  /** The server reads the last value the body carries under `k`. */
  lemma GetLast(ps: seq<Param>, k: string)
    ensures Cart.Get(ToPost(ps), k) == LastOf(Values(ps, k))
  {
    ToPostLastValue(ps, k);
  }

  /** What the server reads from the body: the settled method, the handle
      under the chosen network's key (the script appends it last), the hint,
      and every other field as the form has it. */
  lemma ServerReadsChoice(f: Form, total: Option<string>, k: string)
    ensures Reads(ToPost(BuildBody(f, total)), f.fields, Method(f), JsTrim(f.handle), DomTotal(total), k)
  {
    BuildBodyValues(f, total, k);
    ReadsExpected(BuildBody(f, total), f.fields, Method(f), JsTrim(f.handle), DomTotal(total), k);
  }

  /** `post` holds, under key `k`, what a script that settled on method `m`,
      handle `h` and total `t` means to send along with the form `fields`. */
  ghost predicate Reads(post: Cart.Post, fields: seq<Param>, m: string, h: string, t: string, k: string)
  {
    && (k == ContactKey && m != "" ==> Cart.Get(post, k) == Some(m))
    && (k == TgKey && m == "tg" && h != "" ==> Cart.Get(post, k) == Some(h))
    && (k == IgKey && m == "ig" && h != "" ==> Cart.Get(post, k) == Some(h))
    && (k == HintKey && t != "" ==> Cart.Get(post, k) == Some(t))
    && (k !in {ContactKey, TgKey, IgKey, HintKey} ==> Cart.Get(post, k) == Cart.Get(ToPost(fields), k))
  }

  lemma ReadsExpected(ps: seq<Param>, fields: seq<Param>, m: string, h: string, t: string, k: string)
    requires Values(ps, k) == Expect(fields, m, h, t, k)
    ensures Reads(ToPost(ps), fields, m, h, t, k)
  {
    GetLast(ps, k);
    GetLast(fields, k);
  }

  // ------------------------------------------------------------ the page

  /** One element inside `#cart-lines`, by its classes and text. */
  datatype Line = Line(classes: set<string>, text: string)

  /** The class the guard looks for inside `#cart-lines`. */
  const ItemClass: string := "product-line-placing"

  /** The guard's reading of the cart: no `#cart-lines` element, or none of
      its lines carries the item class. */
  predicate CartLooksEmpty(lines: Option<seq<Line>>)
  {
    lines.None? || forall i :: 0 <= i < |lines.value| ==> ItemClass !in lines.value[i].classes
  }

  /** The parts of the page the script touches: the cart lines (`None` without
      `#cart-lines`), the total element's text (`None` without `#cart-total`),
      the success window's text element (`None` without one), whether the
      window exists and is shown, and the body's `no-scroll` class. */
  datatype Page = Page(lines: Option<seq<Line>>, total: Option<string>, windowText: Option<string>,
                       hasWindow: bool, windowShown: bool, noScroll: bool)

  /** The answer's JSON object; a missing field reads as `""`, `0` or
      `false`, which the script treats the same as those values. */
  datatype Answer = Answer(ok: bool, message: string, total: int, currency: string, paymentUrl: string)

  /** The answer body: not JSON, the JSON `null`, or an object. */
  datatype Body = NotJson | Null | Object(answer: Answer)

  /** What `fetch` produced: it threw, or a response with its status class. */
  datatype Response = FetchFailed | Http(ok: bool, body: Body)

  /** What the script does besides changing the page, in order. */
  datatype Action = Alert(text: string) | Send(body: seq<Param>) | NativeSubmit | Redirect(url: string)

  /** The page after one submit and the actions taken. */
  datatype Step = Step(page: Page, actions: seq<Action>)

  const EmptyAlert: string := "Корзина пуста"
  const HttpAlert: string := "Не удалось оформить заказ. Проверьте поля и попробуйте ещё раз."
  const RefusedAlert: string := "Не удалось оформить заказ."
  const ClearedTotal: string := "0.00"

  /** `data.total || domTotal || ''`. */
  function TotalText(a: Answer, domTotal: string): string
  {
    if a.total != 0 then ShowInt(a.total) else domTotal
  }

  /** `data.message`, or the message built from the total and currency. */
  function SuccessMessage(a: Answer, domTotal: string): (r: string)
    ensures r != ""
    ensures a.message != "" ==> r == a.message
  {
    if a.message != "" then a.message
    else
      "Ваш заказ принят. Сумма: " + TotalText(a, domTotal) + " " +
      (if a.currency != "" then a.currency else "BYN") + ". успешно оформлен!"
  }

  /** The page after a successful answer: the lines replaced by a single
      placeholder line of class `placeholderClass`, the total at "0.00", the
      window shown with the message. */
  function Cleared(placeholderClass: string, p: Page, msg: string): Page
  {
    p.(lines := if p.lines.Some? then Some([Line({placeholderClass}, EmptyAlert)]) else None,
       total := if p.total.Some? then Some(ClearedTotal) else None,
       windowText := if p.windowText.Some? then Some(msg) else None,
       windowShown := p.hasWindow,
       noScroll := true)
  }

  /** The submit handler, with the class of the placeholder it writes after a
      success and the body it would send as parameters. An empty-looking cart gets the "Корзина пуста"
      alert and nothing is sent; otherwise the body is sent and then: a thrown
      fetch or a body that is not JSON falls back to the native submit; an
      error status gets the generic alert; a JSON answer without `ok` gets its
      message (or the short alert); a success clears the cart lines, zeroes
      the total, shows the window and follows `payment_url` when there is one.
      Only a success changes the page. */
  function SubmitWith(placeholderClass: string, p: Page, body: seq<Param>, resp: Response): (r: Step)
    ensures CartLooksEmpty(p.lines) ==> r == Step(p, [Alert(EmptyAlert)])
    ensures !CartLooksEmpty(p.lines) ==> |r.actions| >= 1 && r.actions[0] == Send(body)
    ensures !CartLooksEmpty(p.lines) && resp.FetchFailed? ==> r == Step(p, [Send(body), NativeSubmit])
    ensures !CartLooksEmpty(p.lines) && resp.Http? && !resp.ok ==> r == Step(p, [Send(body), Alert(HttpAlert)])
    ensures !CartLooksEmpty(p.lines) && resp == Http(true, NotJson) ==> r == Step(p, [Send(body), NativeSubmit])
    ensures !CartLooksEmpty(p.lines) && resp == Http(true, Null) ==> r == Step(p, [Send(body), Alert(RefusedAlert)])
    ensures !CartLooksEmpty(p.lines) && resp.Http? && resp.ok && resp.body.Object? ==>
        var a := resp.body.answer;
        && (!a.ok ==> r == Step(p, [Send(body), Alert(if a.message != "" then a.message else RefusedAlert)]))
        && (a.ok ==>
             && r.page.lines == (if p.lines.Some? then Some([Line({placeholderClass}, EmptyAlert)]) else None)
             && r.page.total == (if p.total.Some? then Some(ClearedTotal) else None)
             && r.page.windowShown == p.hasWindow && r.page.noScroll
             && (p.windowText.Some? ==> r.page.windowText == Some(SuccessMessage(a, DomTotal(p.total))))
             && (a.paymentUrl != "" <==> |r.actions| == 2)
             && (a.paymentUrl != "" ==> r.actions[1] == Redirect(a.paymentUrl)))
  {
    if CartLooksEmpty(p.lines) then Step(p, [Alert(EmptyAlert)])
    else
      var sent := Send(body);
      match resp
      case FetchFailed => Step(p, [sent, NativeSubmit])
      case Http(ok, answer) =>
        if !ok then Step(p, [sent, Alert(HttpAlert)])
        else
          match answer
          case NotJson => Step(p, [sent, NativeSubmit])
          case Null => Step(p, [sent, Alert(RefusedAlert)])
          case Object(a) =>
            if !a.ok then Step(p, [sent, Alert(if a.message != "" then a.message else RefusedAlert)])
            else
              var page := Cleared(placeholderClass, p, SuccessMessage(a, DomTotal(p.total)));
              Step(page, [sent] + (if a.paymentUrl != "" then [Redirect(a.paymentUrl)] else []))
  }

  /** The handler as written: its placeholder carries the item class. */
  function Submit(p: Page, f: Form, resp: Response): Step
  {
    SubmitWith(ItemClass, p, BuildBody(f, p.total), resp)
  }

  /** A placeholder class the guard does not count as an item. */
  const EmptyClass: string := "product-line-empty"

  /** The handler with the placeholder written under a class of its own. */
  function SubmitFixed(p: Page, f: Form, resp: Response): Step
  {
    SubmitWith(EmptyClass, p, BuildBody(f, p.total), resp)
  }

  // ------------------------------------------------------------ against the server

  /** The response `checkout_submit` gives for its reply: the two refusals are
      plain-text 400 responses, a placed order is a JSON object with the
      order's total and currency and the confirmation message, and no
      payment link. */
  function Respond(reply: Checkout.Reply): (r: Response)
    ensures !reply.Placed? <==> r == Http(false, NotJson)
    ensures reply.Placed? ==> r == Http(true, Object(Answer(true, reply.message, reply.order.total, reply.order.currency, "")))
  {
    match reply
    case Placed(o, _, _, msg) => Http(true, Object(Answer(true, msg, o.total, o.currency, "")))
    case _ => Http(false, NotJson)
  }

  /** Against the server, from a page with cart lines: a refused checkout
      gets the generic alert and leaves the page alone; a placed order
      shows the server's confirmation in the window, zeroes the total and
      never redirects. Stated for the handler with its placeholder corrected;
      `PlaceholderOnlyInLines` shows the handler as written does the same. */
  lemma ServerRepliesShown(p: Page, f: Form, reply: Checkout.Reply)
    requires !CartLooksEmpty(p.lines)
    ensures var r := SubmitFixed(p, f, Respond(reply));
      && (!reply.Placed? ==> r == Step(p, [Send(BuildBody(f, p.total)), Alert(HttpAlert)]))
      && (reply.Placed? && reply.message != "" ==>
            && r.actions == [Send(BuildBody(f, p.total))]
            && (p.windowText.Some? ==> r.page.windowText == Some(reply.message))
            && r.page.total == (if p.total.Some? then Some(ClearedTotal) else None))
  {
  }

  /** As written, the placeholder the handler writes after a success carries
      the item class, so the guard no longer sees an empty cart: a second
      submit on the same page sends the form again. */
  lemma {:induction false} SecondSubmitAfterSuccessSends(p: Page, f: Form, a: Answer, resp: Response)
    requires p.lines.Some? && !CartLooksEmpty(p.lines)
    requires a.ok && a.paymentUrl == ""
    ensures var first := Submit(p, f, Http(true, Object(a)));
      && first.page.lines == Some([Line({ItemClass}, EmptyAlert)])
      && !CartLooksEmpty(first.page.lines)
      && Submit(first.page, f, resp).actions[0] == Send(BuildBody(f, first.page.total))
  {
    var first := Submit(p, f, Http(true, Object(a)));
    SendsAgain(p, BuildBody(f, p.total), BuildBody(f, first.page.total), a, resp);
  }

  /** The same for any bodies the two submits send. */
  lemma SendsAgain(p: Page, b1: seq<Param>, b2: seq<Param>, a: Answer, resp: Response)
    requires p.lines.Some? && !CartLooksEmpty(p.lines)
    requires a.ok && a.paymentUrl == ""
    ensures var first := SubmitWith(ItemClass, p, b1, Http(true, Object(a)));
      && first.page.lines == Some([Line({ItemClass}, EmptyAlert)])
      && !CartLooksEmpty(first.page.lines)
      && SubmitWith(ItemClass, first.page, b2, resp).actions[0] == Send(b2)
  {
    var first := SubmitWith(ItemClass, p, b1, Http(true, Object(a)));
    assert first.page.lines.value[0].classes == {ItemClass};
  }

  /** The concrete consequence: a placed order leaves the session cart empty
      (`Checkout.CheckoutSubmit` says so), so the repeated request, whatever it
      carries, is refused as "empty cart" and the customer sees the generic
      "check the fields" alert instead of "Корзина пуста". */
  lemma {:induction false} SecondSubmitGetsHttpAlert(reply: Checkout.Reply, cat: Cart.Catalogue, db: Customers.Customers,
                                                    post: Cart.Post, shipping: int, discount: int, pk: nat,
                                                    p: Page, f: Form)
    requires p.lines.Some? && !CartLooksEmpty(p.lines)
    requires reply.Placed?
    ensures var first := Submit(p, f, Respond(reply));
      var again := Checkout.CheckoutSubmit(cat, [], db, post, shipping, discount, pk);
      && again.reply == Checkout.EmptyCart
      && Submit(first.page, f, Respond(again.reply)).actions == [Send(BuildBody(f, first.page.total)), Alert(HttpAlert)]
  {
    Checkout.EmptyCartRefused(cat, db, post, shipping, discount, pk);
    assert Respond(Checkout.EmptyCart) == Http(false, NotJson);
    var a := Answer(true, reply.message, reply.order.total, reply.order.currency, "");
    assert Respond(reply) == Http(true, Object(a));
    var first := Submit(p, f, Http(true, Object(a)));
    SendsAgain(p, BuildBody(f, p.total), BuildBody(f, first.page.total), a, Http(false, NotJson));
  }

  /** With the placeholder under its own class, a successful submit leaves a
      page the guard reads as empty: a second submit only shows
      "Корзина пуста" and sends nothing. */
  lemma {:induction false} SecondSubmitAfterSuccessBlocked(p: Page, f: Form, a: Answer, resp: Response)
    requires !CartLooksEmpty(p.lines)
    requires a.ok
    ensures var first := SubmitFixed(p, f, Http(true, Object(a)));
      && CartLooksEmpty(first.page.lines)
      && SubmitFixed(first.page, f, resp) == Step(first.page, [Alert(EmptyAlert)])
  {
    var first := SubmitFixed(p, f, Http(true, Object(a)));
    if first.page.lines.Some? {
      assert first.page.lines.value == [Line({EmptyClass}, EmptyAlert)];
      assert ItemClass !in first.page.lines.value[0].classes;
    }
  }

  /** The placeholder's class shows only in the cart lines: the actions and
      the rest of the page do not depend on it. */
  lemma PlaceholderOnlyInLines(c1: string, c2: string, p: Page, body: seq<Param>, resp: Response)
    ensures SubmitWith(c1, p, body, resp).actions == SubmitWith(c2, p, body, resp).actions
    ensures SubmitWith(c1, p, body, resp).page.(lines := p.lines) == SubmitWith(c2, p, body, resp).page.(lines := p.lines)
  {
    if !CartLooksEmpty(p.lines) && resp.Http? && resp.ok && resp.body.Object? && resp.body.answer.ok {
      var a := resp.body.answer;
      var msg := SuccessMessage(a, DomTotal(p.total));
      assert SubmitWith(c1, p, body, resp).page == Cleared(c1, p, msg);
      assert SubmitWith(c2, p, body, resp).page == Cleared(c2, p, msg);
    }
  }
}

=== FILE: customers.dfy ===
/**
 Customer records and the checkout upsert of shop/services.py, together with the
 normalisation `Customer.save` applies and `preferred_contact_value`
 (shop/models.py). The customer table is a map keyed by the stored e-mail, the
 field `get_or_create(email=...)` looks up.
 */
module Customers {
  import opened Wrappers
  import opened Text

  // ------------------------------------------------------------ normalisation

  /** `_normalize_username`: trim, drop one leading "@", lowercase. It is the
      e-mail normalisation with one leading "@" removed, when there is one. */
  function NormalizeUsername(s: string): (r: string)
    ensures |r| <= |s|
    ensures forall i :: 0 <= i < |r| ==> !IsUpper(r[i])
    ensures !StartsWith(Trim(s), "@") ==> r == NormalizeEmail(s)
    ensures StartsWith(Trim(s), "@") ==> "@" + r == NormalizeEmail(s)
  {
    var t := Trim(s);
    if StartsWith(t, "@") then
      assert t == [t[0]] + t[1..];
      LowerAppend([t[0]], t[1..]);
      assert Lower([t[0]]) == "@";
      Lower(t[1..])
    else Lower(t)
  }

  /** Only one "@" goes per call, so normalising twice can differ from once. */
  lemma NormalizeUsernameNotIdempotent()
    ensures NormalizeUsername("@@a") == "@a"
    ensures NormalizeUsername(NormalizeUsername("@@a")) == "a"
  {
    TrimNoSpace("@@a");
    TrimNoSpace("@a");
    assert "@@a"[1..] == "@a" && "@a"[1..] == "a";
    assert Lower("@a") == "@a";
    assert Lower("a") == "a";
  }

  /** A result that is already trimmed and does not start with "@" is a fixed
      point; in particular a second `Customer.save` leaves such a handle alone. */
  lemma NormalizeUsernameFixedPoint(s: string)
    requires Trim(NormalizeUsername(s)) == NormalizeUsername(s)
    requires !StartsWith(NormalizeUsername(s), "@")
    ensures NormalizeUsername(NormalizeUsername(s)) == NormalizeUsername(s)
  {
    var t := Trim(s);
    var u := if StartsWith(t, "@") then t[1..] else t;
    LowerIdempotent(u);
  }

  /** `_normalize_email` (and the e-mail step of `Customer.save`). */
  function NormalizeEmail(s: string): (r: string)
    ensures |r| <= |s|
    ensures forall i :: 0 <= i < |r| ==> !IsUpper(r[i])
    ensures |r| > 0 ==> !IsPySpace(r[0]) && !IsPySpace(r[|r| - 1])
  {
    Lower(Trim(s))
  }

  /** Normalising an e-mail twice is normalising it once. */
  lemma NormalizeEmailIdempotent(s: string)
    ensures NormalizeEmail(NormalizeEmail(s)) == NormalizeEmail(s)
  {
    var t := Trim(s);
    TrimLower(t);
    StripIdempotent(s, IsPySpace);
    LowerIdempotent(t);
  }

  lemma TrimNoSpace(s: string)
    requires forall i :: 0 <= i < |s| ==> !IsPySpace(s[i])
    ensures Trim(s) == s
  {
    StripUnchanged(s, IsPySpace);
  }

  // ------------------------------------------------------------ handles

  predicate IsHandleChar(c: char)
  {
    ('A' <= c <= 'Z') || ('a' <= c <= 'z') || ('0' <= c <= '9') || c == '.' || c == '_'
  }

  predicate HandleBody(s: string)
  {
    2 <= |s| <= 30 && forall i :: 0 <= i < |s| ==> IsHandleChar(s[i])
  }

  /** `username_validator`: `RegexValidator` searches `^[A-Za-z0-9._]{2,30}$`,
      and Python's `$` also matches just before a final "\n". */
  predicate ValidUsername(s: string)
  {
    HandleBody(s) || (|s| > 0 && s[|s| - 1] == '\n' && HandleBody(s[..|s| - 1]))
  }

  /** The validator accepts a handle with a trailing newline. */
  lemma ValidUsernameTrailingNewline()
    ensures ValidUsername("ab\n")
  {
    assert "ab\n"[..2] == "ab";
  }

  /** Normalising a valid handle lowercases it (dropping a final newline) and
      keeps it valid; a valid normalised handle is a fixed point. */
  lemma NormalizeValidUsername(s: string)
    requires ValidUsername(s)
    ensures var b := if HandleBody(s) then s else s[..|s| - 1];
      NormalizeUsername(s) == Lower(b) && HandleBody(NormalizeUsername(s))
    ensures NormalizeUsername(NormalizeUsername(s)) == NormalizeUsername(s)
  {
    var b := if HandleBody(s) then s else s[..|s| - 1];
    TrimHandle(s);
    HandleNormalizes(b);
    assert NormalizeUsername(s) == NormalizeUsername(b);
    HandleNormalizes(Lower(b));
    LowerIdempotent(b);
  }

  /** A handle body has nothing to trim and no "@" to drop. */
  lemma HandleNormalizes(h: string)
    requires HandleBody(h)
    ensures Trim(h) == h
    ensures NormalizeUsername(h) == Lower(h) && HandleBody(Lower(h))
  {
    HandleTrimmed(h);
    LowerHandleBody(h);
  }

  lemma HandleTrimmed(h: string)
    requires HandleBody(h)
    ensures Trim(h) == h && !StartsWith(h, "@")
  {
    TrimNoSpace(h);
    assert h[0] != '@';
  }

  lemma LowerHandleBody(h: string)
    requires HandleBody(h)
    ensures HandleBody(Lower(h))
  {
    var l := Lower(h);
    forall i | 0 <= i < |l| ensures IsHandleChar(l[i]) {
      LowerHandleChar(h[i]);
    }
  }

  lemma LowerHandleChar(c: char)
    requires IsHandleChar(c)
    ensures IsHandleChar(LowerChar(c))
  {
    if 'A' <= c <= 'Z' {
      assert LowerChar(c) == (c as int + 32) as char;
    } else {
      assert !IsUpper(c);
    }
  }

  /** Trimming a valid handle removes at most the final newline. */
  lemma TrimHandle(s: string)
    requires ValidUsername(s)
    ensures Trim(s) == if HandleBody(s) then s else s[..|s| - 1]
  {
    if HandleBody(s) {
      TrimNoSpace(s);
    } else {
      var b := s[..|s| - 1];
      assert forall i :: 0 <= i < |b| ==> !IsPySpace(b[i]);
      assert IsPySpace(s[|s| - 1]);
      assert s[0] == b[0] && IsHandleChar(b[0]);
      assert !IsPySpace(s[0]);
      assert StripLeft(s, IsPySpace) == s;
      StripRightDropsLast(s);
      StripUnchanged(b, IsPySpace);
      assert Strip(b, IsPySpace) == b;
    }
  }

  lemma StripRightDropsLast(s: string)
    requires |s| > 0 && IsPySpace(s[|s| - 1])
    ensures StripRight(s, IsPySpace) == StripRight(s[..|s| - 1], IsPySpace)
  {
  }

  // ------------------------------------------------------------ contact preference

  /** `Customer.ContactPref`. */
  datatype ContactPref = Email | Phone | Tg | Ig

  function PrefValue(p: ContactPref): string
  {
    match p
    case Email => "email"
    case Phone => "phone"
    case Tg => "tg"
    case Ig => "ig"
  }

  /** `_coerce_contact_pref`: `None` or `""` gives nothing; otherwise the
      lowercased, trimmed value picks the preference with that name. */
  function CoercePref(value: Option<string>): (r: Option<ContactPref>)
    ensures r.Some? <==>
      (value.Some? && value.value != "" && Trim(Lower(value.value)) in {"email", "phone", "tg", "ig"})
    ensures r.Some? ==> PrefValue(r.value) == Trim(Lower(value.value))
  {
    match value
    case None => None
    case Some(v) =>
      if v == "" then None
      else
        var w := Trim(Lower(v));
        if w == "email" then Some(Email)
        else if w == "phone" then Some(Phone)
        else if w == "tg" then Some(Tg)
        else if w == "ig" then Some(Ig)
        else None
  }

  /** Each preference's own name coerces back to it. */
  lemma CoercePrefValue(p: ContactPref)
    ensures CoercePref(Some(PrefValue(p))) == Some(p)
  {
    var v := PrefValue(p);
    assert forall i :: 0 <= i < |v| ==> 'a' <= v[i] <= 'z';
    TrimLowerLetters(v);
    var w := Trim(Lower(v));
    assert w == v;
    match p
    case Email => assert w == "email";
    case Phone => assert w == "phone" && w != "email";
    case Tg => assert w == "tg" && w != "email" && w != "phone";
    case Ig => assert w == "ig" && w != "email" && w != "phone" && w != "tg";
  }

  /** A word of lower-case Latin letters is its own trimmed lower-case form. */
  lemma TrimLowerLetters(v: string)
    requires forall i :: 0 <= i < |v| ==> 'a' <= v[i] <= 'z'
    ensures Trim(Lower(v)) == v
  {
    assert Lower(v) == v;
    TrimNoSpace(v);
  }

  // ------------------------------------------------------------ customer

  /** The `Customer` fields the checkout reads and writes. */
  datatype Customer = Customer(email: string, name: string, phone: string, tg: string, ig: string, pref: ContactPref)

  /** `Customer.save`: both handles and the e-mail are normalised on every save. */
  function SaveCustomer(c: Customer): (r: Customer)
    ensures r.name == c.name && r.phone == c.phone && r.pref == c.pref
    ensures r.email == NormalizeEmail(c.email)
    ensures r.tg == NormalizeUsername(c.tg) && r.ig == NormalizeUsername(c.ig)
  {
    c.(email := NormalizeEmail(c.email), tg := NormalizeUsername(c.tg), ig := NormalizeUsername(c.ig))
  }

  /** `preferred_contact_value`: the field the preference names (Instagram for
      anything that is not e-mail, phone or Telegram). */
  function PreferredContactValue(c: Customer): (r: string)
    ensures c.pref == Email ==> r == c.email
    ensures c.pref == Phone ==> r == c.phone
    ensures c.pref == Tg ==> r == c.tg
    ensures c.pref == Ig ==> r == c.ig
  {
    match c.pref
    case Email => c.email
    case Phone => c.phone
    case Tg => c.tg
    case Ig => c.ig
  }

  // ------------------------------------------------------------ upsert

  /** The customer table, keyed by stored e-mail. */
  type Customers = map<string, Customer>

  /** Keys are the records' own e-mails, and those are normalised (every record
      went through `Customer.save`). */
  ghost predicate TableOk(db: Customers)
  {
    forall k :: k in db ==> db[k].email == k && NormalizeEmail(k) == k
  }

  /** What `upsert_customer_from_checkout` leaves behind. `resaved` says whether
      the trailing `cust.save(update_fields=...)` ran. */
  datatype Upserted = Upserted(db: Customers, customer: Customer, created: bool, resaved: bool)

  /** The arguments of `upsert_customer_from_checkout`. */
  datatype Contact = Contact(email: string, name: string, phone: string, tg: string, ig: string, pref: Option<string>)

  /** One `set_if_new` step for a plain field: trimmed, and written only when
      non-empty and different. */
  function SetIfNew(cur: string, input: string): (r: string)
    ensures Trim(input) == "" ==> r == cur
    ensures Trim(input) != "" ==> r == Trim(input)
  {
    var v := Trim(input);
    if v != "" && cur != v then v else cur
  }

  /** `set_if_new` for a handle: as `SetIfNew`, normalised after trimming. */
  function SetHandleIfNew(cur: string, input: string): (r: string)
    ensures NormalizeUsername(Trim(input)) == "" ==> r == cur
    ensures NormalizeUsername(Trim(input)) != "" ==> r == NormalizeUsername(Trim(input))
  {
    var v := NormalizeUsername(Trim(input));
    if v != "" && cur != v then v else cur
  }

  /** The record `get_or_create` inserts when the e-mail is new, after its save. */
  function NewCustomer(x: Contact): Customer
  {
    var pref := CoercePref(x.pref).GetOr(Email);
    SaveCustomer(Customer(NormalizeEmail(x.email), Trim(x.name), Trim(x.phone),
                          NormalizeUsername(x.tg), NormalizeUsername(x.ig), pref))
  }

  /** `upsert_customer_from_checkout`. */
  function Upsert(db: Customers, x: Contact): (r: Upserted)
    ensures var key := NormalizeEmail(x.email);
      && r.db == db[key := r.customer]
      && (r.created <==> key !in db)
      && (r.created ==> r.customer == NewCustomer(x))
      && (!r.created ==> r.customer.email == if r.resaved then NormalizeEmail(db[key].email) else db[key].email)
  {
    var key := NormalizeEmail(x.email);
    var created := key !in db;
    var cust := if created then NewCustomer(x) else db[key];
    var tg := NormalizeUsername(x.tg);
    var ig := NormalizeUsername(x.ig);
    var merged := cust.(
      name := SetIfNew(cust.name, x.name),
      phone := SetIfNew(cust.phone, x.phone),
      tg := SetHandleIfNew(cust.tg, tg),
      ig := SetHandleIfNew(cust.ig, ig),
      pref := CoercePref(x.pref).GetOr(cust.pref));
    var changed := merged != cust;
    var result := if changed then SaveCustomer(merged) else cust;
    NewCustomerStable(x);
    Upserted(db[key := result], result, created, changed)
  }

  /** The upsert adds at most the one key it looked up. */
  lemma UpsertKeys(db: Customers, x: Contact)
    ensures Upsert(db, x).db.Keys == db.Keys + {NormalizeEmail(x.email)}
  {
    var r := Upsert(db, x);
    assert r.db == db[NormalizeEmail(x.email) := r.customer];
  }

  /** A freshly created record already holds every value the merge would write,
      so it is never saved a second time. */
  lemma NewCustomerStable(x: Contact)
    ensures var c := NewCustomer(x);
      && SetIfNew(c.name, x.name) == c.name
      && SetIfNew(c.phone, x.phone) == c.phone
      && SetHandleIfNew(c.tg, NormalizeUsername(x.tg)) == c.tg
      && SetHandleIfNew(c.ig, NormalizeUsername(x.ig)) == c.ig
      && CoercePref(x.pref).GetOr(c.pref) == c.pref
  {
    NewCustomerFields(x);
    HandleTwice(x.tg);
    HandleTwice(x.ig);
  }

  lemma NewCustomerFields(x: Contact)
    ensures var c := NewCustomer(x);
      && c.name == Trim(x.name) && c.phone == Trim(x.phone)
      && c.tg == NormalizeUsername(NormalizeUsername(x.tg))
      && c.ig == NormalizeUsername(NormalizeUsername(x.ig))
      && c.pref == CoercePref(x.pref).GetOr(Email)
      && SetIfNew(c.name, x.name) == c.name
      && SetIfNew(c.phone, x.phone) == c.phone
  {
    TrimTwice(x.name);
    TrimTwice(x.phone);
  }

  lemma TrimTwice(s: string)
    ensures Trim(Trim(s)) == Trim(s)
  {
    StripIdempotent(s, IsPySpace);
  }

  /** What the merge compares a handle against on creation: normalising the
      trimmed once-normalised handle is the same as normalising it again. */
  lemma HandleTwice(s: string)
    ensures NormalizeUsername(Trim(NormalizeUsername(s))) == NormalizeUsername(NormalizeUsername(s))
  {
    TrimTwice(NormalizeUsername(s));
  }

  /** The merge rules of the upsert for an existing customer: name and phone
      change only to a non-empty input, the preference only to a valid one, and
      the record is saved exactly when something changed. A handle takes a
      non-empty normalised input; because the save goes through `Customer.save`,
      both handles are normalised once more whenever the record is re-saved,
      even when no handle was given. */
  lemma UpsertMerge(db: Customers, x: Contact)
    requires NormalizeEmail(x.email) in db
    ensures var prev := db[NormalizeEmail(x.email)];
      var r := Upsert(db, x);
      var c := r.customer;
      && !r.created
      && c.name == (if Trim(x.name) == "" then prev.name else Trim(x.name))
      && c.phone == (if Trim(x.phone) == "" then prev.phone else Trim(x.phone))
      && c.pref == (if CoercePref(x.pref).Some? then CoercePref(x.pref).value else prev.pref)
      && c.tg == (if r.resaved then NormalizeUsername(SetHandleIfNew(prev.tg, NormalizeUsername(x.tg))) else prev.tg)
      && c.ig == (if r.resaved then NormalizeUsername(SetHandleIfNew(prev.ig, NormalizeUsername(x.ig))) else prev.ig)
      && c.email == (if r.resaved then NormalizeEmail(prev.email) else prev.email)
      && (r.resaved <==>
            || (Trim(x.name) != "" && Trim(x.name) != prev.name)
            || (Trim(x.phone) != "" && Trim(x.phone) != prev.phone)
            || SetHandleIfNew(prev.tg, NormalizeUsername(x.tg)) != prev.tg
            || SetHandleIfNew(prev.ig, NormalizeUsername(x.ig)) != prev.ig
            || (CoercePref(x.pref).Some? && CoercePref(x.pref).value != prev.pref))
      && (!r.resaved ==> c == prev)
  {
  }

  /** A name-only update still rewrites a stored "@x" handle to "x": the re-save
      runs `Customer.save`, which strips one more "@". */
  lemma UpsertRenormalisesHandle(db: Customers, prev: Customer, x: Contact)
    requires NormalizeEmail(x.email) in db && db[NormalizeEmail(x.email)] == prev
    requires prev.tg == "@x" && Trim(x.name) != "" && Trim(x.name) != prev.name && x.tg == ""
    ensures Upsert(db, x).resaved && Upsert(db, x).customer.tg == "x"
  {
    UpsertMerge(db, x);
    EmptyHandle();
    assert SetHandleIfNew("@x", NormalizeUsername("")) == "@x";
    AtHandle();
  }

  lemma EmptyHandle()
    ensures NormalizeUsername("") == "" && NormalizeUsername(Trim("")) == ""
  {
    TrimNoSpace("");
  }

  lemma AtHandle()
    ensures NormalizeUsername("@x") == "x"
  {
    TrimNoSpace("@x");
    assert "@x"[1..] == "x";
    assert Lower("x") == "x";
  }

  /** Empty inputs never clear stored data: with nothing to say, an existing
      customer is left exactly as it was and not saved. */
  lemma UpsertEmptyKeeps(db: Customers, email: string)
    requires NormalizeEmail(email) in db
    ensures var r := Upsert(db, Contact(email, "", "", "", "", None));
      r.customer == db[NormalizeEmail(email)] && !r.resaved && r.db == db
  {
    TrimNoSpace("");
    assert NormalizeUsername("") == "";
  }

  /** The upsert keeps the table's shape: keys are normalised e-mails of their own
      records. */
  lemma UpsertTableOk(db: Customers, x: Contact)
    requires TableOk(db)
    ensures TableOk(Upsert(db, x).db)
  {
    var key := NormalizeEmail(x.email);
    NormalizeEmailIdempotent(x.email);
    var r := Upsert(db, x);
    if key in db {
      assert db[key].email == key;
    }
    assert r.customer.email == key;
    TableOkPut(db, key, r.customer);
  }

  /** Storing a record under its own normalised e-mail keeps the table's shape. */
  lemma TableOkPut(db: Customers, key: string, c: Customer)
    requires TableOk(db) && c.email == key && NormalizeEmail(key) == key
    ensures TableOk(db[key := c])
  {
  }

  /** A customer who asks for phone contact and gives a phone number gets that
      number as `preferred_contact_value`. */
  lemma UpsertPhoneContact(db: Customers, x: Contact)
    requires CoercePref(x.pref) == Some(Phone) && Trim(x.phone) != ""
    ensures PreferredContactValue(Upsert(db, x).customer) == Trim(x.phone)
  {
    var key := NormalizeEmail(x.email);
    if key !in db {
      NewCustomerStable(x);
    }
  }
}

=== FILE: mini_cart.dfy ===
/**
 The mini-cart panel script (frontend/static/js/cart-mini.js) as a function of
 the panel state and the server's replies: the cart icons, the line list, the
 total, and how summary and update responses are reconciled into them. The DOM
 is reduced to the parts the script reads and writes.
 */
module MiniCart {
  import opened Wrappers
  import opened Text
  import Cart

  /** One cart icon image: the `src` it had when the page loaded, and now. */
  datatype Icon = Icon(initial: string, src: string)

  /** One line of the panel: the "Корзина пуста" placeholder, or an item line
      tagged with its product id. `link` is the product page the image links
      to, when there is one. */
  datatype Line =
    | Placeholder
    | ItemLine(id: string, name: string, link: Option<string>, image: string, size: string, price: string, qty: string)

  /** The panel: its lines, the total element's text (`None` when the page has
      no total element), the cart icons, and whether the panel is open. */
  datatype Panel = Panel(lines: seq<Line>, total: Option<string>, icons: seq<Icon>, open: bool)

  /** The panel's data attributes the script reads (`""` when absent). */
  datatype Config = Config(iconAdd: string, placeholderImage: string)

  /** What `fetch` followed by `resp.json()` produced. */
  datatype Reply<T> = NetworkError | HttpError(status: int) | BadJson | Json(body: T)

  /** One item of the summary endpoint's answer. */
  datatype SummaryItem = SummaryItem(id: int, name: string, image: string, qty: int, lineTotal: int, url: string, size: string)

  /** The summary endpoint's answer. */
  datatype Summary = Summary(ok: bool, items: seq<SummaryItem>, total: int, count: int)

  /** The update endpoint's answer. */
  datatype Mutated = Mutated(ok: bool, removed: bool, qty: int, lineTotal: int, total: int, count: int)

  // ------------------------------------------------------------ icons

  /** `setCartIconActive`: every icon shows the "added" picture when `active`
      and that picture is configured, and its original picture otherwise. */
  function SetIcons(icons: seq<Icon>, active: bool, iconAdd: string): (r: seq<Icon>)
    ensures |r| == |icons|
    ensures forall i :: 0 <= i < |r| ==> r[i].initial == icons[i].initial
    ensures active && iconAdd != "" ==> forall i :: 0 <= i < |r| ==> r[i].src == iconAdd
    ensures !(active && iconAdd != "") ==> forall i :: 0 <= i < |r| ==> r[i].src == r[i].initial
  {
    seq(|icons|, i requires 0 <= i < |icons| =>
      icons[i].(src := if active && iconAdd != "" then iconAdd else icons[i].initial))
  }

  /** Only the last call counts, so in particular a repeated call changes
      nothing. */
  lemma SetIconsLastWins(icons: seq<Icon>, a: bool, b: bool, iconAdd: string)
    ensures SetIcons(SetIcons(icons, a, iconAdd), b, iconAdd) == SetIcons(icons, b, iconAdd)
    ensures SetIcons(SetIcons(icons, a, iconAdd), a, iconAdd) == SetIcons(icons, a, iconAdd)
  {
  }

  /** All icons show the "added" picture. */
  ghost predicate IconsActive(icons: seq<Icon>, iconAdd: string)
  {
    forall i :: 0 <= i < |icons| ==> icons[i].src == iconAdd
  }

  /** All icons show their original picture. */
  ghost predicate IconsAtRest(icons: seq<Icon>)
  {
    forall i :: 0 <= i < |icons| ==> icons[i].src == icons[i].initial
  }

  /** The same icons, each with its original picture, whatever they show now. */
  ghost predicate SameIcons(a: seq<Icon>, b: seq<Icon>)
  {
    |a| == |b| && forall i :: 0 <= i < |a| ==> a[i].initial == b[i].initial
  }

  // ------------------------------------------------------------ lines

  /** The line `renderItems` draws for one item: tagged with the item's id, its
      name, a link to the product page when the item has one, the item's image
      or else the placeholder, and the line total in BYN; the id, quantity and
      price texts read back as the item's numbers. */
  function LineOf(it: SummaryItem, cfg: Config): (l: Line)
    ensures l.ItemLine? && l.name == it.name && l.size == it.size
    ensures ParseInt(l.id) == Some(it.id) && ParseInt(l.qty) == Some(it.qty)
    ensures |l.price| > 4 && l.price[|l.price| - 4..] == " BYN" && ParseInt(l.price[..|l.price| - 4]) == Some(it.lineTotal)
    ensures it.url != "" ==> l.link == Some(it.url)
    ensures it.url == "" ==> l.link.None?
    ensures it.image != "" ==> l.image == it.image
    ensures it.image == "" ==> l.image == cfg.placeholderImage
  {
    ParseShowInt(it.id);
    ParseShowInt(it.qty);
    ParseShowInt(it.lineTotal);
    var price := ShowInt(it.lineTotal) + " BYN";
    assert price[..|price| - 4] == ShowInt(it.lineTotal);
    var image := if it.image != "" then it.image else cfg.placeholderImage;
    ItemLine(ShowInt(it.id), it.name, if it.url != "" then Some(it.url) else None, image, it.size,
             ShowInt(it.lineTotal) + " BYN", ShowInt(it.qty))
  }

  /** `renderItems`: an empty list draws the placeholder, puts the icons at
      rest and the total at "0"; otherwise one line per item, in order, each
      tagged with its item's id, and the icons and total are left alone. */
  function RenderItems(p: Panel, cfg: Config, items: seq<SummaryItem>): (r: Panel)
    ensures r.open == p.open
    ensures |items| == 0 ==>
      && r.lines == [Placeholder]
      && IconsAtRest(r.icons)
      && r.total == (if p.total.Some? then Some("0") else None)
    ensures |items| > 0 ==>
      && |r.lines| == |items|
      && (forall k :: 0 <= k < |items| ==> r.lines[k].ItemLine? && r.lines[k].id == ShowInt(items[k].id))
      && (forall k :: 0 <= k < |items| ==> r.lines[k].qty == ShowInt(items[k].qty))
      && (forall k :: 0 <= k < |items| ==> r.lines[k] == LineOf(items[k], cfg))
      && r.icons == p.icons && r.total == p.total
  {
    if |items| == 0 then
      p.(lines := [Placeholder], icons := SetIcons(p.icons, false, cfg.iconAdd),
         total := if p.total.Some? then Some("0") else None)
    else
      p.(lines := seq(|items|, k requires 0 <= k < |items| => LineOf(items[k], cfg)))
  }

  // ------------------------------------------------------------ summary

  /** `refreshMiniCart`: a failed fetch, an error status, an unreadable body or
      a body with `ok` false changes nothing (the error is only logged);
      otherwise the items are drawn, the total is shown and the icons are
      active exactly when the count is positive. */
  function Refresh(p: Panel, cfg: Config, reply: Reply<Summary>): (r: Panel)
    ensures !(reply.Json? && reply.body.ok) ==> r == p
    ensures reply.Json? && reply.body.ok ==>
      var s := reply.body;
      && r == RenderItems(p, cfg, s.items).(
           total := if p.total.Some? then Some(ShowInt(s.total)) else None,
           icons := r.icons)
      && SameIcons(r.icons, p.icons)
      && (cfg.iconAdd != "" && s.count > 0 ==> IconsActive(r.icons, cfg.iconAdd))
      && (!(cfg.iconAdd != "" && s.count > 0) ==> IconsAtRest(r.icons))
  {
    match reply
    case Json(s) =>
      if !s.ok then p
      else
        var drawn := RenderItems(p, cfg, s.items);
        var total := if p.total.Some? then Some(ShowInt(s.total)) else None;
        var r := drawn.(total := total, icons := SetIcons(drawn.icons, s.count > 0, cfg.iconAdd));
        r
    case _ => p
  }

  /** The add button: after its delay the script starts a refresh and marks the
      icons active before the summary arrives; a failed refresh leaves them
      active, a successful one decides by the count. */
  function AfterAdd(p: Panel, cfg: Config, reply: Reply<Summary>): (r: Panel)
    ensures !(reply.Json? && reply.body.ok) ==> r == p.(icons := SetIcons(p.icons, true, cfg.iconAdd))
    ensures reply.Json? && reply.body.ok ==> r == Refresh(p, cfg, reply)
  {
    var marked := p.(icons := SetIcons(p.icons, true, cfg.iconAdd));
    SetIconsLastWins(p.icons, true, false, cfg.iconAdd);
    SetIconsLastWins(p.icons, true, true, cfg.iconAdd);
    SetIconsLastWins(p.icons, true, reply.Json? && reply.body.ok && reply.body.count > 0, cfg.iconAdd);
    Refresh(marked, cfg, reply)
  }

  // ------------------------------------------------------------ line buttons

  /** The request a button of line `i` sends: the line's product id and the
      button's action; the placeholder has no buttons. */
  function ClickRequest(p: Panel, i: nat, action: string): (r: Option<(string, string)>)
    requires i < |p.lines|
    ensures r.Some? <==> p.lines[i].ItemLine? && p.lines[i].id != "" && action != ""
    ensures r.Some? ==> r.value == (p.lines[i].id, action)
  {
    if p.lines[i].ItemLine? && p.lines[i].id != "" && action != "" then Some((p.lines[i].id, action)) else None
  }

  /** The panel after removing line `i`. */
  function RemoveLine(lines: seq<Line>, i: nat): seq<Line>
    requires i < |lines|
  {
    lines[..i] + lines[i + 1..]
  }

  /** Whether any item line is left. */
  predicate HasItems(lines: seq<Line>)
  {
    exists k :: 0 <= k < |lines| && lines[k].ItemLine?
  }

  /** The reply to a line button of line `i`: nothing changes unless the reply
      is a readable body with `ok`; then the total and icons follow the reply,
      and a removal drops exactly that line (showing the placeholder when no
      item line is left, without closing the panel), while an update rewrites
      exactly that line's quantity and price. */
  function ApplyMutation(p: Panel, cfg: Config, i: nat, reply: Reply<Mutated>): (r: Panel)
    requires i < |p.lines| && p.lines[i].ItemLine?
    ensures r.open == p.open
    ensures !(reply.Json? && reply.body.ok) ==> r == p
    ensures reply.Json? && reply.body.ok ==> SameIcons(r.icons, p.icons)
    ensures reply.Json? && reply.body.ok && !(reply.body.removed && !HasItems(RemoveLine(p.lines, i))) ==>
      && (cfg.iconAdd != "" && reply.body.count > 0 ==> IconsActive(r.icons, cfg.iconAdd))
      && (!(cfg.iconAdd != "" && reply.body.count > 0) ==> IconsAtRest(r.icons))
      && r.total == (if p.total.Some? then Some(ShowInt(reply.body.total)) else None)
    ensures reply.Json? && reply.body.ok && reply.body.removed ==>
      var rest := RemoveLine(p.lines, i);
      && (HasItems(rest) ==> r.lines == rest)
      && (!HasItems(rest) ==> r.lines == [Placeholder] && IconsAtRest(r.icons))
      && (!HasItems(rest) ==> r.total == (if p.total.Some? then Some("0") else None))
    ensures reply.Json? && reply.body.ok && !reply.body.removed ==>
      && |r.lines| == |p.lines|
      && (forall k :: 0 <= k < |p.lines| && k != i ==> r.lines[k] == p.lines[k])
      && r.lines[i] == p.lines[i].(qty := ShowInt(reply.body.qty), price := ShowInt(reply.body.lineTotal) + " BYN")
      && r.total == (if p.total.Some? then Some(ShowInt(reply.body.total)) else None)
  {
    match reply
    case Json(m) =>
      if !m.ok then p
      else
        var shown := p.(total := if p.total.Some? then Some(ShowInt(m.total)) else None,
                        icons := SetIcons(p.icons, m.count > 0, cfg.iconAdd));
        if m.removed then
          var rest := RemoveLine(p.lines, i);
          if HasItems(rest) then shown.(lines := rest)
          else RenderItems(shown.(lines := rest), cfg, [])
        else
          shown.(lines := p.lines[i := p.lines[i].(qty := ShowInt(m.qty), price := ShowInt(m.lineTotal) + " BYN")])
    case _ => p
  }

  // ------------------------------------------------------------ against the server

  /** `s` is what `cart_summary` answers for the cart context `ctx`: the items
      in order with their ids, quantities and line totals, and the totals. */
  ghost predicate SummaryOf(s: Summary, ctx: Cart.Context)
  {
    && s.ok
    && |s.items| == |ctx.items|
    && (forall k :: 0 <= k < |s.items| ==>
          s.items[k].id == ctx.items[k].id && s.items[k].qty == ctx.items[k].qty
          && s.items[k].lineTotal == ctx.items[k].lineTotal)
    && s.total == ctx.total && s.count == ctx.count
  }

  /** Refreshing against the server shows one line per sellable cart entry, in
      session order, and marks the icons active exactly when that list is not
      empty. */
  lemma RefreshShowsCart(cat: Cart.Catalogue, c: Cart.Cart, p: Panel, cfg: Config, s: Summary)
    requires SummaryOf(s, Cart.CartContext(cat, c))
    requires cfg.iconAdd != ""
    ensures var r := Refresh(p, cfg, Json(s));
      var ids := Cart.SellableIds(cat, c);
      && (|ids| == 0 ==> r.lines == [Placeholder])
      && (|ids| > 0 ==> |r.lines| == |ids| && forall k :: 0 <= k < |ids| ==> r.lines[k].ItemLine? && r.lines[k].id == ShowInt(ids[k]))
      && (|ids| > 0 ==> IconsActive(r.icons, cfg.iconAdd))
      && (|ids| == 0 ==> IconsAtRest(r.icons))
  {
    var ctx := Cart.CartContext(cat, c);
    Cart.ContextEmptyIffNoCount(cat, c);
    Cart.ContextMatchesTotals(cat, c);
    var r := Refresh(p, cfg, Json(s));
    if |Cart.SellableIds(cat, c)| > 0 {
      forall k | 0 <= k < |s.items| ensures s.items[k].id == Cart.SellableIds(cat, c)[k] {
      }
    }
  }

  /** The form `URLSearchParams({product_id, action})` a line button posts. */
  function ClickPost(req: (string, string)): Cart.Post
  {
    map["product_id" := req.0, "action" := req.1]
  }

  /** After a refresh against the server, a button of line `k` posts the id of
      the `k`-th sellable cart product, and `cart_update` reads back exactly
      that product, which it finds sellable. */
  lemma ClickTargetsCartLine(cat: Cart.Catalogue, c: Cart.Cart, p: Panel, cfg: Config, s: Summary, k: nat, action: string)
    requires SummaryOf(s, Cart.CartContext(cat, c))
    requires k < |Cart.SellableIds(cat, c)| && action != ""
    ensures k < |Refresh(p, cfg, Json(s)).lines|
    ensures ClickRequest(Refresh(p, cfg, Json(s)), k, action) == Some((ShowInt(Cart.SellableIds(cat, c)[k]), action))
    ensures var post := ClickPost((ShowInt(Cart.SellableIds(cat, c)[k]), action));
      && Cart.IntParam(Cart.Get(post, "product_id")) == Some(Cart.SellableIds(cat, c)[k])
      && Cart.Get(post, "action") == Some(action)
      && Cart.Sellable(cat, Cart.SellableIds(cat, c)[k])
  {
    var ctx := Cart.CartContext(cat, c);
    var pid := Cart.SellableIds(cat, c)[k];
    assert s.items[k].id == ctx.items[k].id == pid;
    var r := Refresh(p, cfg, Json(s));
    assert r.lines[k] == LineOf(s.items[k], cfg);
    ParseShowInt(pid);
    var post := ClickPost((ShowInt(pid), action));
    assert Cart.Get(post, "product_id") == Some(ShowInt(pid));
  }

  /** The update endpoint's answer carrying a `cart_update` status. */
  function MutatedOf(st: Cart.Status): (m: Mutated)
    requires st.Updated?
    ensures m.ok && m.removed == st.removed && m.qty == st.qty && m.lineTotal == st.lineTotal
    ensures m.total == st.total && m.count == st.count
  {
    Mutated(true, st.removed, st.qty, st.lineTotal, st.total, st.count)
  }

  /** After a line button, the panel shows what `cart_update` did to the cart:
      a kept line shows the product's new stored quantity and its price times
      that quantity, a removed line is gone, the total is the new cart total,
      and the icons are active exactly when the cart still counts items. */
  lemma UpdateShownInPanel(cat: Cart.Catalogue, cart: Cart.Cart, post: Cart.Post, p: Panel, cfg: Config, i: nat)
    requires i < |p.lines| && p.lines[i].ItemLine?
    requires Cart.CartUpdate(cat, cart, post).status.Updated?
    requires cfg.iconAdd != ""
    ensures var out := Cart.CartUpdate(cat, cart, post);
      var pid := Cart.IntParam(Cart.Get(post, "product_id")).value;
      var r := ApplyMutation(p, cfg, i, Json(MutatedOf(out.status)));
      && (out.status.removed <==> Cart.QtyOf(out.cart, pid) == 0)
      && (out.status.removed ==> r.lines == RemoveLine(p.lines, i) || r.lines == [Placeholder])
      && (!out.status.removed ==>
            && |r.lines| == |p.lines|
            && ParseInt(r.lines[i].qty) == Some(Cart.QtyOf(out.cart, pid))
            && r.lines[i].price == ShowInt(cat[pid].price * Cart.QtyOf(out.cart, pid)) + " BYN")
    ensures var out := Cart.CartUpdate(cat, cart, post);
      var r := ApplyMutation(p, cfg, i, Json(MutatedOf(out.status)));
      var t := Cart.CartTotals(cat, out.cart);
      !(out.status.removed && !HasItems(RemoveLine(p.lines, i))) ==>
        && r.total == (if p.total.Some? then Some(ShowInt(t.total)) else None)
        && (t.count > 0 ==> IconsActive(r.icons, cfg.iconAdd))
        && (t.count <= 0 ==> IconsAtRest(r.icons))
  {
    var out := Cart.CartUpdate(cat, cart, post);
    ParseShowInt(out.status.qty);
  }
}

=== FILE: orders.dfy ===
/**
 `Order` and `OrderItem` of shop/models.py: the number an order gets on its
 first save, `recalc_totals`, and the line total `OrderItem.save` keeps. Money
 fields have `decimal_places=0` and are integers here.
 */
module Orders {
  import opened Wrappers
  import opened Text

  /** The fields of an `Order` the model reads and writes. `pk` is `None` until
      the row is first inserted. */
  datatype Order = Order(
    pk: Option<nat>,
    number: Option<string>,
    email: string,
    phone: string,
    contactMethod: string,
    contactValue: string,
    provider: string,
    deliveryMethod: string,
    pickupAddress: string,
    deliveryAddress: string,
    currency: string,
    subtotal: int,
    shipping: int,
    discount: int,
    total: int)

  /** An order that has not been saved yet, with the field defaults. */
  function Draft(): Order
  {
    Order(None, None, "", "", "", "", "", "", "", "", "BYN", 0, 0, 0, 0)
  }

  const NumberPrefix: string := "№-"

  /** `f"№-{pk:04d}"`. */
  function OrderNumber(pk: nat): (r: string)
    ensures StartsWith(r, NumberPrefix)
    ensures |r| >= |NumberPrefix| + 4
    ensures AllDigits(r[|NumberPrefix|..])
  {
    var digits := PadLeft(ShowNat(pk), 4, '0');
    assert AllDigits(ShowNat(pk));
    var r := NumberPrefix + digits;
    assert r[|NumberPrefix|..] == digits;
    r
  }

  /** Reads the primary key back out of an order number. */
  function ParseOrderNumber(s: string): Option<nat>
  {
    if StartsWith(s, NumberPrefix) && AllDigits(s[|NumberPrefix|..]) then
      Some(DigitsValue(s[|NumberPrefix|..]))
    else None
  }

  /** Zero padding loses nothing: the number determines the primary key. */
  lemma ParseOrderNumberRoundTrip(pk: nat)
    ensures ParseOrderNumber(OrderNumber(pk)) == Some(pk)
  {
    var d := ShowNat(pk);
    var p := PadLeft(d, 4, '0');
    var z := p[..|p| - |d|];
    assert p == z + d;
    DigitsValueLeadingZeros(z, d);
    DigitsValueShowNat(pk);
    assert OrderNumber(pk)[|NumberPrefix|..] == p;
  }

  /** Different orders get different numbers. */
  lemma OrderNumberInjective(a: nat, b: nat)
    requires OrderNumber(a) == OrderNumber(b)
    ensures a == b
  {
    ParseOrderNumberRoundTrip(a);
    ParseOrderNumberRoundTrip(b);
  }

  /** `Order.save`: the first save inserts the row under the primary key the
      database hands out (`newPk`) and then stores the number; later saves keep
      both. */
  function SaveOrder(o: Order, newPk: nat): (r: Order)
    ensures r.pk.Some?
    ensures o.pk.None? ==> r.pk == Some(newPk) && r.number.Some? && ParseOrderNumber(r.number.value) == Some(newPk)
    ensures o.pk.Some? ==> r == o
    ensures r == o.(pk := r.pk, number := r.number)
  {
    ParseOrderNumberRoundTrip(newPk);
    if o.pk.None? then o.(pk := Some(newPk), number := Some(OrderNumber(newPk))) else o
  }

  /** Once numbered, an order keeps its number through any later saves. */
  lemma SaveOrderKeepsNumber(o: Order, first: nat, second: nat)
    ensures SaveOrder(SaveOrder(o, first), second) == SaveOrder(o, first)
  {
  }

  /** The fields of an `OrderItem`; `price` is `None` when unset. */
  datatype OrderItem = OrderItem(productId: int, productName: string, qty: int, price: Option<int>, lineTotal: int)

  /** `OrderItem.save`: the line total is `(price or 0) * qty`, and an empty
      product name is filled from the product (`catalogueName`). */
  function SaveItem(it: OrderItem, catalogueName: string): (r: OrderItem)
    ensures r.lineTotal == it.price.GetOr(0) * it.qty
    ensures r.productName == if it.productName == "" then catalogueName else it.productName
    ensures r.productId == it.productId && r.qty == it.qty && r.price == it.price
  {
    var name := if it.productName == "" then catalogueName else it.productName;
    it.(lineTotal := it.price.GetOr(0) * it.qty, productName := name)
  }

  /** Saving an item twice changes nothing more. */
  lemma SaveItemIdempotent(it: OrderItem, catalogueName: string, later: string)
    requires it.productName != "" || catalogueName != ""
    ensures SaveItem(SaveItem(it, catalogueName), later) == SaveItem(it, catalogueName)
  {
  }

  function SumLineTotals(items: seq<OrderItem>): int
  {
    if |items| == 0 then 0 else items[0].lineTotal + SumLineTotals(items[1..])
  }

  /** `recalc_totals`: the subtotal is the sum of the line totals and the total
      adds shipping and takes off the discount. */
  function RecalcTotals(o: Order, items: seq<OrderItem>): (r: Order)
    ensures r.subtotal == SumLineTotals(items)
    ensures r.total - r.subtotal == o.shipping - o.discount
    ensures r == o.(subtotal := r.subtotal, total := r.total)
  {
    var s := SumLineTotals(items);
    o.(subtotal := s, total := s + o.shipping - o.discount)
  }

  /** Recalculating twice gives the same totals as once. */
  lemma RecalcTotalsIdempotent(o: Order, items: seq<OrderItem>)
    ensures RecalcTotals(RecalcTotals(o, items), items) == RecalcTotals(o, items)
  {
  }

  /** The value of one saved line: `(price or 0) * qty`. */
  function LineValue(it: OrderItem): int
  {
    it.price.GetOr(0) * it.qty
  }

  function SumLineValues(items: seq<OrderItem>): int
  {
    if |items| == 0 then 0 else LineValue(items[0]) + SumLineValues(items[1..])
  }

  /** Items that went through `OrderItem.save` carry line totals consistent with
      their price and quantity. */
  ghost predicate ItemsSaved(items: seq<OrderItem>)
  {
    forall i :: 0 <= i < |items| ==> items[i].lineTotal == LineValue(items[i])
  }

  /** After the items are saved, `recalc_totals` gives
      `total = Σ price*qty + shipping - discount`. */
  lemma {:induction false} RecalcOfSavedItems(o: Order, items: seq<OrderItem>)
    requires ItemsSaved(items)
    ensures RecalcTotals(o, items).subtotal == SumLineValues(items)
    ensures RecalcTotals(o, items).total == SumLineValues(items) + o.shipping - o.discount
  {
    SumOfSaved(items);
  }

  lemma {:induction false} SumOfSaved(items: seq<OrderItem>)
    requires ItemsSaved(items)
    ensures SumLineTotals(items) == SumLineValues(items)
  {
    if |items| > 0 {
      assert ItemsSaved(items[1..]);
      SumOfSaved(items[1..]);
    }
  }
}

=== FILE: settings.dfy ===
/**
 The site-settings models of shop/models.py: the one-record tables behind the
 "Новинки" tab and the home, about, contacts and delivery pages, the blocks the
 home page shows, and the reserved category slug.
 */
module Settings {
  import opened Wrappers
  import opened Text

  // ------------------------------------------------------------ category slug

  /** `Category.clean`: the slug "new" is reserved for the "Новинки" tab, in any
      letter case. `true` means the form is rejected. */
  predicate SlugReserved(slug: string)
  {
    Lower(slug) == "new"
  }

  /** Exactly the eight spellings of "new" are refused. */
  lemma SlugReservedExactly(slug: string)
    ensures SlugReserved(slug) <==>
      |slug| == 3 && slug[0] in {'n', 'N'} && slug[1] in {'e', 'E'} && slug[2] in {'w', 'W'}
  {
    if |slug| == 3 {
      var l := Lower(slug);
      assert l[0] == LowerChar(slug[0]) && l[1] == LowerChar(slug[1]) && l[2] == LowerChar(slug[2]);
      if SlugReserved(slug) {
        assert l[0] == 'n' && l[1] == 'e' && l[2] == 'w';
      }
      if slug[0] in {'n', 'N'} && slug[1] in {'e', 'E'} && slug[2] in {'w', 'W'} {
        assert l == "new";
      }
    } else {
      assert |Lower(slug)| != 3;
    }
  }

  // ------------------------------------------------------------ singletons

  /** The settings models. */
  datatype Kind = NewTab | Home | About | Contacts | DeliveryPage

  /** Whether the model's `save` refuses a second record. `HomePageSettings`
      defines only `get_solo`, not the guard. */
  predicate Guarded(k: Kind)
  {
    k != Home
  }

  /** The rows of one settings table (their primary keys, in `first()` order)
      and the next key the database hands out. */
  datatype Table = Table(rows: seq<nat>, nextPk: nat)

  /** The outcome of saving a new record: the table, or the `ValidationError`. */
  datatype Saved = Saved(table: Table, pk: nat) | Refused

  /** `save()` on a record without a primary key. */
  function SaveNew(k: Kind, t: Table): (r: Saved)
    ensures r.Refused? <==> Guarded(k) && |t.rows| > 0
    ensures r.Saved? ==> r.table.rows == t.rows + [t.nextPk] && r.pk == t.nextPk && r.table.nextPk > t.nextPk
  {
    if Guarded(k) && |t.rows| > 0 then Refused
    else Saved(Table(t.rows + [t.nextPk], t.nextPk + 1), t.nextPk)
  }

  /** `get_solo()`: `objects.first() or objects.create()`. */
  function GetSolo(k: Kind, t: Table): (r: (Table, nat))
    ensures |t.rows| > 0 ==> r == (t, t.rows[0])
    ensures |t.rows| == 0 ==> r.0.rows == [r.1] && r.1 == t.nextPk
  {
    if |t.rows| > 0 then (t, t.rows[0])
    else
      var s := SaveNew(k, t);
      (s.table, s.pk)
  }

  /** At most one record. */
  predicate Solo(t: Table)
  {
    |t.rows| <= 1
  }

  /** For the guarded models no sequence of `get_solo` and `save` calls can make
      a second record. */
  lemma GuardedStaysSolo(k: Kind, t: Table)
    requires Guarded(k) && Solo(t)
    ensures SaveNew(k, t).Saved? ==> Solo(SaveNew(k, t).table)
    ensures Solo(GetSolo(k, t).0)
  {
  }

  /** `get_solo` always answers with the same record once there is one, and
      leaves the table alone from then on. */
  lemma GetSoloStable(k: Kind, t: Table)
    ensures var (t1, pk1) := GetSolo(k, t);
      GetSolo(k, t1) == (t1, pk1) && pk1 in t1.rows
  {
  }

  /** The home-page settings have no guard: a direct save next to the record
      `get_solo` made leaves two. */
  lemma HomeAllowsSecondRecord(t: Table)
    requires |t.rows| == 0
    ensures var (t1, _) := GetSolo(Home, t);
      SaveNew(Home, t1).Saved? && |SaveNew(Home, t1).table.rows| == 2
  {
  }

  // ------------------------------------------------------------ featured blocks

  /** A top-level category as a featured block reads it; `banner` is `""` when
      the category has no banner image. */
  datatype Category = Category(slug: string, name: string, banner: string)

  /** One `(featured_i, featured_i_title, featured_i_image)` triple; `image` is
      `""` when empty. */
  datatype Slot = Slot(category: Option<Category>, title: string, image: string)

  /** One row of `featured_blocks()`. */
  datatype Block = Block(slug: string, title: string, image: string, crop: Option<string>)

  /** `f"featured_{idx}_crop"`. */
  function CropName(idx: nat): string
  {
    "featured_" + ShowNat(idx) + "_crop"
  }

  /** The block for slot number `idx` (counted from 1) holding category `c`. */
  function BlockFor(s: Slot, c: Category, idx: nat): Block
  {
    Block(c.slug,
          if s.title == "" then c.name else s.title,
          if s.image != "" then s.image else c.banner,
          if s.image != "" then Some(CropName(idx)) else None)
  }

  /** The (0-based) positions of the slots that hold a category, in order. */
  function FilledSlots(slots: seq<Slot>): (r: seq<nat>)
    ensures forall k :: 0 <= k < |r| ==> r[k] < |slots| && slots[r[k]].category.Some?
    ensures forall k, l :: 0 <= k < l < |r| ==> r[k] < r[l]
    ensures forall i :: 0 <= i < |slots| && slots[i].category.Some? ==> i in r
  {
    if |slots| == 0 then []
    else
      var n := |slots| - 1;
      var init := FilledSlots(slots[..n]);
      assert forall i :: 0 <= i < n ==> slots[i] == slots[..n][i];
      if slots[n].category.Some? then init + [n] else init
  }

  /** `featured_blocks()` as the loop leaves `rows` after the first `|slots|`
      triples. */
  function Blocks(slots: seq<Slot>): (r: seq<Block>)
  {
    if |slots| == 0 then []
    else
      var n := |slots| - 1;
      match slots[n].category
      case None => Blocks(slots[..n])
      case Some(c) => Blocks(slots[..n]) + [BlockFor(slots[n], c, n + 1)]
  }

  /** `featured_blocks()`: one block per slot that holds a category, in slot
      order; the title falls back to the category name, the image to the
      category banner (or `""`), and a crop is named exactly when the slot has
      its own image. */
  function FeaturedBlocks(slots: seq<Slot>): (r: seq<Block>)
    ensures var filled := FilledSlots(slots);
      && |r| == |filled|
      && forall k :: 0 <= k < |r| ==>
           var s := slots[filled[k]];
           var c := s.category.value;
           && r[k].slug == c.slug
           && r[k].title == (if s.title != "" then s.title else c.name)
           && r[k].image == (if s.image != "" then s.image else c.banner)
           && (r[k].crop.Some? <==> s.image != "")
           && (r[k].crop.Some? ==> r[k].crop.value == CropName(filled[k] + 1))
  {
    BlocksMatchSlots(slots);
    Blocks(slots)
  }

  /** The `k`-th block is the one for the `k`-th filled slot. */
  ghost predicate BlocksMatch(slots: seq<Slot>, filled: seq<nat>, r: seq<Block>)
  {
    && |r| == |filled|
    && (forall k :: 0 <= k < |filled| ==> filled[k] < |slots| && slots[filled[k]].category.Some?)
    && forall k :: 0 <= k < |r| ==> r[k] == BlockFor(slots[filled[k]], slots[filled[k]].category.value, filled[k] + 1)
  }

  lemma {:induction false} BlocksMatchSlots(slots: seq<Slot>)
    ensures BlocksMatch(slots, FilledSlots(slots), Blocks(slots))
  {
    if |slots| > 0 {
      var n := |slots| - 1;
      var pre := slots[..n];
      BlocksMatchSlots(pre);
      BlocksExtend(slots, FilledSlots(pre), Blocks(pre));
    }
  }

  lemma BlocksExtend(slots: seq<Slot>, finit: seq<nat>, init: seq<Block>)
    requires |slots| > 0
    requires BlocksMatch(slots[..|slots| - 1], finit, init)
    ensures var n := |slots| - 1;
      slots[n].category.None? ==> BlocksMatch(slots, finit, init)
    ensures var n := |slots| - 1;
      slots[n].category.Some? ==>
        BlocksMatch(slots, finit + [n], init + [BlockFor(slots[n], slots[n].category.value, n + 1)])
  {
    var n := |slots| - 1;
    assert forall k :: 0 <= k < |finit| ==> slots[finit[k]] == slots[..n][finit[k]];
  }
}

=== FILE: shop_admin.dfy ===
/**
 The form and fieldset rules of the shop's admin pages (shop/admin.py): the
 photo inline's extra forms, the order item form, the delivery provider field,
 the order page's "Доставка" section, the totals `save_related` writes, and the
 fieldsets of the category and home-page settings pages.
 */
module ShopAdmin {
  import opened Wrappers
  import opened Text
  import Orders
  import Settings
  import Checkout

  // ------------------------------------------------------------ photo inline

  /** `ProductPhotoInline.max_num`. */
  const MaxPhotos: nat := 3

  /** `ProductPhotoInline.get_extra`: how many empty photo forms to offer, given
      the photo count of the product being edited (`None` on the add page). */
  function PhotoExtra(have: Option<nat>): (r: nat)
    ensures r <= MaxPhotos
    ensures have.None? ==> r == MaxPhotos
    ensures have.Some? ==> have.value + r >= MaxPhotos
    ensures have.Some? && r > 0 ==> have.value + r == MaxPhotos
  {
    match have
    case None => MaxPhotos
    case Some(n) => if n >= MaxPhotos then 0 else MaxPhotos - n
  }

  // ------------------------------------------------------------ order items

  /** What `OrderItemForm.clean` sees: the chosen product's price (`None` when
      no product is chosen) and the entered price and quantity. */
  datatype ItemInput = ItemInput(productPrice: Option<int>, price: Option<int>, qty: Option<int>)

  /** A missing or zero price is falsy in Python, and so is a missing or zero
      quantity. */
  predicate Falsy(v: Option<int>)
  {
    v.None? || v.value == 0
  }

  /** `OrderItemForm.clean`: a falsy price is taken from the product, a falsy
      quantity becomes 1. */
  function CleanItem(x: ItemInput): (r: ItemInput)
    ensures r.productPrice == x.productPrice
    ensures !Falsy(x.price) ==> r.price == x.price
    ensures Falsy(x.price) ==> r.price == (if x.productPrice.Some? then x.productPrice else x.price)
    ensures !Falsy(x.qty) ==> r.qty == x.qty
    ensures Falsy(x.qty) ==> r.qty == Some(1)
    ensures !Falsy(r.qty)
  {
    var price := if x.productPrice.Some? && Falsy(x.price) then x.productPrice else x.price;
    var qty := if Falsy(x.qty) then Some(1) else x.qty;
    ItemInput(x.productPrice, price, qty)
  }

  /** Cleaning twice is cleaning once. */
  lemma CleanItemIdempotent(x: ItemInput)
    ensures CleanItem(CleanItem(x)) == CleanItem(x)
  {
  }

  /** `OrderItemForm.save`: `(qty or 0) * (price or 0)`. */
  function FormLineTotal(x: ItemInput): int
  {
    x.qty.GetOr(0) * x.price.GetOr(0)
  }

  /** The line total the form writes is the one `OrderItem.save` recomputes
      right after, so the two saves agree. */
  lemma FormLineTotalAgrees(x: ItemInput, id: int, name: string, catalogueName: string)
    requires x.qty.Some?
    ensures Orders.SaveItem(Orders.OrderItem(id, name, x.qty.value, x.price, FormLineTotal(x)), catalogueName).lineTotal
      == FormLineTotal(x)
  {
  }

  /** After `clean` the form's line total is never that of a zero quantity:
      a cleaned item with a price counts at least once. */
  lemma CleanedLineTotal(x: ItemInput)
    ensures var c := CleanItem(x);
      FormLineTotal(c) == c.qty.value * c.price.GetOr(0)
    ensures Falsy(x.qty) ==> FormLineTotal(CleanItem(x)) == CleanItem(x).price.GetOr(0)
  {
  }

  // ------------------------------------------------------------ delivery provider

  /** `clean_delivery_provider`: `(value or "").strip().lower()`. */
  function CleanProvider(v: Option<string>): (r: string)
    ensures |r| <= |v.GetOr("")|
    ensures forall i :: 0 <= i < |r| ==> !IsUpper(r[i])
    ensures |r| > 0 ==> !IsPySpace(r[0]) && !IsPySpace(r[|r| - 1])
    ensures v.None? ==> r == ""
  {
    Lower(Trim(v.GetOr("")))
  }

  /** Cleaning a cleaned provider changes nothing. */
  lemma CleanProviderIdempotent(v: Option<string>)
    ensures CleanProvider(Some(CleanProvider(v))) == CleanProvider(v)
  {
    var t := Trim(v.GetOr(""));
    TrimLower(t);
    StripIdempotent(v.GetOr(""), IsPySpace);
    LowerIdempotent(t);
  }

  /** `PROVIDER_RU`. */
  function ProviderRu(key: string): Option<string>
  {
    if key == "yandex" then Some("Яндекс")
    else if key == "cdek" then Some("СДЭК")
    else if key == "evropochta" then Some("Европочта")
    else if key == "autolight" then Some("Автолайт")
    else None
  }

  /** One `(key, label)` choice of the provider field. */
  datatype Choice = Choice(key: string, caption: string)

  /** The list used when the field has no choices of its own. */
  const DefaultProviders: seq<Choice> :=
    [Choice("cdek", "СДЭК"), Choice("yandex", "Яндекс"), Choice("evropochta", "Европочта"), Choice("autolight", "Автолайт")]

  /** The label a choice gets: the Russian name of the lower-cased key, else
      the label, else the key. */
  function Relabel(c: Choice): Choice
  {
    Choice(c.key, ProviderRu(Lower(c.key)).GetOr(if c.caption != "" then c.caption else c.key))
  }

  /** The provider choices `OrderAdminForm.__init__` installs. */
  function ProviderChoices(choices: seq<Choice>): (r: seq<Choice>)
    ensures |choices| == 0 ==> r == DefaultProviders
    ensures |choices| > 0 ==> |r| == |choices|
    ensures |choices| > 0 ==> forall i :: 0 <= i < |r| ==>
      var ru := ProviderRu(Lower(choices[i].key));
      && r[i].key == choices[i].key
      && (ru.Some? ==> r[i].caption == ru.value)
      && (ru.None? && choices[i].caption != "" ==> r[i].caption == choices[i].caption)
      && (ru.None? && choices[i].caption == "" ==> r[i].caption == choices[i].key)
  {
    if |choices| == 0 then DefaultProviders
    else seq(|choices|, i requires 0 <= i < |choices| => Relabel(choices[i]))
  }

  /** Every key of the fixed list carries its Russian name, so relabelling the
      fixed list leaves it as it is. */
  lemma DefaultProvidersLabelled()
    ensures ProviderChoices(DefaultProviders) == DefaultProviders
  {
    var r := ProviderChoices(DefaultProviders);
    forall i | 0 <= i < 4 ensures r[i] == DefaultProviders[i] {
      assert Lower(DefaultProviders[i].key) == DefaultProviders[i].key;
    }
  }

  /** Relabelling is idempotent. */
  lemma ProviderChoicesIdempotent(choices: seq<Choice>)
    ensures ProviderChoices(ProviderChoices(choices)) == ProviderChoices(choices)
  {
    if |choices| == 0 {
      DefaultProvidersLabelled();
    } else {
      var r := ProviderChoices(choices);
      var rr := ProviderChoices(r);
      forall i | 0 <= i < |r| ensures rr[i] == r[i] {
        assert rr[i] == Relabel(r[i]) && r[i] == Relabel(choices[i]);
      }
    }
  }

  // ------------------------------------------------------------ order page

  /** One fieldset: title (`None` for an untitled one), CSS classes, description
      (`""` when absent) and the field rows; a plain field name is a row of one. */
  datatype Fieldset = Fieldset(title: Option<string>, classes: seq<string>, description: string, fields: seq<seq<string>>)

  /** The fields of an order the page's pickup test reads (`""` for `None`). */
  datatype OrderObj = OrderObj(provider: string, deliveryMethod: string)

  /** `OrderAdmin._is_pickup`: an existing order whose provider or method is
      "pickup" in any letter case. */
  predicate IsPickup(obj: Option<OrderObj>)
  {
    obj.Some? && (Lower(obj.value.provider) == "pickup" || Lower(obj.value.deliveryMethod) == "pickup")
  }

  const DeliveryTitle: string := "Доставка"

  /** The "Доставка" section the page shows for the order. */
  function DeliverySection(obj: Option<OrderObj>): Fieldset
  {
    if IsPickup(obj) then Fieldset(Some(DeliveryTitle), ["wide"], "", [["pickup_info"]])
    else Fieldset(Some(DeliveryTitle), ["wide"], "", [["delivery_provider"], ["delivery_address"]])
  }

  /** `OrderAdmin.get_fieldsets`: only the "Доставка" sections are replaced, by
      the pickup note for a pickup order and by the provider and address fields
      otherwise; every other section keeps its place and content. */
  function OrderFieldsets(obj: Option<OrderObj>, base: seq<Fieldset>): (r: seq<Fieldset>)
    ensures |r| == |base|
    ensures forall i :: 0 <= i < |r| && base[i].title != Some(DeliveryTitle) ==> r[i] == base[i]
    ensures forall i :: 0 <= i < |r| && base[i].title == Some(DeliveryTitle) ==>
      && r[i].title == Some(DeliveryTitle)
      && (IsPickup(obj) <==> r[i].fields == [["pickup_info"]])
      && (!IsPickup(obj) <==> r[i].fields == [["delivery_provider"], ["delivery_address"]])
  {
    seq(|base|, i requires 0 <= i < |base| =>
      if base[i].title != Some(DeliveryTitle) then base[i] else DeliverySection(obj))
  }

  /** `OrderAdmin.fieldsets`. */
  const OrderBase: seq<Fieldset> := [
    Fieldset(Some("Основное"), ["wide"], "", [
      ["number_plain", "status"],
      ["created_at_plain", "paid_at_plain"],
      ["customer"],
      ["customer_email_plain"], ["customer_name_plain"], ["customer_phone_plain"],
      ["customer_tg_plain"], ["customer_ig_plain"], ["customer_pref_plain"]]),
    Fieldset(Some(DeliveryTitle), ["wide"], "", [["pickup_info"]]),
    Fieldset(Some("Комментарий"), ["wide"], "", [["comment"]])]

  /** For a pickup order the page shows the declared fieldsets unchanged; for a
      courier order only the middle one differs. */
  lemma OrderBaseFieldsets(obj: Option<OrderObj>)
    ensures IsPickup(obj) ==> OrderFieldsets(obj, OrderBase) == OrderBase
    ensures !IsPickup(obj) ==>
      OrderFieldsets(obj, OrderBase) == OrderBase[1 := Fieldset(Some(DeliveryTitle), ["wide"], "", [["delivery_provider"], ["delivery_address"]])]
  {
    assert OrderBase[0].title != Some(DeliveryTitle) && OrderBase[2].title != Some(DeliveryTitle);
  }

  /** Orders placed through checkout without a courier are shown as pickups. */
  lemma CheckoutPickupShownAsPickup(provider: string, country: string, city: string, pickup: string)
    requires !Checkout.IsDelivery(provider, country, city)
    ensures var d := Checkout.DeliveryOf(provider, country, city, pickup);
      IsPickup(Some(OrderObj(d.provider, d.deliveryMethod)))
  {
    assert Lower("pickup") == "pickup";
  }

  // ------------------------------------------------------------ order totals

  /** `Cast(F("qty")) * Cast(F("price_byn"))` for each item row: SQL `NULL` when
      the price is `NULL`. */
  function RowProducts(items: seq<Orders.OrderItem>): (xs: seq<Option<int>>)
    ensures |xs| == |items|
  {
    seq(|items|, i requires 0 <= i < |items| =>
      if items[i].price.Some? then Some(items[i].qty * items[i].price.value) else None)
  }

  /** SQL `SUM`: `NULL` when no value is non-`NULL`, otherwise the sum of the
      non-`NULL` values. */
  function SqlSum(xs: seq<Option<int>>): Option<int>
  {
    if |xs| == 0 then None
    else
      var rest := SqlSum(xs[1..]);
      if xs[0].None? then rest
      else Some(xs[0].value + (if rest.Some? then rest.value else 0))
  }

  /** `Coalesce(Sum(line_total_expr), 0)`, the subtotal `save_related` reads:
      it equals the sum of the saved line values `(price or 0) * qty`. */
  function ItemsSum(items: seq<Orders.OrderItem>): (s: int)
    ensures s == Orders.SumLineValues(items)
  {
    SqlSumIsLineValues(items);
    var t := SqlSum(RowProducts(items));
    if t.Some? then t.value else 0
  }

  /** The SQL aggregate, with `NULL` read as 0, is the sum of the line values;
      it is `NULL` exactly when no item has a price. */
  lemma {:induction false} SqlSumIsLineValues(items: seq<Orders.OrderItem>)
    ensures var t := SqlSum(RowProducts(items));
      (if t.Some? then t.value else 0) == Orders.SumLineValues(items)
    ensures SqlSum(RowProducts(items)).None? <==> forall i :: 0 <= i < |items| ==> items[i].price.None?
  {
    if |items| > 0 {
      var xs := RowProducts(items);
      assert xs[1..] == RowProducts(items[1..]);
      SqlSumIsLineValues(items[1..]);
      if SqlSum(xs).None? {
        forall i | 0 <= i < |items| ensures items[i].price.None? {
          if i > 0 { assert items[i] == items[1..][i - 1]; }
        }
      }
      if items[0].price.None? {
        forall i | 0 <= i < |items| && items[i].price.Some? ensures SqlSum(xs).Some? {
          assert items[i] == items[1..][i - 1];
        }
      }
    }
  }

  /** `OrderAdmin.save_related`: subtotal and total both become the items' sum;
      shipping and discount are not applied. */
  function SaveRelated(o: Orders.Order, items: seq<Orders.OrderItem>): (r: Orders.Order)
    ensures r.subtotal == Orders.SumLineValues(items)
    ensures r.total == r.subtotal
    ensures r == o.(subtotal := r.subtotal, total := r.total)
  {
    var s := ItemsSum(items);
    o.(subtotal := s, total := s)
  }

  /** The admin's totals and `recalc_totals` agree on the subtotal and differ in
      the total by exactly shipping minus discount. */
  lemma SaveRelatedVersusRecalc(o: Orders.Order, items: seq<Orders.OrderItem>)
    requires Orders.ItemsSaved(items)
    ensures SaveRelated(o, items).subtotal == Orders.RecalcTotals(o, items).subtotal
    ensures Orders.RecalcTotals(o, items).total == SaveRelated(o, items).total + o.shipping - o.discount
    ensures SaveRelated(o, items).total == Orders.RecalcTotals(o, items).total <==> o.shipping == o.discount
  {
    Orders.RecalcOfSavedItems(o, items);
  }

  // ------------------------------------------------------------ other pages

  /** `CategoryAdmin.fieldsets`: the main fields, then the banner. */
  const CategoryBase: seq<Fieldset> := [
    Fieldset(None, [], "", [["name"], ["slug"], ["parent"], ["position"]]),
    Fieldset(Some("Баннер"), [],
             "Баннер показывается у родительских категорий вверху каталога. Кадрирование — через «Обрезка баннера».",
             [["banner_image"], ["banner_crop"], ["banner_text"]])]

  /** Whether `obj and obj.parent_id` holds: the page edits a saved category
      (`parentId.Some?`) whose parent id is set and non-zero. */
  predicate HasParent(parentId: Option<Option<nat>>)
  {
    parentId.Some? && parentId.value.Some? && parentId.value.value != 0
  }

  /** `CategoryAdmin.get_fieldsets`: a sub-category gets the first declared
      fieldset without its last row (`position`) and no banner; any other page
      gets the declared fieldsets. */
  function CategoryFieldsets(parentId: Option<Option<nat>>): (r: seq<Fieldset>)
    ensures HasParent(parentId) ==>
      r == [CategoryBase[0].(fields := CategoryBase[0].fields[..|CategoryBase[0].fields| - 1])]
    ensures !HasParent(parentId) ==> r == CategoryBase
  {
    match parentId
    case Some(Some(p)) =>
      if p != 0 then
        assert CategoryBase[0].fields[..3] == [["name"], ["slug"], ["parent"]];
        [Fieldset(None, [], "", [["name"], ["slug"], ["parent"]])]
      else CategoryBase
    case _ => CategoryBase
  }

  /** The field names of a list of fieldsets, in order. */
  function FieldNames(fs: seq<Fieldset>): seq<string>
  {
    if |fs| == 0 then [] else Concat(fs[0].fields) + FieldNames(fs[1..])
  }

  function Concat(rows: seq<seq<string>>): seq<string>
  {
    if |rows| == 0 then [] else rows[0] + Concat(rows[1..])
  }

  /** The sub-category form edits a strict subset of the declared fields:
      name, slug and parent, but neither `position` nor any banner field. */
  lemma SubCategoryFieldsSubset(parentId: Option<Option<nat>>)
    requires HasParent(parentId)
    ensures var short := FieldNames(CategoryFieldsets(parentId));
      var all := FieldNames(CategoryBase);
      && (forall f :: f in short ==> f in all)
      && "position" in all && "position" !in short
      && (forall f :: f in FieldNames(CategoryBase[1..]) ==> f !in short)
      && short == ["name", "slug", "parent"]
  {
    var form := CategoryFieldsets(parentId);
    assert form == [Fieldset(None, [], "", [["name"], ["slug"], ["parent"]])];
    assert Concat(form[0].fields) == ["name", "slug", "parent"] by {
      var rows := form[0].fields;
      assert Concat(rows[2..]) == ["parent"];
      assert Concat(rows[1..]) == ["slug", "parent"];
    }
    assert FieldNames(form) == Concat(form[0].fields) + FieldNames(form[1..]);
    assert Concat(CategoryBase[0].fields) == ["name", "slug", "parent", "position"] by {
      var rows := CategoryBase[0].fields;
      assert Concat(rows[3..]) == ["position"];
      assert Concat(rows[2..]) == ["parent", "position"];
      assert Concat(rows[1..]) == ["slug", "parent", "position"];
    }
    assert FieldNames(CategoryBase[1..]) == ["banner_image", "banner_crop", "banner_text"] by {
      var rows := CategoryBase[1].fields;
      assert Concat(rows[2..]) == ["banner_text"];
      assert Concat(rows[1..]) == ["banner_crop", "banner_text"];
      assert FieldNames(CategoryBase[2..]) == [];
    }
    assert FieldNames(CategoryBase) == ["name", "slug", "parent", "position"] + FieldNames(CategoryBase[1..]);
  }

  /** `HomePageSettingsAdmin.fieldsets`. */
  const HomeBase: seq<Fieldset> := [
    Fieldset(Some("Герой"), [], "", [["hero_image"], ["hero_crop"]]),
    Fieldset(Some("Блоки каталога на главной"), [], "Выбери раздел, подпись и откадрируй картинку под плитку.", [])]

  /** The row of slot `i`: its three fields, and the crop field when the saved
      record has an image in that slot. */
  function HomeRow(i: nat, image: Option<string>): (row: seq<string>)
  {
    var p := "featured_" + ShowNat(i);
    [p, p + "_title", p + "_image"] + (if image.Some? && image.value != "" then [Settings.CropName(i)] else [])
  }

  /** `HomePageSettingsAdmin.get_fieldsets`; `images` are the three slot images
      of the record (`None` on the add page), `""` where a slot has none. */
  function HomeFieldsets(images: Option<seq<string>>): (r: seq<Fieldset>)
    requires images.Some? ==> |images.value| == 3
    ensures |r| == 2 && r[0] == HomeBase[0]
    ensures r[1] == HomeBase[1].(fields := r[1].fields)
    ensures |r[1].fields| == 3
    ensures forall i :: 0 <= i < 3 ==>
      (|r[1].fields[i]| == 4 <==> images.Some? && images.value[i] != "")
    ensures forall i :: 0 <= i < 3 && |r[1].fields[i]| == 4 ==> r[1].fields[i][3] == Settings.CropName(i + 1)
  {
    HomeBase[1 := HomeBase[1].(fields := [HomeRow(1, SlotImage(images, 0)), HomeRow(2, SlotImage(images, 1)),
                                          HomeRow(3, SlotImage(images, 2))])]
  }

  /** The saved image of slot `i` (counted from 0), if the record exists. */
  function SlotImage(images: Option<seq<string>>, i: nat): Option<string>
    requires images.Some? ==> i < |images.value|
  {
    if images.Some? then Some(images.value[i]) else None
  }

  /** The page offers a crop field for exactly the slots whose block on the home
      page is cropped, and under the name the block uses. */
  lemma HomeCropMatchesBlocks(images: seq<string>, slots: seq<Settings.Slot>, k: nat)
    requires |images| == 3 && |slots| == 3
    requires forall i :: 0 <= i < 3 ==> slots[i].image == images[i]
    requires k < |Settings.FeaturedBlocks(slots)|
    ensures var idx := Settings.FilledSlots(slots)[k];
      var row := HomeFieldsets(Some(images))[1].fields[idx];
      var b := Settings.FeaturedBlocks(slots)[k];
      (b.crop.Some? <==> |row| == 4) && (b.crop.Some? ==> row[3] == b.crop.value)
  {
    var idx := Settings.FilledSlots(slots)[k];
    assert idx < 3;
  }
}

=== FILE: sorting.dfy ===
/**
 Python's `list.sort(key=...)` and `sorted(..., key=...)` for the key shape the
 admin menu uses: a pair `(rank, name)` compared as a tuple, the name compared
 as Python compares strings (lexicographically by code point).
 */
module Sorting {

  /** Python's `a <= b` on `str`. */
  predicate StrLe(a: string, b: string)
    decreases |a|
  {
    |a| == 0 || (|b| > 0 && (a[0] < b[0] || (a[0] == b[0] && StrLe(a[1..], b[1..]))))
  }

  lemma {:induction false} StrLeTotal(a: string, b: string)
    ensures StrLe(a, b) || StrLe(b, a)
    decreases |a|
  {
    if |a| > 0 && |b| > 0 && a[0] == b[0] {
      StrLeTotal(a[1..], b[1..]);
    }
  }

  lemma {:induction false} StrLeTransitive(a: string, b: string, c: string)
    requires StrLe(a, b) && StrLe(b, c)
    ensures StrLe(a, c)
    decreases |a|
  {
    if |a| > 0 && a[0] == b[0] && b[0] == c[0] {
      StrLeTransitive(a[1..], b[1..], c[1..]);
    }
  }

  lemma {:induction false} StrLeAntisymmetric(a: string, b: string)
    requires StrLe(a, b) && StrLe(b, a)
    ensures a == b
    decreases |a|
  {
    if |a| > 0 {
      StrLeAntisymmetric(a[1..], b[1..]);
      assert a == [a[0]] + a[1..] && b == [b[0]] + b[1..];
    }
  }

  /** A sort key `(rank, name)`. */
  datatype Key = Key(rank: int, name: string)

  /** Tuple comparison `(r1, n1) <= (r2, n2)`. */
  predicate KeyLe(x: Key, y: Key)
  {
    x.rank < y.rank || (x.rank == y.rank && StrLe(x.name, y.name))
  }

  lemma KeyLeTotal(x: Key, y: Key)
    ensures KeyLe(x, y) || KeyLe(y, x)
  {
    StrLeTotal(x.name, y.name);
  }

  lemma KeyLeTransitive(x: Key, y: Key, z: Key)
    requires KeyLe(x, y) && KeyLe(y, z)
    ensures KeyLe(x, z)
  {
    if x.rank == y.rank == z.rank {
      StrLeTransitive(x.name, y.name, z.name);
    }
  }

  lemma KeyLeAntisymmetric(x: Key, y: Key)
    requires KeyLe(x, y) && KeyLe(y, x)
    ensures x == y
  {
    StrLeAntisymmetric(x.name, y.name);
  }

  /** `s` is in non-decreasing key order. */
  ghost predicate SortedBy<T>(s: seq<T>, key: T -> Key)
  {
    forall i, j :: 0 <= i < j < |s| ==> KeyLe(key(s[i]), key(s[j]))
  }

  /** Inserts `x` before the first element whose key is not below it. */
  function Insert<T>(x: T, s: seq<T>, key: T -> Key): (r: seq<T>)
    requires SortedBy(s, key)
    ensures SortedBy(r, key)
    ensures multiset(r) == multiset(s) + multiset{x}
  {
    if |s| == 0 then [x]
    else if KeyLe(key(x), key(s[0])) then
      assert forall j :: 0 < j < |s| ==> KeyLe(key(s[0]), key(s[j]));
      InsertFrontSorted(x, s, key);
      [x] + s
    else
      var rest := Insert(x, s[1..], key);
      KeyLeTotal(key(x), key(s[0]));
      InsertConsSorted(s[0], rest, x, s[1..], key);
      assert s == [s[0]] + s[1..];
      [s[0]] + rest
  }

  lemma InsertFrontSorted<T>(x: T, s: seq<T>, key: T -> Key)
    requires |s| > 0 && SortedBy(s, key) && KeyLe(key(x), key(s[0]))
    ensures SortedBy([x] + s, key)
  {
    var r := [x] + s;
    forall i, j | 0 <= i < j < |r|
      ensures KeyLe(key(r[i]), key(r[j]))
    {
      if i == 0 && j > 1 {
        KeyLeTransitive(key(x), key(s[0]), key(s[j - 1]));
      }
    }
  }

  lemma InsertConsSorted<T>(h: T, rest: seq<T>, x: T, tail: seq<T>, key: T -> Key)
    requires SortedBy(rest, key)
    requires multiset(rest) == multiset(tail) + multiset{x}
    requires KeyLe(key(h), key(x))
    requires forall j :: 0 <= j < |tail| ==> KeyLe(key(h), key(tail[j]))
    ensures SortedBy([h] + rest, key)
  {
    var r := [h] + rest;
    forall i, j | 0 <= i < j < |r|
      ensures KeyLe(key(r[i]), key(r[j]))
    {
      if i == 0 {
        var y := rest[j - 1];
        assert y in multiset(rest);
        if y != x {
          assert y in multiset(tail);
          var k :| 0 <= k < |tail| && tail[k] == y;
        }
      }
    }
  }

  /** `sorted(s, key=key)`: insertion sort, stable. */
  function Sort<T>(s: seq<T>, key: T -> Key): (r: seq<T>)
    ensures SortedBy(r, key)
    ensures multiset(r) == multiset(s)
    ensures |r| == |s|
  {
    if |s| == 0 then []
    else
      assert s == [s[0]] + s[1..];
      Insert(s[0], Sort(s[1..], key), key)
  }
}

=== FILE: storefront.dfy ===
/**
 The pure list logic of the storefront views in shop/views.py: the catalogue's
 sort choice, the product gallery built by `push` in `product_detail`, and the
 "related products" fill.
 */
module Storefront {

  // ------------------------------------------------------------ catalogue sort

  /** A Django `order_by` on the product list. */
  datatype Ordering = ById(descending: bool) | ByPrice(descending: bool)

  /** The `order_by` string an ordering stands for. */
  function OrderByField(o: Ordering): string
  {
    match o
    case ById(d) => if d then "-id" else "id"
    case ByPrice(d) => if d then "-price_byn" else "price_byn"
  }

  /** `order_map.get(sort, "-id")` in `catalog`. */
  function CatalogOrdering(sort: string): (o: Ordering)
    ensures sort == "newest" ==> o == ById(true)
    ensures sort == "oldest" ==> o == ById(false)
    ensures sort == "price_desc" ==> o == ByPrice(true)
    ensures sort == "price_asc" ==> o == ByPrice(false)
    ensures sort !in {"newest", "oldest", "price_desc", "price_asc"} ==> o == ById(true)
  {
    if sort == "oldest" then ById(false)
    else if sort == "price_desc" then ByPrice(true)
    else if sort == "price_asc" then ByPrice(false)
    else ById(true)
  }

  /** Every ordering is reachable, each from exactly one named choice, and any
      other `sort` value behaves like "newest". */
  lemma CatalogOrderingCovers(o: Ordering)
    ensures exists sort :: sort in {"newest", "oldest", "price_desc", "price_asc"} && CatalogOrdering(sort) == o
    ensures OrderByField(o) in {"-id", "id", "-price_byn", "price_byn"}
  {
    match o
    case ById(d) =>
      if d { assert CatalogOrdering("newest") == o; } else { assert CatalogOrdering("oldest") == o; }
    case ByPrice(d) =>
      if d { assert CatalogOrdering("price_desc") == o; } else { assert CatalogOrdering("price_asc") == o; }
  }

  // ------------------------------------------------------------ gallery

  /** A product photo row: `image.url`, `alt`, `is_active`. */
  datatype Photo = Photo(url: string, alt: string, active: bool)

  /** One gallery slide `{"url", "alt", "cover"}`. */
  datatype Slide = Slide(url: string, alt: string, cover: bool)

  function Urls(g: seq<Slide>): set<string>
  {
    set i | 0 <= i < |g| :: g[i].url
  }

  ghost predicate DistinctUrls(g: seq<Slide>)
  {
    forall i, j :: 0 <= i < j < |g| ==> g[i].url != g[j].url
  }

  /** `push(url, alt, cover)`: skips an empty or already seen URL. */
  function Push(g: seq<Slide>, url: string, alt: string, cover: bool): (r: seq<Slide>)
    ensures Urls(r) == Urls(g) + (if url == "" then {} else {url})
    ensures DistinctUrls(g) ==> DistinctUrls(r)
    ensures |g| <= |r| && r[..|g|] == g
    ensures forall i :: |g| <= i < |r| ==> r[i].cover == cover
    // a slide is added exactly for a new non-empty URL, and it carries the
    // given alt text and cover flag
    ensures |r| > |g| <==> url != "" && url !in Urls(g)
    ensures |r| > |g| ==> r == g + [Slide(url, alt, cover)]
    ensures |r| == |g| ==> r == g
  {
    if url == "" || url in Urls(g) then g
    else
      var r := g + [Slide(url, alt, cover)];
      assert Urls(r) == Urls(g) + {url} by {
        forall u ensures u in Urls(r) <==> u in Urls(g) || u == url {
          if u in Urls(g) {
            var i :| 0 <= i < |g| && g[i].url == u;
            assert r[i].url == u;
          }
          if u == url { assert r[|g|].url == u; }
        }
      }
      assert forall i :: 0 <= i < |g| ==> g[i].url in Urls(g);
      r
  }

  /** The second loop of the gallery: the active photos, in query order, with
      `ph.alt or product.name` as the alt text. */
  function PushPhotos(g: seq<Slide>, photos: seq<Photo>, name: string): (r: seq<Slide>)
    decreases |photos|
    ensures DistinctUrls(g) ==> DistinctUrls(r)
    ensures |g| <= |r| && r[..|g|] == g
    ensures forall i :: |g| <= i < |r| ==> !r[i].cover
    ensures Urls(r) == Urls(g) + PhotoUrls(photos)
  {
    if |photos| == 0 then g
    else
      var ph := photos[0];
      var g1 := if ph.active then Push(g, ph.url, AltOf(ph, name), false) else g;
      var r := PushPhotos(g1, photos[1..], name);
      PhotoUrlsCons(photos);
      PushedThen(g, g1, r, if ph.active && ph.url != "" then {ph.url} else {}, PhotoUrls(photos[1..]));
      r
  }

  /** Two extensions in a row: the slides kept, no cover added, the URLs of
      both steps collected. */
  lemma PushedThen(g: seq<Slide>, g1: seq<Slide>, r: seq<Slide>, u1: set<string>, u2: set<string>)
    requires |g| <= |g1| && g1[..|g|] == g && (forall i :: |g| <= i < |g1| ==> !g1[i].cover)
    requires |g1| <= |r| && r[..|g1|] == g1 && (forall i :: |g1| <= i < |r| ==> !r[i].cover)
    requires Urls(g1) == Urls(g) + u1 && Urls(r) == Urls(g1) + u2
    ensures |g| <= |r| && r[..|g|] == g && (forall i :: |g| <= i < |r| ==> !r[i].cover)
    ensures Urls(r) == Urls(g) + (u1 + u2)
  {
    assert r[..|g|] == r[..|g1|][..|g|];
    assert forall i :: |g| <= i < |g1| ==> r[i] == g1[i];
  }

  /** The non-empty URLs of the active photos. */
  function PhotoUrls(photos: seq<Photo>): set<string>
  {
    set i | 0 <= i < |photos| && photos[i].active && photos[i].url != "" :: photos[i].url
  }

  lemma PhotoUrlsCons(photos: seq<Photo>)
    requires |photos| > 0
    ensures PhotoUrls(photos) ==
      (if photos[0].active && photos[0].url != "" then {photos[0].url} else {}) + PhotoUrls(photos[1..])
  {
    var rest := photos[1..];
    forall u ensures u in PhotoUrls(photos) <==>
      (photos[0].active && photos[0].url != "" && u == photos[0].url) || u in PhotoUrls(rest)
    {
      if u in PhotoUrls(photos) {
        var i :| 0 <= i < |photos| && photos[i].active && photos[i].url != "" && photos[i].url == u;
        if i > 0 { assert rest[i - 1] == photos[i]; }
      }
      if u in PhotoUrls(rest) {
        var i :| 0 <= i < |rest| && rest[i].active && rest[i].url != "" && rest[i].url == u;
        assert photos[i + 1] == rest[i];
      }
    }
  }

  /** The alt text of a photo's slide: `ph.alt or product.name`. */
  function AltOf(ph: Photo, name: string): string
  {
    if ph.alt == "" then name else ph.alt
  }

  /** Photo `j` is the first active photo with its URL, and that URL is
      non-empty and not among the slides `g` already holds. */
  ghost predicate FirstNew(g: seq<Slide>, photos: seq<Photo>, j: int)
    requires 0 <= j < |photos|
  {
    && photos[j].active && photos[j].url != "" && photos[j].url !in Urls(g)
    && forall i :: 0 <= i < j ==> !(photos[i].active && photos[i].url == photos[j].url)
  }

  /** The slides the photos from `j` on contribute after `g`: one for every photo
      that is the first new one with its URL, in photo order. */
  ghost function Picks(g: seq<Slide>, photos: seq<Photo>, name: string, j: nat): seq<Slide>
    requires j <= |photos|
    decreases |photos| - j
  {
    if j == |photos| then []
    else
      (if FirstNew(g, photos, j) then [Slide(photos[j].url, AltOf(photos[j], name), false)] else [])
      + Picks(g, photos, name, j + 1)
  }

  /** The photo loop appends exactly the picked slides: the first active photo
      of every new URL, in query order, with its alt text. */
  lemma {:induction false} PushPhotosPicks(g: seq<Slide>, photos: seq<Photo>, name: string)
    ensures PushPhotos(g, photos, name) == g + Picks(g, photos, name, 0)
    decreases |photos|
  {
    if |photos| > 0 {
      var ph := photos[0];
      var g1 := if ph.active then Push(g, ph.url, AltOf(ph, name), false) else g;
      var rest := photos[1..];
      assert PushPhotos(g, photos, name) == PushPhotos(g1, rest, name);
      PushPhotosPicks(g1, rest, name);
      var head := if FirstNew(g, photos, 0) then [Slide(ph.url, AltOf(ph, name), false)] else [];
      PushOnePhoto(g, photos, name);
      PicksShift(g, g1, photos, name, 1);
      var tail := Picks(g1, rest, name, 0);
      assert Picks(g, photos, name, 0) == head + tail;
      Associative(g, head, tail);
    }
  }

  lemma Associative(a: seq<Slide>, b: seq<Slide>, c: seq<Slide>)
    ensures a + (b + c) == (a + b) + c
  {
  }

  /** Pushing the first photo adds its slide exactly when it is the first new
      one, and counts its URL as seen when it is active. */
  lemma PushOnePhoto(g: seq<Slide>, photos: seq<Photo>, name: string)
    requires |photos| > 0
    ensures var ph := photos[0];
      var g1 := if ph.active then Push(g, ph.url, AltOf(ph, name), false) else g;
      && g1 == g + (if FirstNew(g, photos, 0) then [Slide(ph.url, AltOf(ph, name), false)] else [])
      && Urls(g1) == Urls(g) + (if ph.active && ph.url != "" then {ph.url} else {})
  {
  }

  /** After the first photo is pushed, the picks of the rest are the same with
      the first photo's URL counted as seen. */
  lemma {:induction false} PicksShift(g: seq<Slide>, g1: seq<Slide>, photos: seq<Photo>, name: string, j: nat)
    requires 1 <= j <= |photos|
    requires Urls(g1) == Urls(g) + (if photos[0].active && photos[0].url != "" then {photos[0].url} else {})
    ensures Picks(g, photos, name, j) == Picks(g1, photos[1..], name, j - 1)
    decreases |photos| - j
  {
    if j < |photos| {
      FirstNewShift(g, g1, photos, j);
      PicksShift(g, g1, photos, name, j + 1);
    }
  }

  lemma FirstNewShift(g: seq<Slide>, g1: seq<Slide>, photos: seq<Photo>, j: nat)
    requires 1 <= j < |photos|
    requires Urls(g1) == Urls(g) + (if photos[0].active && photos[0].url != "" then {photos[0].url} else {})
    ensures FirstNew(g, photos, j) <==> FirstNew(g1, photos[1..], j - 1)
  {
    var rest := photos[1..];
    assert forall i :: 0 <= i < j - 1 ==> rest[i] == photos[i + 1];
    if FirstNew(g1, rest, j - 1) {
      forall i | 0 <= i < j ensures !(photos[i].active && photos[i].url == photos[j].url) {
        if i > 0 { assert photos[i] == rest[i - 1]; }
      }
    }
  }

  /** Every picked slide is the slide of a photo that is the first new one with
      its URL. */
  lemma {:induction false} PicksFromFirstNew(g: seq<Slide>, photos: seq<Photo>, name: string, j: nat, k: nat)
    requires j <= |photos| && k < |Picks(g, photos, name, j)|
    ensures exists i :: (j <= i < |photos| && FirstNew(g, photos, i)
                         && Picks(g, photos, name, j)[k] == Slide(photos[i].url, AltOf(photos[i], name), false))
    decreases |photos| - j
  {
    var head := if FirstNew(g, photos, j) then [Slide(photos[j].url, AltOf(photos[j], name), false)] else [];
    assert Picks(g, photos, name, j) == head + Picks(g, photos, name, j + 1);
    if k >= |head| {
      PicksFromFirstNew(g, photos, name, j + 1, k - |head|);
    }
  }

  /** The gallery of `product_detail`: the cover image (`""` when the product has
      none) and then the active photos, without empty or repeated URLs. */
  function Gallery(name: string, cover: string, photos: seq<Photo>): (g: seq<Slide>)
    ensures DistinctUrls(g)
    ensures forall i :: 0 <= i < |g| ==> g[i].url != ""
    ensures Urls(g) == (if cover == "" then {} else {cover}) + PhotoUrls(photos)
    ensures cover != "" ==> |g| > 0 && g[0] == Slide(cover, name, true)
    ensures forall i :: 0 < i < |g| ==> !g[i].cover
    ensures cover == "" ==> forall i :: 0 <= i < |g| ==> !g[i].cover
  {
    var g0 := Start(name, cover);
    var g := PushPhotos(g0, photos, name);
    NoEmptyUrl(g, (if cover == "" then {} else {cover}) + PhotoUrls(photos));
    assert cover != "" ==> g[..|g0|] == [Slide(cover, name, true)];
    g
  }

  /** The gallery is the cover slide, when there is one, followed by the picked
      photo slides. */
  lemma GallerySlides(name: string, cover: string, photos: seq<Photo>)
    ensures Gallery(name, cover, photos) == Start(name, cover) + Picks(Start(name, cover), photos, name, 0)
  {
    PushPhotosPicks(Start(name, cover), photos, name);
  }

  /** Every slide but the cover is the slide of the first active photo with its
      URL, which the cover does not already show, and carries that photo's alt
      text or else the product name. */
  lemma GalleryPhotoSlide(name: string, cover: string, photos: seq<Photo>, k: nat)
    requires k < |Gallery(name, cover, photos)| && !Gallery(name, cover, photos)[k].cover
    ensures exists i :: (0 <= i < |photos| && FirstNew(Start(name, cover), photos, i)
                         && Gallery(name, cover, photos)[k] == Slide(photos[i].url, AltOf(photos[i], name), false))
  {
    var g0 := Start(name, cover);
    GallerySlides(name, cover, photos);
    assert k >= |g0|;
    assert Gallery(name, cover, photos)[k] == Picks(g0, photos, name, 0)[k - |g0|];
    PicksFromFirstNew(g0, photos, name, 0, k - |g0|);
  }

  /** The first `push`, of the cover when there is one. */
  function Start(name: string, cover: string): (g: seq<Slide>)
    ensures DistinctUrls(g)
    ensures Urls(g) == if cover == "" then {} else {cover}
    ensures g == if cover == "" then [] else [Slide(cover, name, true)]
  {
    if cover == "" then
      assert Urls([]) == {};
      []
    else
      var g := [Slide(cover, name, true)];
      assert Urls(g) == {cover} by {
        assert g[0].url == cover;
      }
      g
  }

  lemma NoEmptyUrl(g: seq<Slide>, urls: set<string>)
    requires Urls(g) == urls && "" !in urls
    ensures forall i :: 0 <= i < |g| ==> g[i].url != ""
  {
    forall i | 0 <= i < |g| ensures g[i].url != "" {
      assert g[i].url in Urls(g);
    }
  }

  // ------------------------------------------------------------ related products

  /** The fields of a product the related-products query reads. */
  datatype Item = Item(id: int, category: int, active: bool, isNew: bool)

  function Ids(s: seq<Item>): set<int>
  {
    set i | 0 <= i < |s| :: s[i].id
  }

  ghost predicate DistinctIds(s: seq<Item>)
  {
    forall i, j :: 0 <= i < j < |s| ==> s[i].id != s[j].id
  }

  /** `.filter(...)` on a query, keeping its order. */
  function Filter(s: seq<Item>, keep: Item -> bool): (r: seq<Item>)
    ensures |r| <= |s|
    ensures forall x :: x in r <==> x in s && keep(x)
    ensures DistinctIds(s) ==> DistinctIds(r)
    ensures Ids(r) <= Ids(s)
  {
    if |s| == 0 then []
    else
      var rest := Filter(s[1..], keep);
      var r := (if keep(s[0]) then [s[0]] else []) + rest;
      assert forall x :: x in s <==> x == s[0] || x in s[1..];
      IdsOfSub(rest, s[1..]);
      IdsOfSub(r, s);
      FilterDistinctStep(s, rest);
      r
  }

  lemma FilterDistinctStep(s: seq<Item>, rest: seq<Item>)
    requires |s| > 0 && forall x :: x in rest ==> x in s[1..]
    requires DistinctIds(s[1..]) ==> DistinctIds(rest)
    ensures DistinctIds(s) ==> DistinctIds(rest) && DistinctIds([s[0]] + rest)
  {
    if DistinctIds(s) {
      assert DistinctIds(s[1..]);
      forall j | 0 <= j < |rest| ensures rest[j].id != s[0].id {
        assert rest[j] in s[1..];
        var k :| 0 <= k < |s[1..]| && s[1..][k] == rest[j];
        assert s[k + 1] == rest[j];
      }
      var r := [s[0]] + rest;
      forall i, j | 0 <= i < j < |r| ensures r[i].id != r[j].id {
        if i > 0 { assert r[i] == rest[i - 1] && r[j] == rest[j - 1]; }
        else { assert r[j] == rest[j - 1]; }
      }
    }
  }

  lemma IdsOfSub(a: seq<Item>, b: seq<Item>)
    requires forall x :: x in a ==> x in b
    ensures Ids(a) <= Ids(b)
  {
    forall id | id in Ids(a) ensures id in Ids(b) {
      var i :| 0 <= i < |a| && a[i].id == id;
      assert a[i] in b;
      var j :| 0 <= j < |b| && b[j] == a[i];
    }
  }

  /** `[:n]`. */
  function Take(s: seq<Item>, n: nat): (r: seq<Item>)
    ensures |r| == if n < |s| then n else |s|
    ensures r == s[..|r|]
  {
    if n < |s| then s[..n] else s
  }

  const RelatedLimit: nat := 4

  /** The active products of the current one's category, itself excluded. */
  function SameCategory(listing: seq<Item>, current: Item): (r: seq<Item>)
    ensures forall x :: x in r <==> x in listing && x.active && x.id != current.id && x.category == current.category
    ensures DistinctIds(listing) ==> DistinctIds(r)
    ensures forall i, j :: 0 <= i < j < |r| ==> Precedes(listing, r[i], r[j])
  {
    var keep := (p: Item) => p.active && p.id != current.id && p.category == current.category;
    FilterKeepsOrder(listing, keep);
    Filter(listing, keep)
  }

  /** The active products of other categories, the current one excluded. */
  function OtherCategory(listing: seq<Item>, current: Item): (r: seq<Item>)
    ensures forall x :: x in r <==> x in listing && x.active && x.id != current.id && x.category != current.category
    ensures forall i, j :: 0 <= i < j < |r| ==> Precedes(listing, r[i], r[j])
  {
    var keep := (p: Item) => p.active && p.id != current.id && p.category != current.category;
    FilterKeepsOrder(listing, keep);
    Filter(listing, keep)
  }

  /** `x` comes before `y` in `s`. */
  ghost predicate Precedes(s: seq<Item>, x: Item, y: Item)
  {
    exists a, b :: 0 <= a < b < |s| && s[a] == x && s[b] == y
  }

  /** `.filter(...)` keeps the query's order. */
  lemma {:induction false} FilterKeepsOrder(s: seq<Item>, keep: Item -> bool)
    ensures forall i, j :: 0 <= i < j < |Filter(s, keep)| ==> Precedes(s, Filter(s, keep)[i], Filter(s, keep)[j])
  {
    if |s| > 0 {
      var rest := Filter(s[1..], keep);
      var r := Filter(s, keep);
      var head := if keep(s[0]) then [s[0]] else [];
      assert r == head + rest;
      FilterKeepsOrder(s[1..], keep);
      forall i, j | 0 <= i < j < |r| ensures Precedes(s, r[i], r[j]) {
        var y := rest[j - |head|];
        assert r[j] == y && y in s[1..];
        var b :| 0 <= b < |s[1..]| && s[1..][b] == y;
        assert s[b + 1] == y;
        if i < |head| {
          assert r[i] == s[0];
        } else {
          assert Precedes(s[1..], rest[i - |head|], y);
          var a', b' :| 0 <= a' < b' < |s[1..]| && s[1..][a'] == rest[i - |head|] && s[1..][b'] == y;
          assert s[a' + 1] == r[i] && s[b' + 1] == y;
        }
      }
    }
  }

  /** The active products whose id is not in `exclude`. */
  function OtherActive(listing: seq<Item>, exclude: set<int>): (r: seq<Item>)
    ensures forall x :: x in r <==> x in listing && x.active && x.id !in exclude
    ensures DistinctIds(listing) ==> DistinctIds(r)
  {
    Filter(listing, (p: Item) => p.active && p.id !in exclude)
  }

  /** The related products of `current`. `listing` is the product table in the
      order `order_by("-is_new", "-id")` gives; first up to four active products
      of the same category, then, when fewer than four, the other active
      products not already chosen. */
  function Related(listing: seq<Item>, current: Item): (r: seq<Item>)
    ensures |r| <= RelatedLimit
    ensures forall x :: x in r ==> x in listing && x.active && x.id != current.id
  {
    var sameCat := Take(SameCategory(listing, current), RelatedLimit);
    if |sameCat| < RelatedLimit then
      sameCat + Take(OtherActive(listing, Ids(sameCat) + {current.id}), RelatedLimit - |sameCat|)
    else sameCat
  }

  /** No product is suggested twice. */
  lemma RelatedDistinct(listing: seq<Item>, current: Item)
    requires DistinctIds(listing)
    ensures DistinctIds(Related(listing, current))
  {
    var sameCat := Take(SameCategory(listing, current), RelatedLimit);
    var r := Related(listing, current);
    if |sameCat| < RelatedLimit {
      var fill := Take(OtherActive(listing, Ids(sameCat) + {current.id}), RelatedLimit - |sameCat|);
      assert r == sameCat + fill;
      forall i, j | 0 <= i < j < |r| ensures r[i].id != r[j].id {
        if j >= |sameCat| {
          assert r[j] == fill[j - |sameCat|];
          assert r[j] in OtherActive(listing, Ids(sameCat) + {current.id});
          if i < |sameCat| {
            assert r[i].id in Ids(sameCat);
          } else {
            assert r[i] == fill[i - |sameCat|];
          }
        } else {
          assert r[i] == sameCat[i] && r[j] == sameCat[j];
        }
      }
    }
  }

  /** Products of the current category come before all others. */
  lemma RelatedSameCategoryFirst(listing: seq<Item>, current: Item)
    ensures var r := Related(listing, current);
      forall i, j :: 0 <= i < j < |r| && r[j].category == current.category ==> r[i].category == current.category
  {
    var same := SameCategory(listing, current);
    var sameCat := Take(same, RelatedLimit);
    var r := Related(listing, current);
    forall i | 0 <= i < |sameCat| ensures sameCat[i].category == current.category {
      assert sameCat[i] in same;
    }
    if |sameCat| < RelatedLimit {
      var fill := Take(OtherActive(listing, Ids(sameCat) + {current.id}), RelatedLimit - |sameCat|);
      assert sameCat == same;
      FillOtherCategory(listing, current, fill);
      CategoryFirst(sameCat, fill, current.category);
    } else {
      CategoryFirst(sameCat, [], current.category);
    }
  }

  /** In `a + b`, with `a` all of category `c` and `b` none of it, the products
      of category `c` come first. */
  lemma CategoryFirst(a: seq<Item>, b: seq<Item>, c: int)
    requires forall i :: 0 <= i < |a| ==> a[i].category == c
    requires forall i :: 0 <= i < |b| ==> b[i].category != c
    ensures var r := a + b;
      forall i, j :: 0 <= i < j < |r| && r[j].category == c ==> r[i].category == c
  {
    var r := a + b;
    forall i | |a| <= i < |r| ensures r[i].category != c {
      assert r[i] == b[i - |a|];
    }
  }

  /** A product that is not among the same-category ones, yet active and not
      the current one, is of another category. */
  lemma FillOtherCategory(listing: seq<Item>, current: Item, fill: seq<Item>)
    requires forall x :: x in fill ==>
      x in listing && x.active && x.id !in Ids(SameCategory(listing, current)) + {current.id}
    ensures forall i :: 0 <= i < |fill| ==> fill[i].category != current.category
  {
    var same := SameCategory(listing, current);
    forall x | x in same ensures x.id in Ids(same) {
      var k :| 0 <= k < |same| && same[k] == x;
    }
    forall i | 0 <= i < |fill| ensures fill[i].category != current.category {
      assert fill[i] in fill;
    }
  }

  /** Fewer than four suggestions only when every other active product is
      already among them. */
  lemma RelatedComplete(listing: seq<Item>, current: Item)
    requires DistinctIds(listing)
    ensures var r := Related(listing, current);
      |r| < RelatedLimit ==> forall x :: x in listing && x.active && x.id != current.id ==> x in r
  {
    var same := SameCategory(listing, current);
    var sameCat := Take(same, RelatedLimit);
    var r := Related(listing, current);
    if |r| < RelatedLimit {
      assert |sameCat| < RelatedLimit;
      assert sameCat == same;
      var others := OtherActive(listing, Ids(sameCat) + {current.id});
      var fill := Take(others, RelatedLimit - |sameCat|);
      assert r == sameCat + fill;
      assert fill == others;
      forall x | x in listing && x.active && x.id != current.id ensures x in r {
        if x.id in Ids(sameCat) {
          InById(listing, sameCat, x);
        } else {
          assert x in others;
        }
      }
    }
  }

  /** The related products are the first four of: the active products of the
      current category, then those of the other categories, each group in
      listing order. */
  lemma RelatedIsFirstFour(listing: seq<Item>, current: Item)
    requires DistinctIds(listing)
    ensures Related(listing, current) == Take(SameCategory(listing, current) + OtherCategory(listing, current), RelatedLimit)
  {
    var same := SameCategory(listing, current);
    var other := OtherCategory(listing, current);
    var sameCat := Take(same, RelatedLimit);
    if |sameCat| < RelatedLimit {
      assert sameCat == same;
      var others := OtherActive(listing, Ids(sameCat) + {current.id});
      FallbackIsOtherCategory(listing, current);
      assert others == other;
      assert Related(listing, current) == same + Take(other, RelatedLimit - |same|);
      assert Take(same + other, RelatedLimit) == same + Take(other, RelatedLimit - |same|);
    } else {
      assert Take(same + other, RelatedLimit) == same[..RelatedLimit];
    }
  }

  /** When fewer than four products share the category, the fallback query
      (active, not already chosen, not the current one) yields exactly the
      products of the other categories. */
  lemma FallbackIsOtherCategory(listing: seq<Item>, current: Item)
    requires DistinctIds(listing)
    ensures OtherActive(listing, Ids(SameCategory(listing, current)) + {current.id}) == OtherCategory(listing, current)
  {
    var same := SameCategory(listing, current);
    var exclude := Ids(same) + {current.id};
    var k1 := (p: Item) => p.active && p.id !in exclude;
    var k2 := (p: Item) => p.active && p.id != current.id && p.category != current.category;
    forall x | x in listing ensures k1(x) == k2(x) {
      if x.active && x.id != current.id && x.category == current.category {
        assert x in same;
        var k :| 0 <= k < |same| && same[k] == x;
        assert x.id in Ids(same);
      }
      if x.id in Ids(same) {
        InById(listing, same, x);
      }
    }
    FilterSame(listing, k1, k2);
  }

  /** Filters that agree on every element give the same result. */
  lemma {:induction false} FilterSame(s: seq<Item>, k1: Item -> bool, k2: Item -> bool)
    requires forall x :: x in s ==> k1(x) == k2(x)
    ensures Filter(s, k1) == Filter(s, k2)
  {
    if |s| > 0 {
      assert forall x :: x in s[1..] ==> x in s;
      FilterSame(s[1..], k1, k2);
    }
  }

  /** A product of the current category is left out only when four of its
      category were chosen, and all of them come before it in the listing. */
  lemma RelatedPrefersSameCategory(listing: seq<Item>, current: Item, x: Item)
    requires x in SameCategory(listing, current) && x !in Related(listing, current)
    ensures |Related(listing, current)| == RelatedLimit
    ensures forall y :: y in Related(listing, current) ==> y.category == current.category
    ensures forall k :: 0 <= k < |Related(listing, current)| ==> Precedes(listing, Related(listing, current)[k], x)
  {
    var same := SameCategory(listing, current);
    var r := Related(listing, current);
    assert r == same[..RelatedLimit];
    var m :| 0 <= m < |same| && same[m] == x;
    assert m >= RelatedLimit;
    forall k | 0 <= k < |r| ensures Precedes(listing, r[k], x) {
      assert r[k] == same[k];
    }
    forall y | y in r ensures y.category == current.category {
      var k :| 0 <= k < |r| && r[k] == y;
      assert same[k] in same;
    }
  }

  /** With distinct ids, a listed product whose id a sub-list carries is in it. */
  lemma InById(listing: seq<Item>, s: seq<Item>, x: Item)
    requires DistinctIds(listing) && x in listing && x.id in Ids(s)
    requires forall y :: y in s ==> y in listing
    ensures x in s
  {
    var i :| 0 <= i < |s| && s[i].id == x.id;
    assert s[i] in listing;
    var a :| 0 <= a < |listing| && listing[a] == s[i];
    var b :| 0 <= b < |listing| && listing[b] == x;
  }
}

=== FILE: text.dfy ===
/**
 String helpers shared by the Python back end and the browser scripts:
 `str.strip()` / `String.prototype.trim()`, `str.lower()` / `toLowerCase()`,
 `str(n)` and `int(s)` on decimal integers, and zero padding (`f"{n:04d}"`).
 */
module Text {
  import opened Wrappers

  /** Characters for which Python's `str.isspace()` holds; `str.strip()` with no
      argument removes exactly these. */
  predicate IsPySpace(c: char)
  {
    || ('\t' <= c <= '\r') || ('\U{001C}' <= c <= ' ') || c == '\U{0085}' || c == '\U{00A0}'
    || c == '\U{1680}' || ('\U{2000}' <= c <= '\U{200A}') || c == '\U{2028}' || c == '\U{2029}'
    || c == '\U{202F}' || c == '\U{205F}' || c == '\U{3000}'
  }

  /** WhiteSpace and LineTerminator code points of ECMAScript; `trim()` removes these. */
  predicate IsJsSpace(c: char)
  {
    || ('\t' <= c <= '\r') || c == ' ' || c == '\U{00A0}' || c == '\U{1680}'
    || ('\U{2000}' <= c <= '\U{200A}') || c == '\U{2028}' || c == '\U{2029}' || c == '\U{202F}'
    || c == '\U{205F}' || c == '\U{3000}' || c == '\U{FEFF}'
  }

  // ---------------------------------------------------------------- stripping

  /** Drops the longest prefix made of characters for which `strip` holds. */
  function StripLeft(s: string, strip: char -> bool): (r: string)
    ensures |r| <= |s| && r == s[|s| - |r|..]
    ensures |r| > 0 ==> !strip(r[0])
    ensures forall i :: 0 <= i < |s| - |r| ==> strip(s[i])
  {
    if |s| > 0 && strip(s[0]) then
      var r := StripLeft(s[1..], strip);
      assert forall i :: 1 <= i < |s| ==> s[i] == s[1..][i - 1];
      r
    else s
  }

  /** Drops the longest suffix made of characters for which `strip` holds. */
  function StripRight(s: string, strip: char -> bool): (r: string)
    ensures |r| <= |s| && r == s[..|r|]
    ensures |r| > 0 ==> !strip(r[|r| - 1])
    ensures forall i :: |r| <= i < |s| ==> strip(s[i])
  {
    if |s| > 0 && strip(s[|s| - 1]) then StripRight(s[..|s| - 1], strip) else s
  }

  /** Python's `s.strip(chars)`: both ends, removing characters for which `strip` holds. */
  function Strip(s: string, strip: char -> bool): string
  {
    StripRight(StripLeft(s, strip), strip)
  }

  /** Python's `s.strip()`. */
  function Trim(s: string): string
  {
    Strip(s, IsPySpace)
  }

  /** JavaScript's `s.trim()`. */
  function JsTrim(s: string): string
  {
    Strip(s, IsJsSpace)
  }

  /** A string whose end characters are not stripped is left as it is. */
  lemma StripUnchanged(s: string, strip: char -> bool)
    requires |s| > 0 ==> !strip(s[0]) && !strip(s[|s| - 1])
    ensures Strip(s, strip) == s
  {
  }

  /** Stripping twice removes nothing more than stripping once. */
  lemma StripIdempotent(s: string, strip: char -> bool)
    ensures Strip(Strip(s, strip), strip) == Strip(s, strip)
  {
    var t := Strip(s, strip);
    var l := StripLeft(s, strip);
    if |t| > 0 {
      assert t[0] == l[0];
    }
    StripUnchanged(t, strip);
  }

  // ---------------------------------------------------------------- case

  /** Upper-case letters of the Latin and basic Cyrillic alphabets. */
  predicate IsUpper(c: char)
  {
    ('A' <= c <= 'Z') || ('\U{0400}' <= c <= '\U{042F}')
  }

  /** Lower-casing of one character, as `str.lower()` does it for Latin and
      basic Cyrillic letters (Ё and the other U+0400 block letters move by 0x50,
      А..Я by 0x20); every other character is left alone. */
  function LowerChar(c: char): (d: char)
    ensures !IsUpper(d)
    ensures !IsUpper(c) ==> d == c
    ensures IsPySpace(d) <==> IsPySpace(c)
    ensures IsJsSpace(d) <==> IsJsSpace(c)
  {
    if 'A' <= c <= 'Z' then (c as int + 32) as char
    else if '\U{0410}' <= c <= '\U{042F}' then (c as int + 32) as char
    else if '\U{0400}' <= c <= '\U{040F}' then (c as int + 80) as char
    else c
  }

  /** `str.lower()` / `toLowerCase()` character by character. */
  function Lower(s: string): (r: string)
    ensures |r| == |s|
    ensures forall i :: 0 <= i < |s| ==> r[i] == LowerChar(s[i])
  {
    seq(|s|, i requires 0 <= i < |s| => LowerChar(s[i]))
  }

  lemma LowerIdempotent(s: string)
    ensures Lower(Lower(s)) == Lower(s)
  {
  }

  lemma LowerAppend(a: string, b: string)
    ensures Lower(a + b) == Lower(a) + Lower(b)
  {
  }

  /** Lower-casing keeps whitespace where it was, so it commutes with stripping. */
  lemma {:induction false} StripLeftLower(s: string)
    ensures StripLeft(Lower(s), IsPySpace) == Lower(StripLeft(s, IsPySpace))
    decreases |s|
  {
    if |s| > 0 {
      assert Lower(s)[0] == LowerChar(s[0]);
      if IsPySpace(s[0]) {
        assert Lower(s)[1..] == Lower(s[1..]);
        StripLeftLower(s[1..]);
      }
    }
  }

  lemma {:induction false} StripRightLower(s: string)
    ensures StripRight(Lower(s), IsPySpace) == Lower(StripRight(s, IsPySpace))
    decreases |s|
  {
    if |s| > 0 {
      assert Lower(s)[|s| - 1] == LowerChar(s[|s| - 1]);
      if IsPySpace(s[|s| - 1]) {
        assert Lower(s)[..|s| - 1] == Lower(s[..|s| - 1]);
        StripRightLower(s[..|s| - 1]);
      }
    }
  }

  lemma TrimLower(s: string)
    ensures Trim(Lower(s)) == Lower(Trim(s))
  {
    StripLeftLower(s);
    StripRightLower(StripLeft(s, IsPySpace));
  }

  /** Lower-case letters of the same two alphabets. */
  predicate IsLower(c: char)
  {
    ('a' <= c <= 'z') || ('\U{0430}' <= c <= '\U{045F}')
  }

  /** Upper-casing of one character, the inverse of `LowerChar` on letters. */
  function UpperChar(c: char): (d: char)
    ensures !IsLower(d)
    ensures !IsLower(c) ==> d == c
    ensures LowerChar(d) == LowerChar(c)
  {
    if 'a' <= c <= 'z' then (c as int - 32) as char
    else if '\U{0430}' <= c <= '\U{044F}' then (c as int - 32) as char
    else if '\U{0450}' <= c <= '\U{045F}' then (c as int - 80) as char
    else c
  }

  /** Upper-casing undoes lower-casing on upper-case letters. */
  lemma UpperLowerChar(c: char)
    requires IsUpper(c)
    ensures UpperChar(LowerChar(c)) == c
  {
  }

  /** `str.capitalize()`: the first character upper-cased, the rest lower-cased. */
  function Capitalize(s: string): (r: string)
    ensures |r| == |s|
    ensures Lower(r) == Lower(s)
    ensures |s| > 0 ==> !IsLower(r[0])
    ensures forall i :: 1 <= i < |r| ==> !IsUpper(r[i])
  {
    if |s| == 0 then "" else [UpperChar(s[0])] + Lower(s[1..])
  }

  /** Capitalizing twice is capitalizing once. */
  lemma CapitalizeIdempotent(s: string)
    ensures Capitalize(Capitalize(s)) == Capitalize(s)
  {
    if |s| > 0 {
      var c := Capitalize(s);
      assert c[1..] == Lower(s[1..]);
      LowerIdempotent(s[1..]);
    }
  }

  // ---------------------------------------------------------------- digits

  predicate IsDigit(c: char)
  {
    '0' <= c <= '9'
  }

  /** Python's `s.isdigit()` for ASCII digits: non-empty and all digits. */
  predicate AllDigits(s: string)
  {
    |s| > 0 && forall i :: 0 <= i < |s| ==> IsDigit(s[i])
  }

  function DigitChar(d: nat): (c: char)
    requires d < 10
    ensures IsDigit(c) && c as int - '0' as int == d
  {
    (d + '0' as int) as char
  }

  function DigitValue(c: char): (d: nat)
    requires IsDigit(c)
    ensures d < 10
  {
    c as int - '0' as int
  }

  /** The value of a string of decimal digits, most significant first. */
  function DigitsValue(s: string): nat
    requires forall i :: 0 <= i < |s| ==> IsDigit(s[i])
  {
    if |s| == 0 then 0 else DigitsValue(s[..|s| - 1]) * 10 + DigitValue(s[|s| - 1])
  }

  /** Python's `str(n)` for a non-negative integer. */
  function ShowNat(n: nat): (r: string)
    ensures |r| > 0 && AllDigits(r)
    ensures |r| > 1 ==> r[0] != '0'
  {
    if n < 10 then [DigitChar(n)] else ShowNat(n / 10) + [DigitChar(n % 10)]
  }

  /** Python's `str(n)` and JavaScript's `${n}` for an integer. */
  function ShowInt(n: int): string
  {
    if n < 0 then "-" + ShowNat(-n) else ShowNat(n)
  }

  lemma {:induction false} DigitsValueShowNat(n: nat)
    ensures DigitsValue(ShowNat(n)) == n
  {
    if n >= 10 {
      var s := ShowNat(n);
      assert s[..|s| - 1] == ShowNat(n / 10);
      DigitsValueShowNat(n / 10);
    }
  }

  /** Leading zeros do not change the value of a digit string. */
  lemma {:induction false} DigitsValueLeadingZeros(z: string, s: string)
    requires forall i :: 0 <= i < |z| ==> z[i] == '0'
    requires forall i :: 0 <= i < |s| ==> IsDigit(s[i])
    ensures forall i :: 0 <= i < |z + s| ==> IsDigit((z + s)[i])
    ensures DigitsValue(z + s) == DigitsValue(s)
    decreases |s|
  {
    var t := z + s;
    assert forall i :: 0 <= i < |t| ==> IsDigit(t[i]);
    if |s| == 0 {
      DigitsValueZeros(z);
      assert t == z;
    } else {
      assert t[..|t| - 1] == z + s[..|s| - 1];
      DigitsValueLeadingZeros(z, s[..|s| - 1]);
    }
  }

  lemma {:induction false} DigitsValueZeros(z: string)
    requires forall i :: 0 <= i < |z| ==> z[i] == '0'
    ensures forall i :: 0 <= i < |z| ==> IsDigit(z[i])
    ensures DigitsValue(z) == 0
    decreases |z|
  {
    if |z| > 0 {
      DigitsValueZeros(z[..|z| - 1]);
    }
  }

  /** `str(n).isdigit()` holds exactly for the non-negative integers. */
  lemma ShowIntAllDigits(n: int)
    ensures AllDigits(ShowInt(n)) <==> n >= 0
  {
    if n < 0 {
      assert ShowInt(n)[0] == '-';
    }
  }

  // ---------------------------------------------------------------- int(s)

  /** The digit part Python's `int()` accepts: digits, single underscores
      between digits (PEP 515), nothing else. */
  predicate DigitGroups(s: string)
  {
    && |s| > 0
    && IsDigit(s[0]) && IsDigit(s[|s| - 1])
    && (forall i :: 0 <= i < |s| ==> IsDigit(s[i]) || s[i] == '_')
    && (forall i :: 0 <= i < |s| - 1 ==> s[i] == '_' ==> s[i + 1] != '_')
  }

  function DropUnderscores(s: string): (r: string)
    requires forall i :: 0 <= i < |s| ==> IsDigit(s[i]) || s[i] == '_'
    ensures forall i :: 0 <= i < |r| ==> IsDigit(r[i])
    ensures AllDigits(s) ==> r == s
  {
    if |s| == 0 then ""
    else if s[0] == '_' then DropUnderscores(s[1..])
    else [s[0]] + DropUnderscores(s[1..])
  }

  /** Python's `int(s)` on a string, base 10: surrounding whitespace, an optional
      sign, then digit groups; `None` where Python raises `ValueError`. Digits
      are the ASCII ones only. */
  function ParseInt(s: string): (r: Option<int>)
    // a blank string is an error, and an accepted one ends in a digit
    ensures Trim(s) == "" ==> r.None?
    ensures r.Some? ==> IsDigit(Trim(s)[|Trim(s)| - 1])
    // only a leading minus gives a negative value
    ensures r.Some? && r.value < 0 ==> Trim(s)[0] == '-'
    // a plain run of digits reads as its decimal value
    ensures AllDigits(s) ==> r == Some(DigitsValue(s))
  {
    PlainDigits(s);
    var t := Trim(s);
    if |t| > 0 && (t[0] == '-' || t[0] == '+') then
      if DigitGroups(t[1..]) then
        var v: int := DigitsValue(DropUnderscores(t[1..]));
        Some(if t[0] == '-' then -v else v)
      else None
    else if DigitGroups(t) then Some(DigitsValue(DropUnderscores(t)))
    else None
  }

  /** `int(str(n)) == n`: a decimal rendering reads back as the same integer. */
  lemma ParseShowInt(n: int)
    ensures ParseInt(ShowInt(n)) == Some(n)
  {
    TrimShowInt(n);
    if n < 0 {
      var m: nat := -n;
      assert ShowInt(n) == "-" + ShowNat(m);
      ParseNegative(m);
    } else {
      ParseNonNegative(n);
    }
  }

  lemma ParseNonNegative(n: nat)
    requires Trim(ShowNat(n)) == ShowNat(n)
    ensures ParseInt(ShowNat(n)) == Some(n)
  {
    var s := ShowNat(n);
    assert IsDigit(s[0]);
    ParseDigitString(s);
    DigitsValueShowNat(n);
  }

  lemma ParseNegative(m: nat)
    requires m > 0
    requires Trim("-" + ShowNat(m)) == "-" + ShowNat(m)
    ensures ParseInt("-" + ShowNat(m)) == Some(-(m as int))
  {
    var d := ShowNat(m);
    var s := "-" + d;
    assert s[0] == '-' && s[1..] == d;
    ParseDigitString(d);
    ParseMinus(s);
    DigitsValueShowNat(m);
  }

  /** A trimmed `-` followed by digit groups reads back negated. */
  lemma ParseMinus(t: string)
    requires Trim(t) == t && |t| > 0 && t[0] == '-' && DigitGroups(t[1..])
    ensures ParseInt(t) == Some(-(DigitsValue(DropUnderscores(t[1..])) as int))
  {
  }

  lemma TrimShowInt(n: int)
    ensures Trim(ShowInt(n)) == ShowInt(n)
  {
    var s := ShowInt(n);
    assert s[0] == '-' || IsDigit(s[0]);
    assert IsDigit(s[|s| - 1]);
    NotIsPySpace(s[0]);
    NotIsPySpace(s[|s| - 1]);
    StripUnchanged(s, IsPySpace);
  }

  lemma NotIsPySpace(c: char)
    requires c == '-' || IsDigit(c)
    ensures !IsPySpace(c)
  {
  }

  /** Only ASCII digits are read: a fullwidth "３", which Python's `int()` reads
      as 3, is refused here. */
  lemma ParseIntAsciiOnly()
    ensures ParseInt("\U{FF13}") == None
  {
    FullwidthThreeTrimmed();
  }

  lemma FullwidthThreeTrimmed()
    ensures Trim("\U{FF13}") == "\U{FF13}"
  {
    StripUnchanged("\U{FF13}", IsPySpace);
  }

  /** A run of digits has no whitespace to trim and no underscores to drop. */
  lemma PlainDigits(s: string)
    ensures AllDigits(s) ==> Trim(s) == s && DigitGroups(s) && DropUnderscores(s) == s
  {
    if AllDigits(s) {
      NotIsPySpace(s[0]);
      NotIsPySpace(s[|s| - 1]);
      StripUnchanged(s, IsPySpace);
    }
  }

  lemma ParseDigitString(d: string)
    requires AllDigits(d)
    ensures DigitGroups(d) && DropUnderscores(d) == d
  {
  }

  // ---------------------------------------------------------------- padding

  function Repeat(c: char, n: nat): (r: string)
    ensures |r| == n && forall i :: 0 <= i < n ==> r[i] == c
  {
    if n == 0 then "" else [c] + Repeat(c, n - 1)
  }

  /** Right-aligns `s` in a field of `width` filled with `c` (`f"{n:0{width}d}"`
      for a non-negative `n`). */
  function PadLeft(s: string, width: nat, c: char): (r: string)
    ensures |r| == if |s| >= width then |s| else width
    ensures r[|r| - |s|..] == s
    ensures forall i :: 0 <= i < |r| - |s| ==> r[i] == c
  {
    if |s| >= width then s else Repeat(c, width - |s|) + s
  }

  predicate StartsWith(s: string, prefix: string)
  {
    |prefix| <= |s| && s[..|prefix|] == prefix
  }
}

=== FILE: wrappers.dfy ===
/** Optional values: Python's `None` and JavaScript's `null`/`undefined`. */
module Wrappers {

  datatype Option<+T> = None | Some(value: T) {

    /** The wrapped value, or `default` when there is none (Python's `x or default`
        when only `None` is falsy). */
    function GetOr(default: T): T {
      match this
      case Some(v) => v
      case None => default
    }
  }
}
